=== FILE: README.md ===
# hm-DianPing core, modelled in Dafny

hm-DianPing is a Spring Boot "local life" service (shops, blogs, follows,
flash-sale vouchers). Most of its logic is decision-making around a Redis
cache and a relational database. This project models that logic as pure
functions and short loops over immutable state, and proves properties of it.

State:

- The Redis string keyspace is a map from key to value and TTL (`Store`).
- Redis sets are a map from key to member set (`SetStore`).
- Bitmaps, sorted sets, hashes and the order stream are per-module maps and
  sequences.
- Database tables are maps or multisets of rows.

Inputs that are not computed here are passed in as parameters:

- the clock;
- the database loader, which returns a row, null or an exception for one id, and a map of rows or an exception (a null map throws the same way) for a batch of ids;
- the replies of the server-side Lua scripts;
- the cache states other clients produce while a caller waits;
- random tokens and nicknames;
- the JSON codec, an opaque record of encode/decode functions.

Modules, in the program's own terms:

| module | file | what it models |
|---|---|---|
| `Base` | base.dfy | nullable values; `isBlank`/`isNotBlank`/`isEmpty`; decimal printing and parsing of ids; the `IN (...) ORDER BY FIELD(id, ...)` query; `Long.intValue()` truncation; unsigned `>>>`; `TimeUnit.toSeconds` |
| `Store`, `SetStore` | store.dfy, set_store.dfy | GET, SET, SET NX, DEL; SMEMBERS, SADD, SREM |
| `Constants` | constants.dfy | the `RedisConstants` key prefixes and TTLs |
| `CacheClient` | cache_client.dfy | `set`, `setWithLogicalExpire`, the `"1"` rebuild lock, `queryWithPassThrough`, `queryWithMutex` (bounded polling), `queryWithLogicalExpire` (double check under the lock, asynchronous rebuild), `batchQueryOptimized`, `warmUp` |
| `SimpleRedisLock` | simple_redis_lock.dfy | the owner-token lock: SET NX acquire, compare-and-delete release, lease expiry |
| `VoucherOrder` | voucher_order.dfy | `seckillVoucher` reply dispatch, `createVoucherOrder`, `handlerVoucherOrder`, the stream consumer's ack and pending-recovery protocol |
| `UserService` | user_service.dfy | `sign`, `signCount`, `login`, `createUserWithPhone` |
| `BlogService` | blog_service.dfy | the `queryBlogOfFollow` scroll cursor, the `likeBlog` retry loop, like-count reconciliation, the `saveBlog` fan-out |
| `ShopService` | shop_service.dfy | `queryById`, `saveShop2Redis`, `update`, the `queryShopByType` geo page |
| `FollowService` | follow_service.dfy | `follow`, `addOrRemoveResult`, `common`, `isFollow` |
| `ShopTypeService` | shop_type_service.dfy | `queryTypeList` |

Paths below are relative to the repository root. `CacheClient.java` is
`src/main/java/com/hmdp/utils/CacheClient.java`. The service classes are
under `src/main/java/com/hmdp/service/impl/`.

Behaviours of the code that the model keeps as they are:

- The mutex read's timeout throws a plain `RuntimeException`.
- The mutex lock holder loads from the database without re-reading the cache.
- The order consumer's `run()` starts with live reads. It drains the pending
  list only after an exception, not at start-up.
- `queryTypeList` builds the "empty table" failure and discards it (see Findings).
- `queryShopByType` looks a shop's distance up by `shop.getId().toString()`
  in a map keyed by the geo member names. A member name that parses but is
  not the id's own printing (`"07"`) leaves the distance null and the page
  throws.
- `saveBlog` parses the fan ids after the counter increment and the insert,
  so a malformed fan id throws with both already done.

## Model

| member | source | states |
|---|---|---|
| Base.Classify | src/main/java/com/hmdp/utils/CacheClient.java:57-67 | a read is a payload exactly when it is not blank, the tombstone exactly when it is `""`, and missing exactly when it is null |
| Base.LongStrInjective | src/main/java/com/hmdp/utils/CacheClient.java:55 | two ids print to the same decimal text only when they are equal, so keys built as prefix plus id never collide |
| Base.KeyInjective | src/main/java/com/hmdp/utils/CacheClient.java:55 | `prefix + id` keys of one prefix coincide only for equal ids |
| Base.ParseLongOfLongStr | src/main/java/com/hmdp/service/impl/FollowServiceImpl.java:166 | `Long.parseLong` of a printed `long` gives the same number back |
| Base.IntValue | src/main/java/com/hmdp/service/impl/VoucherOrderServiceImpl.java:317 | `Long.intValue()` lands in the `int` range and is congruent to its input modulo 2^32 |
| Base.UnsignedLong | src/main/java/com/hmdp/service/impl/UserServiceImpl.java:184 | the unsigned view of a `long` is below 2^64 and congruent to it modulo 2^64 |
| Base.ToSeconds | src/main/java/com/hmdp/utils/CacheClient.java:45 | `unit.toSeconds` of a `long` stays a `long`; sub-second units divide truncating toward zero; seconds are unchanged; minutes, hours and days are the product by 60, 3600 and 86400 when it fits, and `Long.MAX_VALUE` or `Long.MIN_VALUE` when it overflows |
| Store.Get | src/main/java/com/hmdp/utils/CacheClient.java:57 | GET returns a value exactly when the key is present, and it is the stored value |
| Store.Put | src/main/java/com/hmdp/utils/CacheClient.java:38 | SET makes the key read back the written value with the given TTL and changes no other key |
| Store.Delete | src/main/java/com/hmdp/utils/CacheClient.java:256-258 | DEL makes the key absent and keeps every other key and its TTL |
| Store.SetIfAbsent | src/main/java/com/hmdp/utils/CacheClient.java:250-254 | SET NX succeeds exactly when the key is absent; it then writes the key, and otherwise changes nothing |
| Store.IsTrue | src/main/java/com/hmdp/utils/CacheClient.java:253 | a null Boolean reply counts as false |
| SetStore.SAdd | src/main/java/com/hmdp/service/impl/BlogServiceImpl.java:425 | SADD adds exactly the given members to one key and leaves every other key's set alone |
| CacheClient.Set | src/main/java/com/hmdp/utils/CacheClient.java:37-39 | the key holds the value's JSON with the given store TTL; no other key changes |
| CacheClient.SetWithLogicalExpire | src/main/java/com/hmdp/utils/CacheClient.java:41-49 | the key holds an envelope that expires `toSeconds(time)` after now, with no store TTL; no other key changes |
| CacheClient.TryLock | src/main/java/com/hmdp/utils/CacheClient.java:250-254 | the lock is taken exactly when the key is absent; it then holds `"1"` with a 10-second TTL, and a failed attempt changes nothing |
| CacheClient.UnLock | src/main/java/com/hmdp/utils/CacheClient.java:256-258 | release deletes the key whoever holds it, and nothing else |
| CacheClient.QueryWithPassThrough | src/main/java/com/hmdp/utils/CacheClient.java:52-81 | a payload is decoded and `""` returns null, both without a load; a load happens exactly on a null or whitespace-only entry; only the read key can change |
| CacheClient.PassThroughMiss | src/main/java/com/hmdp/utils/CacheClient.java:69-80 | on a miss, a null row stores `""` with `cacheNullTtl` and returns null; a row is stored with TTL `time` and returned |
| CacheClient.PassThroughSecondReadIsCached | src/main/java/com/hmdp/utils/CacheClient.java:52-81 | after a miss, a second read returns the same value without loading: the cache-penetration guard |
| CacheClient.SleepTotalMonotone | src/main/java/com/hmdp/utils/CacheClient.java:115-128 | more polls never sleep less in total |
| CacheClient.SleepTotalBlockStep | src/main/java/com/hmdp/utils/CacheClient.java:120 | polls `5q` to `5q+4` each sleep `20(q+1)` ms |
| CacheClient.SleepBound | src/main/java/com/hmdp/utils/CacheClient.java:109-128 | up to 25 polls sleep at most 1500 ms in total |
| CacheClient.AwaitRebuild | src/main/java/com/hmdp/utils/CacheClient.java:113-136 | the waiter polls at most 25 times and stops at the first payload or tombstone, whose value it returns; otherwise it throws the timeout after 25 polls; its total sleep is the sum of the poll delays |
| CacheClient.HolderWrite | src/main/java/com/hmdp/utils/CacheClient.java:140-150 | the lock holder writes the row's JSON with TTL `time`, or `""` with `cacheNullTtl` for a null row or one `ObjectUtils.isEmpty` accepts, or nothing when the loader throws; other keys are untouched |
| CacheClient.LockRoundTrip | src/main/java/com/hmdp/utils/CacheClient.java:250-258 | taking a free lock and deleting it restores the store exactly |
| CacheClient.QueryWithMutex | src/main/java/com/hmdp/utils/CacheClient.java:84-162 | a hit or tombstone is answered from the cache; on a miss the lock is taken exactly when it is free; a waiter never loads or writes; the holder loads once, writes the row with TTL `time` or the tombstone with TTL `cacheNullTtl`, and releases the lock in every case |
| CacheClient.HitsAgree | src/main/java/com/hmdp/utils/CacheClient.java:57-67 | pass-through and mutex reads return the same value on a hit and on a tombstone, with no load, no write and no lock |
| CacheClient.Rebuild | src/main/java/com/hmdp/utils/CacheClient.java:227-240 | the asynchronous rebuild always releases the lock; a completed load, null included, leaves an envelope with no store TTL; a loader exception leaves the key as it was |
| CacheClient.QueryWithLogicalExpire | src/main/java/com/hmdp/utils/CacheClient.java:185-248 | a blank entry returns null with no lock, load or write; a fresh entry returns its data without the lock; an expired entry tries the lock exactly when it is free and returns the stale data unless the re-read under the lock is fresh; a caller that lost the lock writes nothing and the winner's call changes only the lock key; the winner schedules the rebuild exactly when its re-read is not fresh, and only the winner does |
| CacheClient.RebuildWritesEnvelope | src/main/java/com/hmdp/utils/CacheClient.java:227-240 | a scheduled rebuild whose load completes writes the envelope `rebuildNow + toSeconds(time)` with no store TTL |
| CacheClient.QuiescentWinnerRebuilds | src/main/java/com/hmdp/utils/CacheClient.java:209-227 | with no interleaved writer, an expired entry and a free lock lead to a scheduled rebuild |
| CacheClient.SecondCallerDoesNotRebuild | src/main/java/com/hmdp/utils/CacheClient.java:211 | a second caller that finds the lock still held does not rebuild and returns the stale value |
| CacheClient.RefreshedValueVisible | src/main/java/com/hmdp/utils/CacheClient.java:198-205 | after the rebuild, a read before the new expiry returns the reloaded row |
| CacheClient.Hits | src/main/java/com/hmdp/utils/CacheClient.java:278-287 | the hit map holds exactly the requested ids whose entry is not blank |
| CacheClient.Missed | src/main/java/com/hmdp/utils/CacheClient.java:278-287 | the missed list holds exactly the requested ids whose entry is blank, `""` included |
| CacheClient.LoadedRows | src/main/java/com/hmdp/utils/CacheClient.java:299-312 | the loaded rows of the given ids, with their loaded values |
| CacheClient.KeyOfOtherId | src/main/java/com/hmdp/utils/CacheClient.java:267-269 | the key of an id outside a list is none of the list's keys |
| CacheClient.KeysOfSubset | src/main/java/com/hmdp/utils/CacheClient.java:267-269 | fewer ids give fewer keys |
| CacheClient.HitsMissedStep | src/main/java/com/hmdp/utils/CacheClient.java:278-287 | one more id adds it to the hits or to the misses, by whether its entry is blank |
| CacheClient.SplitHits | src/main/java/com/hmdp/utils/CacheClient.java:267-287 | the MGET loop produces exactly the hit map and the missed list |
| CacheClient.KeysDiffer | src/main/java/com/hmdp/utils/CacheClient.java:298 | distinct ids have distinct keys |
| CacheClient.WriteMissesStep | src/main/java/com/hmdp/utils/CacheClient.java:297-316 | the pipelined write of the last missed id decides its entry |
| CacheClient.WriteMissesHolds | src/main/java/com/hmdp/utils/CacheClient.java:297-316 | after the pipeline every missed id holds its row's JSON, or `""` for 2 minutes when the load was null |
| CacheClient.WriteMissesFrame | src/main/java/com/hmdp/utils/CacheClient.java:290-321 | the pipeline writes no key but those of the missed ids |
| CacheClient.BatchQuery | src/main/java/com/hmdp/utils/CacheClient.java:262-324 | the call throws, writing nothing, exactly when there are misses and the batch loader throws or returns null; with no misses the loader is not consulted and nothing is written; otherwise only requested ids come back, hits are decoded and left as they are, loaded misses are returned and cached, null misses are cached as `""` for 2 minutes and left out, and no other key is written |
| CacheClient.WarmUpStep | src/main/java/com/hmdp/utils/CacheClient.java:417-422 | the last id's load decides its write |
| CacheClient.WarmUpWritesRow | src/main/java/com/hmdp/utils/CacheClient.java:419-421 | after warm-up, an id with a row holds its logical-expiry envelope with no store TTL |
| CacheClient.WarmUpSkipsMissing | src/main/java/com/hmdp/utils/CacheClient.java:419-425 | an id whose load is null or throws keeps its old entry |
| CacheClient.WarmUpFrame | src/main/java/com/hmdp/utils/CacheClient.java:412-430 | warm-up touches no key but those of the given ids |
| SimpleRedisLock.TryLock | src/main/java/com/hmdp/utils/SimpleRedisLock.java:37-44 | a non-positive timeout is rejected by the server and throws; otherwise acquire succeeds exactly when the key is absent and then stores the caller's token with that TTL; a failure or a throw changes nothing |
| SimpleRedisLock.Unlock | src/main/java/com/hmdp/utils/SimpleRedisLock.java:47-54 | release deletes the key exactly when it holds the caller's token, and otherwise changes nothing |
| SimpleRedisLock.Expire | src/main/java/com/hmdp/utils/SimpleRedisLock.java:41 | lease expiry removes the key and nothing else |
| SimpleRedisLock.LockKeysDistinct | src/main/java/com/hmdp/utils/SimpleRedisLock.java:24 | locks with different names live under different keys |
| SimpleRedisLock.OtherLockUnaffected | src/main/java/com/hmdp/utils/SimpleRedisLock.java:41 | acquiring or releasing one lock leaves a lock of another name as it was |
| SimpleRedisLock.TokensDistinct | src/main/java/com/hmdp/utils/SimpleRedisLock.java:39 | threads of one JVM have distinct tokens |
| SimpleRedisLock.SecondTryLockFails | src/main/java/com/hmdp/utils/SimpleRedisLock.java:41 | a held lock cannot be taken again, not even by its owner: the lock is not reentrant (a second call with a rejected timeout throws instead) |
| SimpleRedisLock.TryLockUnlockRoundTrip | src/main/java/com/hmdp/utils/SimpleRedisLock.java:37-54 | acquire then release by the same thread restores the store |
| SimpleRedisLock.ForeignUnlockKeepsLock | src/main/java/com/hmdp/utils/SimpleRedisLock.java:47-54 | a release by another thread leaves the holder's lock in place |
| SimpleRedisLock.StaleUnlockKeepsSuccessor | src/main/java/com/hmdp/utils/SimpleRedisLock.java:47-54 | after A's lease expires and B acquires, A's late release leaves B's lock in place and B's own release frees it; with a rejected lease time neither acquire gets through |
| VoucherOrder.SeckillVoucher | src/main/java/com/hmdp/service/impl/VoucherOrderServiceImpl.java:303-334 | a null reply throws; a reply whose `int` value is 0 is ok with the order id generated before the script; the known codes give their messages; any other code throws `IllegalStateException` |
| VoucherOrder.SeckillFailureCodes | src/main/java/com/hmdp/service/impl/VoucherOrderServiceImpl.java:317-327 | each of -1, -2, 1, 2, and only it, gives its failure message; a code outside {-2..2} throws with that code |
| VoucherOrder.SeckillReplyTruncated | src/main/java/com/hmdp/service/impl/VoucherOrderServiceImpl.java:317 | a reply outside the `int` range is truncated first, so 2^32 reads as success |
| VoucherOrder.CreateVoucherOrder | src/main/java/com/hmdp/service/impl/VoucherOrderServiceImpl.java:272-298 | an existing order for the user and voucher changes nothing; no stock above zero changes nothing; past both checks the insert rolls back exactly when the order id is taken, and otherwise the order is created: exactly one row added and that voucher's stock lowered by exactly one |
| VoucherOrder.CreatePreservesConsistent | src/main/java/com/hmdp/service/impl/VoucherOrderServiceImpl.java:277-296 | the apply never drives stock below zero and never writes a second order for one user and voucher |
| VoucherOrder.CreateIdempotent | src/main/java/com/hmdp/service/impl/VoucherOrderServiceImpl.java:277-283 | applying one order twice is applying it once |
| VoucherOrder.HandlerVoucherOrder | src/main/java/com/hmdp/service/impl/VoucherOrderServiceImpl.java:251-270 | a lock held elsewhere returns normally with nothing written; otherwise the apply runs under the lock, and an exception leaves the tables as they were |
| VoucherOrder.HandlerPreservesConsistent | src/main/java/com/hmdp/service/impl/VoucherOrderServiceImpl.java:251-298 | handling an order keeps stock non-negative and one order per user and voucher |
| VoucherOrder.RedeliveryAfterCommit | src/main/java/com/hmdp/service/impl/VoucherOrderServiceImpl.java:164-172 | an entry redelivered after its order committed returns normally and changes nothing |
| VoucherOrder.Ack | src/main/java/com/hmdp/service/impl/VoucherOrderServiceImpl.java:172 | XACK moves one id from pending to acknowledged and keeps the group valid |
| VoucherOrder.LiveStep | src/main/java/com/hmdp/service/impl/VoucherOrderServiceImpl.java:138-178 | an empty read changes nothing; a read delivers the next entry; it is acknowledged exactly when the handler returned normally, which includes a lock held elsewhere; after an exception it stays pending |
| VoucherOrder.HandlePendingList | src/main/java/com/hmdp/service/impl/VoucherOrderServiceImpl.java:183-231 | the recovery loop computes `Drain`: the same turns, acknowledgements and tables |
| VoucherOrder.Drain | src/main/java/com/hmdp/service/impl/VoucherOrderServiceImpl.java:183-231 | each turn handles the oldest pending entry; exactly the oldest `acks` entries end up acknowledged, in order; it stops early only on an empty pending list; the tables stay consistent |
| VoucherOrder.DrainFirstTurn | src/main/java/com/hmdp/service/impl/VoucherOrderServiceImpl.java:186-222 | a turn whose handler throws changes nothing and the same entry is retried; a turn whose handler returns acknowledges that entry and continues from the handler's tables |
| VoucherOrder.ThrowingEntryStaysPending | src/main/java/com/hmdp/service/impl/VoucherOrderServiceImpl.java:216-229 | an entry whose handler throws on every turn is never acknowledged: all turns run and nothing changes |
| VoucherOrder.Run | src/main/java/com/hmdp/service/impl/VoucherOrderServiceImpl.java:117-181 | the consumer computes `Rounds`: each round a live step, and a drain after a failed one |
| VoucherOrder.Rounds | src/main/java/com/hmdp/service/impl/VoucherOrderServiceImpl.java:117-181 | live steps and drains only ever add acknowledgements and deliveries, keep the group valid and keep the tables consistent |
| UserService.ZeroPad | src/main/java/com/hmdp/service/impl/UserServiceImpl.java:136 | fixed-width date fields are padded to exactly their width |
| UserService.SetBit | src/main/java/com/hmdp/service/impl/UserServiceImpl.java:141 | SETBIT sets the offset, keeps every other bit, and grows the string by whole bytes |
| UserService.Sign | src/main/java/com/hmdp/service/impl/UserServiceImpl.java:130-143 | signing sets bit `day-1` of `USER_SIGN_KEY + userId + ":yyyy:MM"` and changes nothing else |
| UserService.SignIdempotent | src/main/java/com/hmdp/service/impl/UserServiceImpl.java:141 | signing twice on one day leaves the bitmap as signing once |
| UserService.BitsValueBound | src/main/java/com/hmdp/service/impl/UserServiceImpl.java:158-162 | an unsigned field of `width` bits is below 2^width |
| UserService.TrailingOnesIsStreak | src/main/java/com/hmdp/service/impl/UserServiceImpl.java:172-185 | the low 1 bits of the field are the streak of signed days ending today |
| UserService.CountTrailingOnes | src/main/java/com/hmdp/service/impl/UserServiceImpl.java:172-185 | the counting loop returns the number of low 1 bits of the unsigned value |
| UserService.SignCountOfReply | src/main/java/com/hmdp/service/impl/UserServiceImpl.java:163-186 | a null or empty reply, or a zero, counts 0; a null element throws; otherwise the low 1 bits are counted |
| UserService.SignCount | src/main/java/com/hmdp/service/impl/UserServiceImpl.java:146-187 | the count is the streak of signed days ending today, and never more than the day of the month |
| UserService.Pow2Bound | src/main/java/com/hmdp/service/impl/UserServiceImpl.java:161 | a field of at most 31 bits stays below 2^31, so the `long` is never negative |
| UserService.SignedTodayStreak | src/main/java/com/hmdp/service/impl/UserServiceImpl.java:130-187 | after signing today the streak is at least one |
| UserService.CreateUserWithPhone | src/main/java/com/hmdp/service/impl/UserServiceImpl.java:205-212 | a saved user is named prefix plus the random suffix and is added under its phone; a failed save returns null and writes nothing |
| UserService.Login | src/main/java/com/hmdp/service/impl/UserServiceImpl.java:78-127 | a failed phone or code check returns that failure and changes nothing; otherwise a known phone logs in as its user with the table unchanged, an unknown phone logs in as the newly saved user, and a failed save throws with no session; a login stores its user under `LOGIN_USER_KEY + token` |
| UserService.LoginFixed | src/main/java/com/hmdp/service/impl/UserServiceImpl.java:121-126 | the corrected login never throws the null-pointer exception |
| UserService.LoginRejects | src/main/java/com/hmdp/service/impl/UserServiceImpl.java:80-91 | the phone check comes first, then the code check (null, empty or different code); either failure changes nothing |
| UserService.LoginSucceeds | src/main/java/com/hmdp/service/impl/UserServiceImpl.java:93-123 | a matching code logs in a known user, or creates an unknown one named prefix plus suffix, and stores it under the token |
| UserService.LoginSaveFailureThrows | src/main/java/com/hmdp/service/impl/UserServiceImpl.java:97-108 | as written, an unknown phone whose save fails throws at the icon log line; corrected, it fails with "登录失败！" |
| BlogService.FinalRun | src/main/java/com/hmdp/service/impl/BlogServiceImpl.java:445-459 | the final run of tuples sharing the last score: all in it share that score, and the tuple before it differs |
| BlogService.ScrollCursor | src/main/java/com/hmdp/service/impl/BlogServiceImpl.java:443-459 | ids keep tuple order, `minTime` is the last tuple's score, and `offset` is the final run, plus one when the whole page shares the score 0 |
| BlogService.OffsetOfPositiveScores | src/main/java/com/hmdp/service/impl/BlogServiceImpl.java:445-459 | with positive scores the offset is exactly the length of the final run |
| BlogService.QueryBlogOfFollow | src/main/java/com/hmdp/service/impl/BlogServiceImpl.java:433-483 | a null or empty inbox is the "no messages" reply; a member that `Long.valueOf` rejects fails the request, and so does a found blog whose author row is missing or whose like-counter field does not parse; otherwise the page keeps tuple order, its cursor is that of its tuples, its blogs are the existing ones in `FIELD` order, and each carries its author's nickname and icon, the counter's like count (null without a field) and whether the viewer has liked it |
| BlogService.DecorateAll | src/main/java/com/hmdp/service/impl/BlogServiceImpl.java:285-305 | one decoration per blog, at its position: the author row's nickname and icon, the parsed like-counter field or null, and the viewer's membership in the blog's liker set |
| BlogService.DeletedAuthorFailsPage | src/main/java/com/hmdp/service/impl/BlogServiceImpl.java:479-483 | an inbox holding blog 5, whose author has no user row, meets the failure condition |
| BlogService.CodeResult | src/main/java/com/hmdp/service/impl/BlogServiceImpl.java:344-358 | the `int` value 1 means liked, -1 unliked, and anything else is a failure |
| BlogService.LikeBlog | src/main/java/com/hmdp/service/impl/BlogServiceImpl.java:320-380 | at most two script calls; the first non-null reply decides; a back-off of 50 ms follows only a first-attempt exception; an interrupted back-off fails; the fall-through failure is unreachable; the loop's result, attempt count and back-off equal those of the recursive retry policy `RetryFrom` |
| BlogService.FirstReplyDecides | src/main/java/com/hmdp/service/impl/BlogServiceImpl.java:330-356 | under the retry policy, a non-null first reply decides after one script call with no back-off |
| BlogService.TransientFailureRecovers | src/main/java/com/hmdp/service/impl/BlogServiceImpl.java:330-372 | an exception, an uninterrupted 50 ms back-off, then reply 1 on the second call is a successful like |
| BlogService.SyncLikeCount | src/main/java/com/hmdp/service/impl/BlogServiceImpl.java:156-218 | every existing blog ends with the count of the last well-formed hash field naming it, unless its column is null; no blog is added or removed; an empty hash changes nothing |
| BlogService.SyncLeavesOthers | src/main/java/com/hmdp/service/impl/BlogServiceImpl.java:173-204 | a blog no well-formed field names, or one whose count already matches, is unchanged |
| BlogService.MalformedFieldIgnored | src/main/java/com/hmdp/service/impl/BlogServiceImpl.java:205-207 | a field that fails to parse changes nothing, wherever it sits |
| BlogService.PushAllReaches | src/main/java/com/hmdp/service/impl/BlogServiceImpl.java:417-422 | each fan's feed holds the blog with score `now` |
| BlogService.PushAllReachesAll | src/main/java/com/hmdp/service/impl/BlogServiceImpl.java:417-422 | every fan's feed holds the blog with score `now` |
| BlogService.PushAllFrame | src/main/java/com/hmdp/service/impl/BlogServiceImpl.java:417-422 | a feed that belongs to no fan is left as it was |
| BlogService.SaveBlog | src/main/java/com/hmdp/service/impl/BlogServiceImpl.java:400-430 | the author's counter rises by one even when the save fails, and no other counter changes; a failed save, a malformed fan id or no fans pushes nothing; otherwise every parsed fan's feed gets the blog, the blog's push index records every fan, and no other push index changes |
| BlogService.FanOutOnlyToFans | src/main/java/com/hmdp/service/impl/BlogServiceImpl.java:412-422 | the blog reaches no feed but its author's parsed fans' |
| ShopService.Lookup | src/main/java/com/hmdp/service/impl/ShopServiceImpl.java:282 | `getById` returns the row exactly when the id is in the table |
| ShopService.ShopKeysDistinct | src/main/java/com/hmdp/utils/RedisConstants.java:12-16 | a shop's cache key and its rebuild-lock key never coincide |
| ShopService.QueryById | src/main/java/com/hmdp/service/impl/ShopServiceImpl.java:57-82 | the reply fails with "店铺不存在！" exactly when the logical-expiry read returns null; a cold key fails whatever the table holds |
| ShopService.SaveShop2Redis | src/main/java/com/hmdp/service/impl/ShopServiceImpl.java:280-292 | the key holds an envelope of the row (or null) expiring `now + expireSeconds`, with no store TTL; no other key changes |
| ShopService.SaveShopIsLogicalWrite | src/main/java/com/hmdp/service/impl/ShopServiceImpl.java:280-292 | the warm-up write is exactly the engine's `setWithLogicalExpire` in seconds |
| ShopService.WarmedShopIsServed | src/main/java/com/hmdp/service/impl/ShopServiceImpl.java:57-82 | after warm-up, a read before the expiry returns the row |
| ShopService.Update | src/main/java/com/hmdp/service/impl/ShopServiceImpl.java:296-306 | a null id fails and touches nothing; otherwise the row's non-null fields are written over the stored row, no other row changes, and the cache key is deleted |
| ShopService.UpdateThenPassThroughReloads | src/main/java/com/hmdp/service/impl/ShopServiceImpl.java:301-305 | after an update, a pass-through read reloads the merged row and caches it |
| ShopService.UpdateThenQueryByIdFails | src/main/java/com/hmdp/service/impl/ShopServiceImpl.java:296-306 | as written, `queryById` after an update reports the shop missing although the row exists |
| ShopService.UpdateAndRefresh | src/main/java/com/hmdp/service/impl/ShopServiceImpl.java:296-306 | the corrected update writes the row like `update` and rewrites only the shop's key |
| ShopService.UpdateAndRefreshServesRow | src/main/java/com/hmdp/service/impl/ShopServiceImpl.java:57-82 | with the corrected update, a read within the logical TTL returns the merged row |
| ShopService.Window | src/main/java/com/hmdp/service/impl/ShopServiceImpl.java:327-340 | a window clipped to the list has the clipped length |
| Base.ParseEach | src/main/java/com/hmdp/service/impl/ShopServiceImpl.java:340-347 | a successful parse has one id per name |
| Base.FirstIndex | src/main/java/com/hmdp/service/impl/ShopServiceImpl.java:349 | `FIELD(x, ids)`: the position of `x`'s first occurrence in `ids` |
| Base.FirstExisting | src/main/java/com/hmdp/service/impl/ShopServiceImpl.java:349 | `IN (ids) ORDER BY FIELD(id, ids)` returns exactly the listed ids that have a row, ordered by first occurrence in `ids` |
| Base.FirstExistingDistinct | src/main/java/com/hmdp/service/impl/ShopServiceImpl.java:349 | no id comes back twice |
| ShopService.GeoPageOf | src/main/java/com/hmdp/service/impl/ShopServiceImpl.java:319-351 | a null reply, or one no longer than `from`, is an empty page; otherwise the ids are the parsed names at `from..end` in distance order, at most `end - from` of them, and the page throws when a found shop's printed id is not one of those names; a negative `from` with a positive `end` throws |
| ShopService.CanonicalNamesFindDistances | src/main/java/com/hmdp/service/impl/ShopServiceImpl.java:339-351 | when every member name is its id's own printing, every found shop's distance is found |
| ShopService.WrappedPageStartsBeforeZero | src/main/java/com/hmdp/service/impl/ShopServiceImpl.java:319-320 | page 858993460 of size 5 wraps to `from = -1`, `end = 4` |
| ShopService.ZeroSevenParses | src/main/java/com/hmdp/service/impl/ShopServiceImpl.java:343 | `Long.valueOf("07")` accepts the leading zero and gives 7 |
| ShopService.NonCanonicalNameThrows | src/main/java/com/hmdp/service/impl/ShopServiceImpl.java:346-351 | the member name `"07"` finds shop 7 but not its distance, and the page throws |
| Base.ParseEachPointwise | src/main/java/com/hmdp/service/impl/ShopServiceImpl.java:340-347 | the list parses exactly when every name does, and each id is its name's parse |
| Base.ParseEachAppend | src/main/java/com/hmdp/service/impl/ShopServiceImpl.java:340-347 | parsing a concatenation parses both parts and concatenates the ids |
| ShopService.PageBounds | src/main/java/com/hmdp/service/impl/ShopServiceImpl.java:319-320 | without wrap-around, page `c` spans `(c-1)*size` to `c*size`, and page `c+1` starts where page `c` ends |
| ShopService.PageIsWindow | src/main/java/com/hmdp/service/impl/ShopServiceImpl.java:334-351 | for a reply of canonical names and `c*size` within `int`, page `c` spans `(c-1)*size` to `c*size` without wrap-around and holds the parsed ids of that window |
| ShopService.ParseSlice | src/main/java/com/hmdp/service/impl/ShopServiceImpl.java:340-347 | a slice of a parsable list parses to the same slice of ids |
| ShopService.WindowsParse | src/main/java/com/hmdp/service/impl/ShopServiceImpl.java:340-347 | adjoining windows of a parsable list parse to adjoining id lists |
| ShopService.SlicesParse | src/main/java/com/hmdp/service/impl/ShopServiceImpl.java:340-347 | adjoining slices of a parsable list parse to adjoining id lists |
| ShopService.ConsecutivePagesTile | src/main/java/com/hmdp/service/impl/ShopServiceImpl.java:319-351 | for a reply of canonical names, pages `c` and `c+1` together are the ids from `(c-1)*size` to `(c+1)*size`: no shop is skipped or repeated |
| FollowService.Follow | src/main/java/com/hmdp/service/impl/FollowServiceImpl.java:76-126 | no user fails with "用户未登录"; a null flag fails before the script; the reply is ok exactly when the script replied with a printable second element, which is the message; the database step gets the reply exactly after an ok |
| FollowService.RemoveAll | src/main/java/com/hmdp/service/impl/FollowServiceImpl.java:145 | the delete removes every matching row and no other |
| FollowService.AddOrRemoveResult | src/main/java/com/hmdp/service/impl/FollowServiceImpl.java:130-154 | status 2 inserts the row, and a failed save throws; status -2 removes the matching rows, and removing none throws; any other status changes nothing; a malformed reply throws |
| FollowService.FollowThenUnfollowRestores | src/main/java/com/hmdp/service/impl/FollowServiceImpl.java:133-150 | following then unfollowing a pair that had no row restores the table |
| FollowService.DispatchedStepFailures | src/main/java/com/hmdp/service/impl/FollowServiceImpl.java:105-111 | with a working insert, the database step after an ok reply throws exactly for a non-integer status or an unfollow of a missing row |
| FollowService.Common | src/main/java/com/hmdp/service/impl/FollowServiceImpl.java:157-169 | no user fails; an empty intersection is empty; otherwise the result is the existing users whose id is in both follow sets, and a malformed member throws |
| FollowService.CommonIsSymmetric | src/main/java/com/hmdp/service/impl/FollowServiceImpl.java:162 | two users see the same common follows whoever asks |
| FollowService.IsFollow | src/main/java/com/hmdp/service/impl/FollowServiceImpl.java:172-178 | true exactly when the target's decimal id is in the caller's follow set |
| FollowService.IsFollowTracksSet | src/main/java/com/hmdp/service/impl/FollowServiceImpl.java:176-177 | adding the target makes it true, removing it makes it false, and another user's set does not matter |
| ShopTypeService.InsertPermutes | src/main/java/com/hmdp/service/impl/ShopTypeServiceImpl.java:44 | insertion adds exactly one element |
| ShopTypeService.InsertSorted | src/main/java/com/hmdp/service/impl/ShopTypeServiceImpl.java:44 | insertion into a sorted list keeps it sorted |
| ShopTypeService.OrderBySortSpec | src/main/java/com/hmdp/service/impl/ShopTypeServiceImpl.java:44 | `ORDER BY sort` returns the rows sorted by `sort`, as a permutation of the table |
| ShopTypeService.OrderBySortKeepsSorted | src/main/java/com/hmdp/service/impl/ShopTypeServiceImpl.java:44 | a list already ordered by `sort` comes back unchanged |
| ShopTypeService.QueryTypeList | src/main/java/com/hmdp/service/impl/ShopTypeServiceImpl.java:34-53 | a non-blank cached list is decoded without a table read; otherwise the rows, sorted and complete, are cached for `CACHE_SHOP_TTL` minutes and returned; no other key changes |
| ShopTypeService.SecondReadIsCached | src/main/java/com/hmdp/service/impl/ShopTypeServiceImpl.java:37-52 | once the list is cached, the next read returns the same list without a table read |
| ShopTypeService.EmptyTableIsCachedAsWritten | src/main/java/com/hmdp/service/impl/ShopTypeServiceImpl.java:45-52 | as written, an empty table is cached and returned ok, and hides rows added later |
| ShopTypeService.QueryTypeListFixed | src/main/java/com/hmdp/service/impl/ShopTypeServiceImpl.java:45-48 | the corrected read reports an empty table and writes nothing, and otherwise behaves as written |
| ShopTypeService.FixedEmptyTableStaysCold | src/main/java/com/hmdp/service/impl/ShopTypeServiceImpl.java:45-52 | with the correction, rows added after an empty read are served by the next read |

## Left out

- Threads, executors and shutdown are left out. Each read is one sequential call. Other clients appear only as inputs: the mutex waiter's snapshots, the store seen under the logical-expiry lock, and the lock keys held elsewhere. `Thread.sleep` durations are summed, not slept.
- The logical-expiry rebuild always runs to completion after the call returns. A rebuild that never runs, or that interleaves with later calls, is not modelled.
- TTL eviction is not applied. A TTL is recorded on each key. `SimpleRedisLock.Expire` is the only eviction, and it stands for a lease running out.
- Hutool JSON and `BeanUtil` are not modelled. The codec is an opaque record, and lemmas that need a round trip assume it for the one value involved.
- The Lua scripts `seckill.lua`, `blogLiked.lua`, `isFollow.lua` and `unlock.lua` are not part of this model. Their replies are inputs. The release is modelled as an atomic compare-and-delete, as its caller's comment and the older inline version at `SimpleRedisLock.java:56-67` describe.
- The randomised batch TTL is a parameter `ttlFor`. It is floating point and random.
- Geo distances and the radius search are not modelled. The geo reply is the member list in distance order.
- `queryShopByType` without coordinates is left out. It is a plain MyBatis page query.
- Redisson's lock internals, the transaction proxy and MyBatis query building are reduced to their effect. The per-user lock is a set of keys held by others. A transaction is one atomic step. The proxy is a flag.
- The stream read's blocking timeout and the `running`/interrupt flags are reduced to a finite schedule. Running out of schedule stands for `running` turning false.
- `USER_NICK_NAME_PREFIX`, `SystemConstants.DEFAULT_PAGE_SIZE` and `RegexUtils` are not part of this model. They are parameters: `nickPrefix`, `pageSize` and `phoneInvalid`.
- The session hash and its TTL are reduced to the stored user. The `sendCode` and `logout` operations are left out, as they are not part of this core.
- `SyncLikeCount` assumes every database update succeeds. A failed update only changes the log and the counter of updated rows.
- `CreateVoucherOrder` models an insert failure as an existing order id, which rolls the transaction back. Other database failures are not modelled.
- `SaveBlog` does not model the 60-day and 7-day expiries of the feeds and the push index.
- `Common` returns user ids, not the user view objects built from them.
- ParseBounded: digits are ASCII `0`-`9` only. `Long.parseLong` and `Integer.parseInt` also accept other Unicode decimal digits (`"１２"` parses to 12), which the model rejects, so `ParseLong`, `ParseAll`, `SyncLikeCount`, `Common`, `GeoPageOf` and `SaveBlog` treat such text as malformed.
- QueryWithLogicalExpire: one `now` stands for both clock reads (`CacheClient.java:202` and `:218`). An envelope that expires between the first check and the re-check under the lock is fresh at both in the model.
- WarmUp: one `now` stands for the clock read of each id's `setWithLogicalExpire` (`CacheClient.java:45`, called at `:421`); the asynchronous writes of one warm-up may in fact see different clocks.
- SaveBlog: one `now` stands for the `System.currentTimeMillis()` read per fan (`BlogServiceImpl.java:419`), so every fan's feed gets the same score.
- Login: users are a map keyed by phone, so two rows with one phone cannot be represented; for them `.one()` (`UserServiceImpl.java:93-95`) throws `TooManyResultsException`.
- TryLock: only a non-positive expire time is modelled as rejected; the server's upper bound on expire times is not modelled.
- QueryBlogOfFollow: the current user (`UserHolder.getUser()`, `BlogServiceImpl.java:435`) is assumed logged in and is the `viewer` parameter, so the not-logged-in `isLike = false` branch (`:301-303`) is not reached; the inbox page is an input; the blog rows' other columns are not modelled.
- SetWithLogicalExpire: the `LocalDateTime.plusSeconds` of `CacheClient.java:45` is modelled as unbounded integer addition; its `DateTimeException` beyond the supported date range is not modelled.

## Findings

| source | as written | input that shows it | evidently intended | confidence | as-written member | corrected member |
|---|---|---|---|---|---|---|
| src/main/java/com/hmdp/service/impl/UserServiceImpl.java:105-126 | an unknown phone whose save fails gets a null user; the DTO is null, and `userDTO.getIcon()` on the log line throws before the `else` that returns "登录失败！" | valid phone, matching code, no user with that phone, `save` returns false | return "登录失败！" and create no session | not executed; high | UserService.LoginSaveFailureThrows | UserService.LoginFixed |
| src/main/java/com/hmdp/service/impl/ShopServiceImpl.java:296-306 | `update` deletes `CACHE_SHOP_KEY + id`, which `queryById` reads with logical expiry; a logical-expiry read never loads a cold key, so every later `queryById` fails until a warm-up | an existing shop, `update` with its id, then `queryById(id)` | refresh the envelope, or read with an engine that loads on a miss | not executed; medium | ShopService.UpdateThenQueryByIdFails | ShopService.UpdateAndRefresh |
| src/main/java/com/hmdp/service/impl/ShopTypeServiceImpl.java:45-52 | the failure for an empty table is built and discarded; the empty list is cached for 30 minutes and returned ok | an empty `tb_shop_type` with a cold cache, then rows added | return the failure and cache nothing | not executed; high | ShopTypeService.EmptyTableIsCachedAsWritten | ShopTypeService.QueryTypeListFixed |

=== FILE: base.dfy ===
/**
 * Shared vocabulary of the model: Java's nullable values, the text
 * predicates of commons-lang (`isBlank`, `isEmpty`), decimal printing and
 * parsing of `Long`/`Integer` ids, `Long.intValue()` truncation and
 * `TimeUnit` conversion to seconds.
 */
module Base {

  /** A Java reference that may be `null`. */
  datatype Option<+T> = None | Some(value: T)

  // ---------------------------------------------------------------------
  // Text predicates
  // ---------------------------------------------------------------------

  /** `Character.isWhitespace`: the Unicode space, line and paragraph
      separators other than the no-break spaces, plus the ASCII controls
      HT, LF, VT, FF, CR and FS..US. */
  predicate IsWhitespace(c: char) {
    || c == ' ' || c == '\t' || c == '\n' || c == '\r'
    || c == '\U{000B}' || c == '\U{000C}'
    || ('\U{001C}' <= c <= '\U{001F}')
    || c == '\U{1680}'
    || ('\U{2000}' <= c <= '\U{2006}')
    || ('\U{2008}' <= c <= '\U{200A}')
    || c == '\U{2028}' || c == '\U{2029}' || c == '\U{205F}' || c == '\U{3000}'
  }

  /** Every character of `t` is whitespace (true of the empty string). */
  predicate AllWhitespace(t: string) {
    t == [] || (IsWhitespace(t[0]) && AllWhitespace(t[1..]))
  }

  /** `StringUtils.isBlank`: null, empty, or whitespace only. */
  predicate IsBlank(s: Option<string>) {
    match s
    case None => true
    case Some(t) => AllWhitespace(t)
  }

  /** `StringUtils.isNotBlank`, which for one argument is also `isNoneBlank`. */
  predicate IsNotBlank(s: Option<string>) {
    !IsBlank(s)
  }

  /** `ObjectUtils.isEmpty` on a string: null or of length zero. */
  predicate IsEmptyText(s: Option<string>) {
    s == None || s == Some("")
  }

  /** How a string-valued cache read is classified by the cache-aside code:
      no entry, the empty-string tombstone, a payload, or a non-empty
      string made of whitespace only (which no branch treats as a hit). */
  datatype Probe = Missing | Tombstone | Payload(text: string) | WhitespaceOnly

  function Classify(s: Option<string>): (p: Probe)
    ensures p.Payload? <==> IsNotBlank(s)
    ensures p.Payload? ==> s == Some(p.text)
    ensures p == Tombstone <==> s == Some("")
    ensures p == Missing <==> s == None
  {
    match s
    case None => Missing
    case Some(t) =>
      if t == "" then Tombstone
      else if IsNotBlank(s) then Payload(t)
      else WhitespaceOnly
  }

  // ---------------------------------------------------------------------
  // Decimal text of ids (`String.valueOf(long)`, `Long.toString`)
  // ---------------------------------------------------------------------

  function DigitChar(d: nat): (c: char)
    requires d < 10
    ensures '0' <= c <= '9'
  {
    (48 + d) as char
  }

  function DigitValue(c: char): (d: nat)
    requires '0' <= c <= '9'
    ensures d < 10 && DigitChar(d) == c
  {
    (c as int) - 48
  }

  /** Every character of `s` is an ASCII digit (true of the empty string). */
  predicate AllDigits(s: string) {
    s == [] || (AllDigits(s[..|s| - 1]) && '0' <= s[|s| - 1] <= '9')
  }

  lemma {:induction false} FirstIsDigit(s: string)
    requires |s| >= 1 && AllDigits(s)
    ensures '0' <= s[0] <= '9'
  {
    if |s| > 1 {
      FirstIsDigit(s[..|s| - 1]);
    }
  }

  /** Decimal digits of a natural number, most significant first, without
      leading zeros. */
  function NatStr(n: nat): (s: string)
    ensures |s| >= 1
  {
    if n < 10 then [DigitChar(n)] else NatStr(n / 10) + [DigitChar(n % 10)]
  }

  lemma {:induction false} NatStrDigits(n: nat)
    ensures AllDigits(NatStr(n))
  {
    if n >= 10 {
      NatStrDigits(n / 10);
      assert NatStr(n)[..|NatStr(n)| - 1] == NatStr(n / 10);
    }
  }

  /** `Long.toString(n)`: a minus sign for negative values, then the
      digits of the magnitude. */
  function LongStr(n: int): (s: string)
    ensures |s| >= 1
  {
    if n < 0 then "-" + NatStr(-n) else NatStr(n)
  }

  lemma {:induction false} NatStrInjective(a: nat, b: nat)
    requires NatStr(a) == NatStr(b)
    ensures a == b
    decreases a
  {
    var sa, sb := NatStr(a), NatStr(b);
    if a >= 10 && b >= 10 {
      assert sa[..|sa| - 1] == NatStr(a / 10);
      assert sb[..|sb| - 1] == NatStr(b / 10);
      NatStrDigits(a);
      NatStrDigits(b);
      assert DigitValue(sa[|sa| - 1]) == a % 10;
      assert DigitValue(sb[|sb| - 1]) == b % 10;
      NatStrInjective(a / 10, b / 10);
    } else if a < 10 && b < 10 {
      NatStrDigits(a);
      NatStrDigits(b);
      assert DigitValue(sa[0]) == a;
      assert DigitValue(sb[0]) == b;
    } else {
      NatStrLength(a);
      NatStrLength(b);
    }
  }

  /** A number has more than one digit exactly when it is at least ten. */
  lemma NatStrLength(n: nat)
    ensures n >= 10 <==> |NatStr(n)| >= 2
  {
    if n >= 10 {
      assert |NatStr(n)| == |NatStr(n / 10)| + 1;
    }
  }

  /** The text starts with a minus sign exactly for negative numbers. */
  lemma LeadingMinus(n: int)
    ensures LongStr(n)[0] == '-' <==> n < 0
  {
    if n >= 0 {
      NatStrDigits(n);
      FirstIsDigit(NatStr(n));
    } else {
      assert ("-" + NatStr(-n))[0] == '-';
    }
  }

  /** Distinct ids print to distinct text, so `prefix + id` keys of distinct ids differ. */
  lemma LongStrInjective(a: int, b: int)
    requires LongStr(a) == LongStr(b)
    ensures a == b
  {
    LeadingMinus(a);
    LeadingMinus(b);
    if a < 0 {
      assert LongStr(a)[1..] == NatStr(-a);
      assert LongStr(b)[1..] == NatStr(-b);
      NatStrInjective(-a, -b);
    } else {
      NatStrInjective(a, b);
    }
  }

  /** Keys built from one prefix and two ids collide only when the ids are equal. */
  lemma KeyInjective(prefix: string, a: int, b: int)
    requires prefix + LongStr(a) == prefix + LongStr(b)
    ensures a == b
  {
    assert LongStr(a) == (prefix + LongStr(a))[|prefix|..];
    assert LongStr(b) == (prefix + LongStr(b))[|prefix|..];
    LongStrInjective(a, b);
  }

  // ---------------------------------------------------------------------
  // Decimal parsing (`Long.parseLong`, `Integer.parseInt`)
  // ---------------------------------------------------------------------

  const LONG_MIN: int := -0x8000_0000_0000_0000
  const LONG_MAX: int := 0x7FFF_FFFF_FFFF_FFFF
  const INT_MIN: int := -0x8000_0000
  const INT_MAX: int := 0x7FFF_FFFF

  /** Value of a string of ASCII digits, most significant first. */
  function DigitsValue(s: string): nat
    requires AllDigits(s)
  {
    if |s| == 0 then 0 else DigitsValue(s[..|s| - 1]) * 10 + DigitValue(s[|s| - 1])
  }

  /** Optional `+` or `-`, at least one digit, and a value in `[lo, hi]`;
      any other text is a `NumberFormatException` (`None`). */
  function ParseBounded(s: string, lo: int, hi: int): (r: Option<int>)
    ensures r.Some? ==> lo <= r.value <= hi
  {
    if |s| == 0 then None
    else
      var neg := s[0] == '-';
      var body := if s[0] == '-' || s[0] == '+' then s[1..] else s;
      if |body| == 0 || !AllDigits(body) then None
      else
        var v: int := if neg then -(DigitsValue(body) as int) else DigitsValue(body);
        if lo <= v <= hi then Some(v) else None
  }

  function ParseLong(s: string): (r: Option<int>)
    ensures r.Some? ==> LONG_MIN <= r.value <= LONG_MAX
  {
    ParseBounded(s, LONG_MIN, LONG_MAX)
  }

  function ParseInt(s: string): (r: Option<int>)
    ensures r.Some? ==> INT_MIN <= r.value <= INT_MAX
  {
    ParseBounded(s, INT_MIN, INT_MAX)
  }

  lemma {:induction false} DigitsValueOfNatStr(n: nat)
    ensures AllDigits(NatStr(n)) && DigitsValue(NatStr(n)) == n
    decreases n
  {
    NatStrDigits(n);
    if n >= 10 {
      var s := NatStr(n);
      assert s[..|s| - 1] == NatStr(n / 10);
      assert DigitValue(s[|s| - 1]) == n % 10;
      DigitsValueOfNatStr(n / 10);
    }
  }

  /** Parsing a sign-free digit string reads its digits. */
  lemma ParseDigits(d: string, lo: int, hi: int)
    requires |d| >= 1 && AllDigits(d) && lo <= DigitsValue(d) <= hi
    ensures ParseBounded(d, lo, hi) == Some(DigitsValue(d))
  {
    FirstIsDigit(d);
  }

  /** Parsing `-` followed by digits reads the negated digits. */
  lemma ParseNegDigits(d: string, lo: int, hi: int)
    requires |d| >= 1 && AllDigits(d) && lo <= -(DigitsValue(d) as int) <= hi
    ensures ParseBounded("-" + d, lo, hi) == Some(-(DigitsValue(d) as int))
  {
    var s := "-" + d;
    assert s[0] == '-' && s[1..] == d;
  }

  /** Printing then parsing an id gives the id back (within the parser's range). */
  lemma ParseBoundedOfLongStr(n: int, lo: int, hi: int)
    requires lo <= n <= hi
    ensures ParseBounded(LongStr(n), lo, hi) == Some(n)
  {
    if n < 0 {
      DigitsValueOfNatStr(-n);
      ParseNegDigits(NatStr(-n), lo, hi);
    } else {
      DigitsValueOfNatStr(n);
      ParseDigits(NatStr(n), lo, hi);
    }
  }

  lemma ParseLongOfLongStr(n: int)
    requires LONG_MIN <= n <= LONG_MAX
    ensures ParseLong(LongStr(n)) == Some(n)
  {
    ParseBoundedOfLongStr(n, LONG_MIN, LONG_MAX);
  }

  /** `parse` applied to each name in order; `None` when one fails. */
  function ParseEach(names: seq<string>, parse: string -> Option<int>): (r: Option<seq<int>>)
    ensures r.Some? ==> |r.value| == |names|
  {
    if names == [] then Some([])
    else
      match (parse(names[0]), ParseEach(names[1..], parse))
      case (Some(x), Some(rest)) => Some([x] + rest)
      case _ => None
  }

  /** `Long.parseLong` (or `Long.valueOf`) on each name; `None` when one throws. */
  function ParseAll(names: seq<string>): Option<seq<int>> {
    ParseEach(names, ParseLong)
  }

  /** Every name parses exactly when the whole list does, and each id is
      its name's value. */
  lemma {:induction false} ParseEachPointwise(names: seq<string>, parse: string -> Option<int>)
    ensures ParseEach(names, parse).Some? <==> forall i :: 0 <= i < |names| ==> parse(names[i]).Some?
    ensures ParseEach(names, parse).Some? ==>
              forall i :: 0 <= i < |names| ==> ParseEach(names, parse).value[i] == parse(names[i]).value
  {
    if names != [] {
      ParseEachPointwise(names[1..], parse);
      assert forall i :: 1 <= i < |names| ==> names[i] == names[1..][i - 1];
    }
  }

  lemma {:induction false} ParseEachAppend(a: seq<string>, b: seq<string>, parse: string -> Option<int>)
    requires ParseEach(a + b, parse).Some?
    ensures ParseEach(a, parse).Some? && ParseEach(b, parse).Some?
    ensures ParseEach(a + b, parse).value == ParseEach(a, parse).value + ParseEach(b, parse).value
  {
    if a == [] {
      assert a + b == b;
    } else {
      assert (a + b)[0] == a[0];
      assert (a + b)[1..] == a[1..] + b;
      ParseEachAppend(a[1..], b, parse);
    }
  }

  // ---------------------------------------------------------------------
  // Fixed-width integers
  // ---------------------------------------------------------------------

  /** `Long.intValue()`: keep the low 32 bits, read as two's complement. */
  function IntValue(x: int): (r: int)
    ensures INT_MIN <= r <= INT_MAX
    ensures (r - x) % 0x1_0000_0000 == 0
  {
    var low := x % 0x1_0000_0000;
    if low <= INT_MAX then low else low - 0x1_0000_0000
  }

  lemma IntValueOfInt(x: int)
    requires INT_MIN <= x <= INT_MAX
    ensures IntValue(x) == x
  {
  }

  /** A Java `long` read as the unsigned 64-bit pattern that `>>>` shifts. */
  function UnsignedLong(x: int): (r: nat)
    ensures r < 0x1_0000_0000_0000_0000
    ensures (r - x) % 0x1_0000_0000_0000_0000 == 0
  {
    x % 0x1_0000_0000_0000_0000
  }

  /** Java integer division, which truncates toward zero. */
  function JavaDiv(a: int, b: int): (q: int)
    requires b > 0
    ensures a >= 0 ==> q == a / b
    ensures a < 0 ==> q == -((-a) / b)
  {
    if a >= 0 then a / b else -((-a) / b)
  }

  // ---------------------------------------------------------------------
  // `WHERE id IN (ids) ORDER BY FIELD(id, ids)`
  // ---------------------------------------------------------------------

  /** The position of the first occurrence of `x` in `ids` (what MySQL's
      `FIELD(x, ids)` reports, less one). */
  function FirstIndex(ids: seq<int>, x: int): (i: nat)
    requires x in ids
    ensures i < |ids| && ids[i] == x && x !in ids[..i]
  {
    var init := ids[..|ids| - 1];
    if x in init then
      var i := FirstIndex(init, x);
      assert init[..i] == ids[..i];
      i
    else
      assert ids == init + [ids[|ids| - 1]];
      |ids| - 1
  }

  /** Dropping the last id keeps the first positions of the ids before it,
      all of which lie before the last position. */
  lemma FirstIndexInit(ids: seq<int>)
    requires ids != []
    ensures forall x :: x in ids[..|ids| - 1] ==>
              FirstIndex(ids, x) == FirstIndex(ids[..|ids| - 1], x) < |ids| - 1
  {
  }

  /** The ids of the rows `WHERE id IN (ids) ORDER BY FIELD(id, ids)`
      returns: each listed id that has a row, once, ordered by its first
      position in `ids`. */
  function FirstExisting(ids: seq<int>, rows: set<int>): (r: seq<int>)
    ensures forall x :: x in r <==> x in ids && x in rows
    ensures forall i, j :: 0 <= i < j < |r| ==> FirstIndex(ids, r[i]) < FirstIndex(ids, r[j])
  {
    if ids == [] then []
    else
      var init := ids[..|ids| - 1];
      var last := ids[|ids| - 1];
      var r0 := FirstExisting(init, rows);
      FirstIndexInit(ids);
      assert ids == init + [last];
      if last in rows && last !in init then
        assert FirstIndex(ids, last) == |ids| - 1;
        r0 + [last]
      else r0
  }

  /** The ids come back without repeats. */
  lemma FirstExistingDistinct(ids: seq<int>, rows: set<int>)
    ensures var r := FirstExisting(ids, rows);
            forall i, j :: 0 <= i < j < |r| ==> r[i] != r[j]
  {
  }

  // ---------------------------------------------------------------------
  // java.util.concurrent.TimeUnit
  // ---------------------------------------------------------------------

  datatype TimeUnit = Nanoseconds | Microseconds | Milliseconds | Seconds | Minutes | Hours | Days

  /** `s` is `d * k` when that fits a `long`, and otherwise the bound the
      product crossed. */
  predicate SaturatedProduct(d: int, k: int, s: int) {
    && (LONG_MIN <= d * k <= LONG_MAX ==> s == d * k)
    && (d * k > LONG_MAX ==> s == LONG_MAX)
    && (d * k < LONG_MIN ==> s == LONG_MIN)
  }

  /** `TimeUnit`'s scaling up by `ratio`: beyond `Long.MAX_VALUE / ratio`
      either way the result saturates. */
  function Scale(d: int, ratio: int): int
    requires ratio > 0
  {
    var max := LONG_MAX / ratio;
    if d > max then LONG_MAX else if d < -max then LONG_MIN else d * ratio
  }

  /** `unit.toSeconds(d)` for a `long` `d`: sub-second units truncate
      toward zero; minutes, hours and days multiply by 60, 3600 and 86400,
      saturating at `Long.MAX_VALUE` and `Long.MIN_VALUE` on overflow. */
  function ToSeconds(d: int, unit: TimeUnit): (s: int)
    ensures d >= 0 ==> s >= 0
    ensures LONG_MIN <= d <= LONG_MAX ==> LONG_MIN <= s <= LONG_MAX
    ensures unit == Nanoseconds ==> s == JavaDiv(d, 1_000_000_000)
    ensures unit == Microseconds ==> s == JavaDiv(d, 1_000_000)
    ensures unit == Milliseconds ==> s == JavaDiv(d, 1000)
    ensures unit == Seconds ==> s == d
    ensures unit == Minutes ==> SaturatedProduct(d, 60, s)
    ensures unit == Hours ==> SaturatedProduct(d, 3600, s)
    ensures unit == Days ==> SaturatedProduct(d, 86400, s)
  {
    match unit
    case Nanoseconds => JavaDiv(d, 1_000_000_000)
    case Microseconds => JavaDiv(d, 1_000_000)
    case Milliseconds => JavaDiv(d, 1000)
    case Seconds => d
    case Minutes => Scale(d, 60)
    case Hours => Scale(d, 3600)
    case Days => Scale(d, 86400)
  }
}

=== FILE: blog_service.dfy ===
/**
 * `BlogServiceImpl`: the feed scroll cursor, the like toggle with its
 * retry loop, the periodic like-count reconciliation from the Redis
 * counter hash into the database, and the fan-out of a new blog to its
 * author's fans.
 *
 * The like script's replies, the clock and the database's id assignment
 * are parameters. Sorted sets are maps from member to score, sets are sets
 * of member strings, and the counter hash is a sequence of field/value
 * pairs in iteration order.
 */
module BlogService {
  import opened Base
  import opened Store
  import opened SetStore
  import Constants

  // ---------------------------------------------------------------------
  // queryBlogOfFollow: the scroll cursor
  // ---------------------------------------------------------------------

  /** One inbox entry as returned by ZREVRANGEBYSCORE WITHSCORES: the blog
      id and the score's `longValue()`, in descending score order. */
  datatype Tuple = Tuple(blogId: int, time: int)

  /** The length of the final run of tuples sharing the last tuple's score. */
  function FinalRun(ts: seq<Tuple>): (r: nat)
    ensures |ts| == 0 <==> r == 0
    ensures r <= |ts|
    ensures forall j :: |ts| - r <= j < |ts| ==> ts[j].time == ts[|ts| - 1].time
    ensures 0 < r < |ts| ==> ts[|ts| - r - 1].time != ts[|ts| - 1].time
  {
    if |ts| <= 1 then |ts|
    else if ts[|ts| - 2].time == ts[|ts| - 1].time then 1 + FinalRun(ts[..|ts| - 1])
    else 1
  }

  /** The offset the cursor reports: the final run's length, plus one when
      that run is the whole page and its score is 0, since the fold starts
      from `minTime = 0, ofs = 1`. */
  function ExpectedOffset(ts: seq<Tuple>): nat {
    if |ts| == 0 then 1
    else FinalRun(ts) + (if FinalRun(ts) == |ts| && ts[0].time == 0 then 1 else 0)
  }

  /** The fold of lines 445-459 over the tuples. */
  method ScrollCursor(ts: seq<Tuple>) returns (ids: seq<int>, minTime: int, ofs: int)
    ensures |ids| == |ts| && forall i :: 0 <= i < |ts| ==> ids[i] == ts[i].blogId
    ensures |ts| > 0 ==> minTime == ts[|ts| - 1].time
    ensures ofs == ExpectedOffset(ts)
  {
    ids := [];
    minTime := 0;
    ofs := 1;
    var i := 0;
    while i < |ts|
      invariant i <= |ts|
      invariant |ids| == i && forall j :: 0 <= j < i ==> ids[j] == ts[j].blogId
      invariant minTime == if i == 0 then 0 else ts[i - 1].time
      invariant ofs == ExpectedOffset(ts[..i])
    {
      assert ts[..i + 1][..i] == ts[..i];
      ids := ids + [ts[i].blogId];
      if ts[i].time == minTime {
        ofs := ofs + 1;
      } else {
        minTime := ts[i].time;
        ofs := 1;
      }
      i := i + 1;
    }
    assert ts[..i] == ts;
  }

  /** With positive scores (timestamps), the offset is exactly the number
      of trailing tuples that share the minimum score. */
  lemma OffsetOfPositiveScores(ts: seq<Tuple>)
    requires |ts| > 0 && forall i :: 0 <= i < |ts| ==> ts[i].time > 0
    ensures ExpectedOffset(ts) == FinalRun(ts)
  {
  }

  /** An inbox entry as Redis returns it: the member string, not yet
      parsed, and the score's `longValue()`. */
  datatype RawTuple = RawTuple(member: string, time: int)

  function InboxMembers(raw: seq<RawTuple>): (r: seq<string>)
    ensures |r| == |raw| && forall i :: 0 <= i < |raw| ==> r[i] == raw[i].member
  {
    seq(|raw|, i requires 0 <= i < |raw| => raw[i].member)
  }

  /** The inbox entries with their members read as blog ids. */
  function Decoded(raw: seq<RawTuple>, ids: seq<int>): (r: seq<Tuple>)
    requires |ids| == |raw|
    ensures |r| == |raw| && forall i :: 0 <= i < |raw| ==> r[i] == Tuple(ids[i], raw[i].time)
  {
    seq(|raw|, i requires 0 <= i < |raw| => Tuple(ids[i], raw[i].time))
  }

  /** The columns of a user row that `queryBlogUser` copies onto a blog. */
  datatype Author = Author(nickName: string, icon: string)

  /** What the page's per-blog decoration reads: each blog's author, the
      user table, the like-counter hash (field = blog id, value = the count
      as text), and the sorted sets of likers keyed by
      `BLOG_LIKED_KEY + blogId`. */
  datatype FeedTables = FeedTables(authors: map<int, int>, users: map<int, Author>,
                                   likeCounts: map<string, string>, likes: map<string, map<string, int>>)

  /** `queryBlogUser` and `setRealTimeLikeInfo` succeed on this blog: its
      author row exists (else `user.getNickName()` throws), and a counter
      field present for it parses with `Integer.parseInt`. */
  predicate Decorates(t: FeedTables, blogId: int) {
    && blogId in t.authors && t.authors[blogId] in t.users
    && (LongStr(blogId) in t.likeCounts ==> ParseInt(t.likeCounts[LongStr(blogId)]).Some?)
  }

  /** Every found blog's decoration succeeds. */
  predicate AllDecorate(t: FeedTables, blogs: seq<int>) {
    forall i :: 0 <= i < |blogs| ==> Decorates(t, blogs[i])
  }

  /** What the page shows of one blog besides its row: the author's name
      and icon, the like count that replaces the database's `liked` (null
      without a counter field), and whether the viewer has liked it. */
  datatype Decoration = Decoration(name: string, icon: string, liked: Option<int>, isLike: bool)

  /** `ds` shows `blogs` position by position: the author row's nickname
      and icon, the like counter's field parsed with `Integer.parseInt` or
      null without one, and whether the viewer's id has a score in the
      blog's liker set. */
  predicate Shows(t: FeedTables, viewer: int, blogs: seq<int>, ds: seq<Decoration>) {
    && |ds| == |blogs|
    && forall i :: 0 <= i < |blogs| ==>
         var b := blogs[i];
         var likers := Constants.BLOG_LIKED_KEY + LongStr(b);
         && b in t.authors && t.authors[b] in t.users
         && ds[i].name == t.users[t.authors[b]].nickName
         && ds[i].icon == t.users[t.authors[b]].icon
         && ds[i].liked == (if LongStr(b) in t.likeCounts then ParseInt(t.likeCounts[LongStr(b)]) else None)
         && ds[i].isLike == (likers in t.likes && LongStr(viewer) in t.likes[likers])
  }

  /** `queryBlogUser` then `setRealTimeLikeInfo` on each blog, in order;
      the viewer is logged in, so `isLike` reads the viewer's score. */
  function DecorateAll(t: FeedTables, viewer: int, blogs: seq<int>): (r: seq<Decoration>)
    requires AllDecorate(t, blogs)
    ensures Shows(t, viewer, blogs, r)
  {
    if blogs == [] then []
    else
      assert Decorates(t, blogs[0]);
      var b := blogs[0];
      var likers := Constants.BLOG_LIKED_KEY + LongStr(b);
      var author := t.users[t.authors[b]];
      var liked := if LongStr(b) in t.likeCounts then ParseInt(t.likeCounts[LongStr(b)]) else None;
      [Decoration(author.nickName, author.icon, liked, likers in t.likes && LongStr(viewer) in t.likes[likers])]
        + DecorateAll(t, viewer, blogs[1..])
  }

  /** The next page: the ids in tuple order, the cursor, the blogs of those
      ids that exist, in that order (`order by field(id, ...)`), and each
      blog's decoration at the same position. */
  datatype Scroll = Scroll(ids: seq<int>, blogs: seq<int>, decorations: seq<Decoration>, minTime: int, offset: int)

  /** The empty-inbox reply, a page, or an exception that fails the request. */
  datatype FeedResult = NoMessages | Page(scroll: Scroll) | FeedThrew

  /** `queryBlogOfFollow` on the inbox page `reply`: a null or empty page
      is the "no messages" reply; a member that `Long.valueOf` rejects, or
      a found blog whose decoration throws, fails the request. `viewer` is
      the logged-in user. */
  method QueryBlogOfFollow(reply: Option<seq<RawTuple>>, t: FeedTables, viewer: int) returns (r: FeedResult)
    ensures reply == None || reply == Some([]) <==> r == NoMessages
    ensures reply.Some? && reply.value != [] && ParseAll(InboxMembers(reply.value)) == None ==> r == FeedThrew
    ensures reply.Some? && ParseAll(InboxMembers(reply.value)).Some? ==>
              var ids := ParseAll(InboxMembers(reply.value)).value;
              (r == FeedThrew <==> !AllDecorate(t, FirstExisting(ids, t.authors.Keys)))
    ensures r.Page? ==>
              && ParseAll(InboxMembers(reply.value)) == Some(r.scroll.ids)
              && (forall i :: 0 <= i < |reply.value| ==> ParseLong(reply.value[i].member) == Some(r.scroll.ids[i]))
              && r.scroll.minTime == reply.value[|reply.value| - 1].time
              && r.scroll.offset == ExpectedOffset(Decoded(reply.value, r.scroll.ids))
              && r.scroll.blogs == FirstExisting(r.scroll.ids, t.authors.Keys)
              && AllDecorate(t, r.scroll.blogs)
              && Shows(t, viewer, r.scroll.blogs, r.scroll.decorations)
  {
    if reply == None || |reply.value| == 0 {
      return NoMessages;
    }
    var parsed := ParseAll(InboxMembers(reply.value));
    if parsed == None {
      return FeedThrew;
    }
    var ts := Decoded(reply.value, parsed.value);
    var ids, minTime, ofs := ScrollCursor(ts);
    assert ids == parsed.value by {
      assert forall i :: 0 <= i < |ids| ==> ids[i] == ts[i].blogId == parsed.value[i];
    }
    var blogs := FirstExisting(ids, t.authors.Keys);
    if !AllDecorate(t, blogs) {
      return FeedThrew;
    }
    ParseEachPointwise(InboxMembers(reply.value), ParseLong);
    return Page(Scroll(ids, blogs, DecorateAll(t, viewer, blogs), minTime, ofs));
  }

  /** A page whose only blog lost its author row fails: the inbox entry
      `"5"` parses, blog 5 exists, and its author 9 has no user row, so the
      failure condition of `QueryBlogOfFollow` holds. */
  lemma DeletedAuthorFailsPage(time: int)
    ensures var raw := [RawTuple("5", time)];
            var t := FeedTables(map[5 := 9], map[], map[], map[]);
            && ParseAll(InboxMembers(raw)) == Some([5])
            && !AllDecorate(t, FirstExisting(ParseAll(InboxMembers(raw)).value, t.authors.Keys))
  {
    var raw := [RawTuple("5", time)];
    var five := "5";
    assert five[..0] == [] && DigitsValue(five[..0]) == 0;
    assert DigitsValue(five) == DigitsValue(five[..0]) * 10 + DigitValue(five[0]);
    assert ParseLong(five) == Some(5);
    assert InboxMembers(raw) == [five];
    var none: seq<string> := [];
    assert [five][1..] == none && ParseEach(none, ParseLong) == Some([]);
    assert [5] + [] == [5];
    assert ParseEach([five], ParseLong) == Some([5]);
    assert ParseAll(InboxMembers(raw)) == Some([5]);
    var t := FeedTables(map[5 := 9], map[], map[], map[]);
    assert FirstExisting([5], t.authors.Keys)[0] == 5 && !Decorates(t, 5);
  }

  // ---------------------------------------------------------------------
  // likeBlog
  // ---------------------------------------------------------------------

  const MAX_RETRY_TIMES: nat := 2
  const RETRY_DELAY_MS: nat := 50

  const LIKED: string := "成功点赞"
  const UNLIKED: string := "取消点赞"
  const BAD_STATE: string := "点赞状态异常"
  const RETRY_FAILED: string := "点赞操作失败，请稍后重试"
  const INTERRUPTED: string := "点赞操作被中断"
  const FAILED: string := "点赞操作失败"

  /** One script call: its `Long` reply (possibly null), or an exception. */
  datatype Attempt = Returned(reply: Option<int>) | Threw

  datatype LikeResult = LikeOk(message: string) | LikeFail(message: string)

  /** The reply-code switch on `result.intValue()`. */
  function CodeResult(code: int): (r: LikeResult)
    ensures IntValue(code) == 1 <==> r == LikeOk(LIKED)
    ensures IntValue(code) == -1 <==> r == LikeOk(UNLIKED)
    ensures IntValue(code) != 1 && IntValue(code) != -1 <==> r == LikeFail(BAD_STATE)
  {
    var c := IntValue(code);
    if c == 1 then LikeOk(LIKED) else if c == -1 then LikeOk(UNLIKED) else LikeFail(BAD_STATE)
  }

  /** The retry policy from attempt `attempt` on, with `sleptMs` of back-off
      already requested: a non-null reply decides; a null reply or an
      exception on the last allowed attempt gives up; an exception before
      it sleeps `RETRY_DELAY_MS * attempt` and retries unless interrupted.
      Returns the result, the attempt that ended it and the back-off. */
  function RetryFrom(outcome: nat -> Attempt, interrupted: nat -> bool, attempt: nat, sleptMs: nat): (LikeResult, nat, nat)
    requires 1 <= attempt <= MAX_RETRY_TIMES
    decreases MAX_RETRY_TIMES - attempt
  {
    match outcome(attempt)
    case Returned(Some(code)) => (CodeResult(code), attempt, sleptMs)
    case Returned(None) =>
      if attempt == MAX_RETRY_TIMES then (LikeFail(RETRY_FAILED), attempt, sleptMs)
      else RetryFrom(outcome, interrupted, attempt + 1, sleptMs)
    case Threw =>
      if attempt == MAX_RETRY_TIMES then (LikeFail(RETRY_FAILED), attempt, sleptMs)
      else if interrupted(attempt) then (LikeFail(INTERRUPTED), attempt, sleptMs + RETRY_DELAY_MS * attempt)
      else RetryFrom(outcome, interrupted, attempt + 1, sleptMs + RETRY_DELAY_MS * attempt)
  }

  /** A non-null first reply ends the call after one script call, with no
      back-off, whatever later attempts would have got. */
  lemma FirstReplyDecides(outcome: nat -> Attempt, interrupted: nat -> bool)
    requires outcome(1).Returned? && outcome(1).reply.Some?
    ensures RetryFrom(outcome, interrupted, 1, 0) == (CodeResult(outcome(1).reply.value), 1, 0)
  {
  }

  /** A transient failure recovers: an exception, an uninterrupted 50 ms
      back-off, then the reply 1 is a successful like on the second call. */
  lemma TransientFailureRecovers(outcome: nat -> Attempt, interrupted: nat -> bool)
    requires outcome(1) == Threw && !interrupted(1) && outcome(2) == Returned(Some(1))
    ensures RetryFrom(outcome, interrupted, 1, 0) == (LikeOk(LIKED), 2, RETRY_DELAY_MS)
  {
    assert IntValue(1) == 1;
  }

  /** `likeBlog`'s retry loop. `outcome(a)` is what attempt `a` (from 1)
      gets; `interrupted(a)` says whether the back-off sleep after attempt
      `a` is interrupted. Returns the result, the attempts made and the
      milliseconds of back-off requested. */
  method LikeBlog(outcome: nat -> Attempt, interrupted: nat -> bool) returns (r: LikeResult, attempts: nat, sleptMs: nat)
    // at most two script calls; a back-off only follows an exception
    ensures 1 <= attempts <= MAX_RETRY_TIMES
    ensures sleptMs == if outcome(1) == Threw then RETRY_DELAY_MS * 1 else 0
    // the first non-null reply decides
    ensures outcome(1).Returned? && outcome(1).reply.Some? ==>
              attempts == 1 && r == CodeResult(outcome(1).reply.value)
    ensures outcome(1) == Threw && interrupted(1) ==> attempts == 1 && r == LikeFail(INTERRUPTED)
    ensures (outcome(1) == Returned(None) || (outcome(1) == Threw && !interrupted(1))) ==>
              && attempts == 2
              && r == (if outcome(2).Returned? && outcome(2).reply.Some? then CodeResult(outcome(2).reply.value)
                       else LikeFail(RETRY_FAILED))
    // the fall-through failure after the loop is unreachable
    ensures r != LikeFail(FAILED)
    // the loop follows the retry policy
    ensures (r, attempts, sleptMs) == RetryFrom(outcome, interrupted, 1, 0)
  {
    sleptMs := 0;
    var attempt: nat := 1;
    while attempt <= MAX_RETRY_TIMES
      invariant 1 <= attempt <= MAX_RETRY_TIMES + 1
      invariant attempt == 2 ==> outcome(1) == Returned(None) || (outcome(1) == Threw && !interrupted(1))
      invariant attempt <= 2 ==> sleptMs == if attempt == 2 && outcome(1) == Threw then RETRY_DELAY_MS else 0
      invariant attempt != 3
      invariant attempt <= MAX_RETRY_TIMES ==> RetryFrom(outcome, interrupted, 1, 0) == RetryFrom(outcome, interrupted, attempt, sleptMs)
    {
      match outcome(attempt) {
        case Returned(reply) =>
          if reply == None {
            if attempt == MAX_RETRY_TIMES {
              return LikeFail(RETRY_FAILED), attempt, sleptMs;
            }
          } else {
            return CodeResult(reply.value), attempt, sleptMs;
          }
        case Threw =>
          if attempt == MAX_RETRY_TIMES {
            return LikeFail(RETRY_FAILED), attempt, sleptMs;
          }
          sleptMs := sleptMs + RETRY_DELAY_MS * attempt;
          if interrupted(attempt) {
            return LikeFail(INTERRUPTED), attempt, sleptMs;
          }
      }
      attempt := attempt + 1;
    }
    assert false;
    return LikeFail(FAILED), attempt, sleptMs;
  }

  // ---------------------------------------------------------------------
  // syncLikeCountBetweenRedisAndDb
  // ---------------------------------------------------------------------

  /** A field/value pair of the counter hash, as text. */
  datatype Field = Field(key: string, value: string)

  /** The blog id and count a field parses to, or `None` when either
      `Long.parseLong` or `Integer.parseInt` throws. */
  function ParseField(f: Field): Option<(int, int)> {
    match ParseLong(f.key)
    case None => None
    case Some(id) =>
      match ParseInt(f.value)
      case None => None
      case Some(c) => Some((id, c))
  }

  /** The count of the last well-formed field for `blogId`, if any. */
  function LastCount(fs: seq<Field>, blogId: int): Option<int> {
    if fs == [] then None
    else
      var p := ParseField(fs[|fs| - 1]);
      if p.Some? && p.value.0 == blogId then Some(p.value.1) else LastCount(fs[..|fs| - 1], blogId)
  }

  /** The like counts of the blog table. A null `liked` column throws on
      unboxing, which the loop catches. */
  type Likes = map<int, Option<int>>

  /** What reconciliation should leave for one existing blog: the count of
      the last well-formed field naming it, unless its column is null. */
  function Reconciled(db: Likes, fs: seq<Field>, blogId: int): Option<int>
    requires blogId in db
  {
    if db[blogId].Some? && LastCount(fs, blogId).Some? then LastCount(fs, blogId) else db[blogId]
  }

  /** The loop of `syncLikeCountBetweenRedisAndDb` over the hash entries;
      also returns how many rows it updated. */
  method SyncLikeCount(db: Likes, fs: seq<Field>) returns (db': Likes, updated: nat)
    ensures db'.Keys == db.Keys
    ensures forall b :: b in db ==> db'[b] == Reconciled(db, fs, b)
    ensures fs == [] ==> db' == db && updated == 0
  {
    db' := db;
    updated := 0;
    if |fs| == 0 {
      return;
    }
    var i := 0;
    while i < |fs|
      invariant i <= |fs|
      invariant db'.Keys == db.Keys
      invariant forall b :: b in db ==> db'[b] == Reconciled(db, fs[..i], b)
    {
      assert fs[..i + 1][..i] == fs[..i];
      match ParseField(fs[i]) {
        case None =>
        case Some((blogId, count)) =>
          if blogId in db' && db'[blogId].Some? && count != db'[blogId].value {
            db' := db'[blogId := Some(count)];
            updated := updated + 1;
          }
      }
      i := i + 1;
    }
    assert fs[..i] == fs;
  }

  /** The reconciliation touches only blogs a well-formed field names, and
      leaves equal counts as they were. */
  lemma SyncLeavesOthers(db: Likes, fs: seq<Field>, b: int)
    requires b in db
    ensures LastCount(fs, b) == None ==> Reconciled(db, fs, b) == db[b]
    ensures db[b].Some? && LastCount(fs, b) == db[b] ==> Reconciled(db, fs, b) == db[b]
  {
  }

  /** A field that fails to parse changes nothing, wherever it sits. */
  lemma {:induction false} MalformedFieldIgnored(fs: seq<Field>, f: Field, gs: seq<Field>, b: int)
    requires ParseField(f) == None
    ensures LastCount(fs + [f] + gs, b) == LastCount(fs + gs, b)
    decreases |gs|
  {
    if gs == [] {
      assert fs + [f] + gs == fs + [f];
      assert (fs + [f])[..|fs|] == fs;
      assert fs + gs == fs;
    } else {
      var init := gs[..|gs| - 1];
      assert (fs + [f] + gs)[..|fs + [f] + gs| - 1] == fs + [f] + init;
      assert (fs + gs)[..|fs + gs| - 1] == fs + init;
      MalformedFieldIgnored(fs, f, init, b);
    }
  }

  // ---------------------------------------------------------------------
  // saveBlog
  // ---------------------------------------------------------------------

  /** The Redis structures `saveBlog` writes: the per-author counter (field
      `user_id` of `BLOG_COUNTER_KEY + userId`), the fans' feeds (sorted
      sets, member to score) and the blog-to-fans index (sets). */
  datatype Feeds = Feeds(counters: map<string, int>, feeds: map<string, map<string, int>>,
                         pushed: Sets)

  /** `SaveThrew` is the `NumberFormatException` of a malformed fan id. */
  datatype SaveResult = SavedNoFans(message: string) | Saved(blogId: int) | SaveFailed(message: string) | SaveThrew

  function FeedKey(fanId: int): string {
    Constants.FEED_KEY + LongStr(fanId)
  }

  function Counter(r: map<string, int>, key: string): int {
    if key in r then r[key] else 0
  }

  /** ZADD key now blogId on each fan's feed. */
  function PushAll(feeds: map<string, map<string, int>>, fans: seq<int>, member: string, now: int): map<string, map<string, int>> {
    if fans == [] then feeds
    else
      var rest := PushAll(feeds, fans[1..], member, now);
      var key := FeedKey(fans[0]);
      var prev := if key in rest then rest[key] else map[];
      rest[key := prev[member := now]]
  }

  /** Every fan's feed holds the blog with score `now`. */
  lemma {:induction false} PushAllReaches(feeds: map<string, map<string, int>>, fans: seq<int>, member: string, now: int, j: nat)
    requires j < |fans|
    ensures var r := PushAll(feeds, fans, member, now);
            FeedKey(fans[j]) in r && member in r[FeedKey(fans[j])] && r[FeedKey(fans[j])][member] == now
  {
    if j > 0 {
      PushAllReaches(feeds, fans[1..], member, now, j - 1);
    }
  }

  lemma PushAllReachesAll(feeds: map<string, map<string, int>>, fans: seq<int>, member: string, now: int)
    ensures var r := PushAll(feeds, fans, member, now);
            forall f :: f in fans ==> FeedKey(f) in r && member in r[FeedKey(f)] && r[FeedKey(f)][member] == now
  {
    forall j | 0 <= j < |fans|
      ensures var r := PushAll(feeds, fans, member, now);
              FeedKey(fans[j]) in r && member in r[FeedKey(fans[j])] && r[FeedKey(fans[j])][member] == now
    {
      PushAllReaches(feeds, fans, member, now, j);
    }
  }

  /** A feed key that belongs to none of the fans is left as it was. */
  lemma {:induction false} PushAllFrame(feeds: map<string, map<string, int>>, fans: seq<int>, member: string, now: int, k: string)
    requires forall f :: f in fans ==> k != FeedKey(f)
    ensures var r := PushAll(feeds, fans, member, now);
            (k in r <==> k in feeds) && (k in feeds ==> r[k] == feeds[k])
  {
    if fans != [] {
      assert fans[0] in fans;
      PushAllFrame(feeds, fans[1..], member, now, k);
    }
  }

  /** `saveBlog`. The counter is incremented before the save, so a failed
      save still counts. `fanMembers` is SMEMBERS of the author's fan set
      in iteration order; each member goes through `Long.parseLong`, and a
      malformed one throws after the counter and the save, before any
      push. `newBlogId` is the id the insert assigns. */
  function SaveBlog(s: Feeds, userId: int, saveOk: bool, newBlogId: int, fanMembers: seq<string>, now: int): (r: (SaveResult, Feeds))
    ensures var ck := Constants.BLOG_COUNTER_KEY + LongStr(userId);
            && Counter(r.1.counters, ck) == Counter(s.counters, ck) + 1
            && (forall k :: k != ck ==> Counter(r.1.counters, k) == Counter(s.counters, k))
    ensures !saveOk ==> r.0 == SaveFailed("发布失败") && r.1.feeds == s.feeds && r.1.pushed == s.pushed
    ensures saveOk && ParseAll(fanMembers) == None ==> r.0 == SaveThrew && r.1.feeds == s.feeds && r.1.pushed == s.pushed
    ensures saveOk && fanMembers == [] ==>
              r.0 == SavedNoFans("该用户没有粉丝!博客id：" + LongStr(newBlogId)) && r.1.feeds == s.feeds && r.1.pushed == s.pushed
    ensures saveOk && fanMembers != [] && ParseAll(fanMembers).Some? ==>
              var fans := ParseAll(fanMembers).value;
              && r.0 == Saved(newBlogId)
              && (forall f :: f in fans ==> (FeedKey(f) in r.1.feeds && LongStr(newBlogId) in r.1.feeds[FeedKey(f)]
                                                && r.1.feeds[FeedKey(f)][LongStr(newBlogId)] == now))
              && Members(r.1.pushed, Constants.BLOG_PUSH_FANS_KEY + LongStr(newBlogId))
                 == Members(s.pushed, Constants.BLOG_PUSH_FANS_KEY + LongStr(newBlogId)) + (set f | f in fans :: LongStr(f))
              && (forall k :: k != Constants.BLOG_PUSH_FANS_KEY + LongStr(newBlogId) ==> Members(r.1.pushed, k) == Members(s.pushed, k))
  {
    var ck := Constants.BLOG_COUNTER_KEY + LongStr(userId);
    var counted := Feeds(s.counters[ck := Counter(s.counters, ck) + 1], s.feeds, s.pushed);
    if !saveOk then (SaveFailed("发布失败"), counted)
    else match ParseAll(fanMembers)
      case None => (SaveThrew, counted)
      case Some(fans) =>
        if fans == [] then (SavedNoFans("该用户没有粉丝!博客id：" + LongStr(newBlogId)), counted)
        else
          var member := LongStr(newBlogId);
          var pk := Constants.BLOG_PUSH_FANS_KEY + member;
          var pushed := SAdd(counted.pushed, pk, set f | f in fans :: LongStr(f));
          PushAllReachesAll(counted.feeds, fans, member, now);
          (Saved(newBlogId), Feeds(counted.counters, PushAll(counted.feeds, fans, member, now), pushed))
  }

  /** The blog reaches exactly its author's fans: a feed that belongs to no
      fan is not touched. */
  lemma FanOutOnlyToFans(s: Feeds, userId: int, newBlogId: int, fanMembers: seq<string>, now: int, other: int)
    requires ParseAll(fanMembers).Some? && other !in ParseAll(fanMembers).value
    ensures var r := SaveBlog(s, userId, true, newBlogId, fanMembers, now).1;
            (FeedKey(other) in r.feeds <==> FeedKey(other) in s.feeds)
            && (FeedKey(other) in s.feeds ==> r.feeds[FeedKey(other)] == s.feeds[FeedKey(other)])
  {
    var fans := ParseAll(fanMembers).value;
    forall f | f in fans
      ensures FeedKey(other) != FeedKey(f)
    {
      if FeedKey(other) == FeedKey(f) {
        KeyInjective(Constants.FEED_KEY, other, f);
      }
    }
    PushAllFrame(s.feeds, fans, LongStr(newBlogId), now, FeedKey(other));
  }
}

=== FILE: cache_client.dfy ===
/**
 * The cache-aside engine (`CacheClient`): plain and logical-expiry writes,
 * the three read strategies (pass-through, mutex rebuild, logical-expiry
 * rebuild), the `"1"`-valued rebuild lock, batch read and warm-up.
 *
 * Redis is the immutable `Store.Strings` map. The loader (the database
 * fallback), the clock and the cache states other clients produce while a
 * caller waits are parameters, so every read is a sequential function of
 * its inputs. Hutool JSON is an opaque `Json` record of encoders and
 * decoders; lemmas that need a round trip take it as a hypothesis about
 * the one value involved.
 */
module CacheClient {
  import opened Base
  import opened Store

  /** `RedisData`: the logical-expiry envelope. `data` is absent when the
      loader returned null (Hutool omits null fields). Timestamps are
      seconds on one clock. */
  datatype RedisData<V> = RedisData(expireTime: int, data: Option<V>)

  /** An opaque JSON codec for values and for envelopes. */
  datatype Json<!V> = Json(encode: V -> string, decode: string -> V,
                          encodeEnvelope: RedisData<V> -> string,
                          decodeEnvelope: string -> RedisData<V>)

  /** The loader (`dbFallback.apply(id)`): a row, null, or an exception. */
  datatype Load<V> = Row(row: V) | NoRow | DbError

  /** `keyPrefix + id`. */
  function Key(prefix: string, id: int): string {
    prefix + LongStr(id)
  }

  // ---------------------------------------------------------------------
  // Writes and the rebuild lock
  // ---------------------------------------------------------------------

  /** Value the rebuild lock is stored with, and its TTL in seconds. */
  const LOCK_VALUE: string := "1"
  const LOCK_TTL_SECONDS: int := 10

  /** `set`: JSON with a store TTL. */
  function Set<V>(m: Strings, key: string, value: V, time: int, unit: TimeUnit, json: Json<V>): (m': Strings)
    ensures Get(m', key) == Some(json.encode(value)) && m'[key].ttl == Expires(time, unit)
    ensures forall k :: k != key ==> Get(m', k) == Get(m, k)
  {
    Put(m, key, json.encode(value), Expires(time, unit))
  }

  /** The envelope `setWithLogicalExpire` writes at time `now`. */
  function Envelope<V>(value: Option<V>, time: int, unit: TimeUnit, now: int): RedisData<V> {
    RedisData(now + ToSeconds(time, unit), value)
  }

  /** `setWithLogicalExpire`: an envelope expiring `time` later, with no store TTL. */
  function SetWithLogicalExpire<V>(m: Strings, key: string, value: Option<V>, time: int, unit: TimeUnit,
                                   now: int, json: Json<V>): (m': Strings)
    ensures Get(m', key) == Some(json.encodeEnvelope(RedisData(now + ToSeconds(time, unit), value)))
    ensures m'[key].ttl == Forever
    ensures forall k :: k != key ==> Get(m', k) == Get(m, k)
  {
    Put(m, key, json.encodeEnvelope(Envelope(value, time, unit, now)), Forever)
  }

  /** `tryLock`: SET NX of `"1"` with a 10-second TTL; a null reply is false. */
  function TryLock(m: Strings, key: string): (r: (bool, Strings))
    ensures r.0 <==> key !in m
    ensures r.0 ==> Get(r.1, key) == Some(LOCK_VALUE) && r.1[key].ttl == Expires(LOCK_TTL_SECONDS, Seconds)
    ensures r.0 ==> forall k :: k != key ==> Get(r.1, k) == Get(m, k)
    ensures !r.0 ==> r.1 == m
  {
    var (written, m') := SetIfAbsent(m, key, LOCK_VALUE, Expires(LOCK_TTL_SECONDS, Seconds));
    (IsTrue(Some(written)), m')
  }

  /** `unLock`: an unconditional DEL, whoever holds the lock. */
  function UnLock(m: Strings, key: string): (m': Strings)
    ensures Get(m', key) == None
    ensures forall k :: k != key ==> Get(m', k) == Get(m, k)
  {
    Delete(m, key)
  }

  // ---------------------------------------------------------------------
  // Pass-through read
  // ---------------------------------------------------------------------

  /** Outcome of a synchronous read: the value returned (null as `None`)
      and the store this caller leaves, or the loader's exception; `loads`
      counts loader calls. */
  datatype Read<V> = Read(value: Option<V>, store: Strings, loads: nat)
                   | Raised(store: Strings, loads: nat)

  /** `queryWithPassThrough`. Note the parameter order `cacheNullTtl, time`. */
  function QueryWithPassThrough<V>(m: Strings, keyPrefix: string, id: int, json: Json<V>,
                                   loader: int -> Load<V>, cacheNullTtl: int, time: int,
                                   unit: TimeUnit): (r: Read<V>)
    ensures Classify(Get(m, Key(keyPrefix, id))).Payload? ==>
              r == Read(Some(json.decode(Classify(Get(m, Key(keyPrefix, id))).text)), m, 0)
    ensures Classify(Get(m, Key(keyPrefix, id))) == Tombstone ==> r == Read(None, m, 0)
    ensures r.loads == 0 <==> Get(m, Key(keyPrefix, id)) == Some("") || IsNotBlank(Get(m, Key(keyPrefix, id)))
    ensures forall k :: k != Key(keyPrefix, id) ==> Get(r.store, k) == Get(m, k)
  {
    var key := Key(keyPrefix, id);
    var cached := Get(m, key);
    if IsNotBlank(cached) then Read(Some(json.decode(cached.value)), m, 0)
    else if cached.Some? && cached.value == "" then Read(None, m, 0)
    else
      match loader(id)
      case DbError => Raised(m, 1)
      case NoRow => Read(None, Put(m, key, "", Expires(cacheNullTtl, unit)), 1)
      case Row(v) => Read(Some(v), Set(m, key, v, time, unit, json), 1)
  }

  /** On a miss, a null row leaves a tombstone with `cacheNullTtl` and
      returns null; a row is stored as JSON with TTL `time` and returned. */
  lemma PassThroughMiss<V>(m: Strings, keyPrefix: string, id: int, json: Json<V>,
                           loader: int -> Load<V>, cacheNullTtl: int, time: int, unit: TimeUnit)
    requires !IsNotBlank(Get(m, Key(keyPrefix, id))) && Get(m, Key(keyPrefix, id)) != Some("")
    ensures var r := QueryWithPassThrough(m, keyPrefix, id, json, loader, cacheNullTtl, time, unit);
            && r.loads == 1
            && (loader(id) == NoRow ==>
                  r.Read? && r.value == None && Get(r.store, Key(keyPrefix, id)) == Some("")
                  && r.store[Key(keyPrefix, id)].ttl == Expires(cacheNullTtl, unit))
            && (loader(id).Row? ==>
                  r.Read? && r.value == Some(loader(id).row)
                  && Get(r.store, Key(keyPrefix, id)) == Some(json.encode(loader(id).row))
                  && r.store[Key(keyPrefix, id)].ttl == Expires(time, unit))
            && (loader(id) == DbError ==> r.Raised? && r.store == m)
  {
  }

  /** Penetration guard: after a miss, an immediate second read is served
      from the cache without calling the loader, and returns what the first
      read returned (given that the codec round-trips the loaded row). */
  lemma PassThroughSecondReadIsCached<V>(m: Strings, keyPrefix: string, id: int, json: Json<V>,
                                         loader: int -> Load<V>, cacheNullTtl: int, time: int,
                                         unit: TimeUnit)
    requires loader(id) != DbError
    requires loader(id).Row? ==> json.decode(json.encode(loader(id).row)) == loader(id).row
                                 && IsNotBlank(Some(json.encode(loader(id).row)))
    ensures var first := QueryWithPassThrough(m, keyPrefix, id, json, loader, cacheNullTtl, time, unit);
            var second := QueryWithPassThrough(first.store, keyPrefix, id, json, loader, cacheNullTtl, time, unit);
            second.Read? && second.loads == 0 && second.value == first.value && second.store == first.store
  {
    var key := Key(keyPrefix, id);
    var first := QueryWithPassThrough(m, keyPrefix, id, json, loader, cacheNullTtl, time, unit);
    if !IsNotBlank(Get(m, key)) && Get(m, key) != Some("") {
      PassThroughMiss(m, keyPrefix, id, json, loader, cacheNullTtl, time, unit);
      if loader(id) == NoRow {
        assert Get(first.store, key) == Some("");
        assert IsBlank(Some(""));
      }
    }
  }

  // ---------------------------------------------------------------------
  // Mutex rebuild
  // ---------------------------------------------------------------------

  /** Polls a caller that lost the lock makes before giving up. */
  const MAX_RETRY: nat := 25

  /** `Thread.sleep(20L * (1 + retryCount / 5))`, in milliseconds. */
  function PollDelay(retry: nat): nat {
    20 * (1 + retry / 5)
  }

  /** Milliseconds slept by the first `n` polls. */
  function SleepTotal(n: nat): nat {
    if n == 0 then 0 else SleepTotal(n - 1) + PollDelay(n - 1)
  }

  lemma {:induction false} SleepTotalMonotone(a: nat, b: nat)
    requires a <= b
    ensures SleepTotal(a) <= SleepTotal(b)
    decreases b - a
  {
    if a < b {
      SleepTotalMonotone(a, b - 1);
    }
  }

  /** Polls `5q` to `5q + 4` each sleep `20(q + 1)` ms. */
  lemma SleepTotalBlockStep(q: nat)
    ensures SleepTotal(5 * q + 5) == SleepTotal(5 * q) + 100 * (q + 1)
  {
    var b := 5 * q;
    assert b / 5 == q && (b + 1) / 5 == q && (b + 2) / 5 == q && (b + 3) / 5 == q && (b + 4) / 5 == q;
    assert SleepTotal(b + 1) == SleepTotal(b) + PollDelay(b);
    assert SleepTotal(b + 2) == SleepTotal(b + 1) + PollDelay(b + 1);
    assert SleepTotal(b + 3) == SleepTotal(b + 2) + PollDelay(b + 2);
    assert SleepTotal(b + 4) == SleepTotal(b + 3) + PollDelay(b + 3);
  }

  /** The whole wait never sleeps more than 1.5 seconds. */
  lemma SleepBound(n: nat)
    requires n <= MAX_RETRY
    ensures SleepTotal(n) <= 1500
  {
    SleepTotalMonotone(n, MAX_RETRY);
    SleepTotalBlockStep(0);
    SleepTotalBlockStep(1);
    SleepTotalBlockStep(2);
    SleepTotalBlockStep(3);
    SleepTotalBlockStep(4);
  }

  /** What poll `i` reads: the supplied snapshot, or no entry once the
      supplied observations run out (the rebuilder never wrote). */
  function Snapshot(snapshots: seq<Option<string>>, i: nat): Option<string> {
    if i < |snapshots| then snapshots[i] else None
  }

  /** A poll stops on a payload or a tombstone. */
  predicate Settled(s: Option<string>) {
    IsNotBlank(s) || s == Some("")
  }

  /** The value a settled read yields: the decoded payload, or null for the tombstone. */
  function SettledValue<V>(s: Option<string>, json: Json<V>): Option<V>
    requires Settled(s)
  {
    if IsNotBlank(s) then Some(json.decode(s.value)) else None
  }

  datatype MutexResult<V> = Value(value: Option<V>) | RebuildTimeout | LoaderFailed

  /** Outcome of `queryWithMutex`: what it returned or threw, the store this
      caller leaves, loader calls, whether it took the lock, polls made and
      milliseconds slept. */
  datatype MutexRead<V> = MutexRead(result: MutexResult<V>, store: Strings, loads: nat,
                                    lockAcquired: bool, polls: nat, sleptMs: nat)

  /** What a caller that lost the lock observes and returns: it polls at
      most `MAX_RETRY` times, sleeping `SleepTotal(polls)` ms in all; it
      stops at the first settled snapshot and returns its value, and it
      gives up exactly when none of the `MAX_RETRY` snapshots is settled. */
  ghost predicate Waited<V>(snapshots: seq<Option<string>>, json: Json<V>, result: MutexResult<V>, polls: nat, slept: nat) {
    && polls <= MAX_RETRY && slept == SleepTotal(polls)
    && (forall j :: 0 <= j < polls - 1 ==> !Settled(Snapshot(snapshots, j)))
    && (result == RebuildTimeout <==> forall j :: 0 <= j < MAX_RETRY ==> !Settled(Snapshot(snapshots, j)))
    && (result == RebuildTimeout ==> polls == MAX_RETRY)
    && (result != RebuildTimeout ==>
          && polls >= 1 && Settled(Snapshot(snapshots, polls - 1))
          && result == Value(SettledValue(Snapshot(snapshots, polls - 1), json)))
  }

  /** The waiting loop of a caller that lost the lock: sleep, re-read,
      stop at the first settled snapshot, give up after `MAX_RETRY` polls. */
  method AwaitRebuild<V>(snapshots: seq<Option<string>>, json: Json<V>)
    returns (result: MutexResult<V>, polls: nat, slept: nat)
    ensures Waited(snapshots, json, result, polls, slept)
  {
    var retry: nat := 0;
    slept := 0;
    while retry < MAX_RETRY
      invariant retry <= MAX_RETRY
      invariant slept == SleepTotal(retry)
      invariant forall j :: 0 <= j < retry ==> !Settled(Snapshot(snapshots, j))
    {
      slept := slept + PollDelay(retry);
      assert slept == SleepTotal(retry + 1);
      var s := Snapshot(snapshots, retry);
      if IsNotBlank(s) {
        return Value(Some(json.decode(s.value))), retry + 1, slept;
      }
      if s.Some? && s.value == "" {
        return Value(None), retry + 1, slept;
      }
      retry := retry + 1;
    }
    return RebuildTimeout, retry, slept;
  }

  /** The lock holder's work: load, write the value or a tombstone (a null
      row or one `isEmptyObject` accepts), and leave the load's exception
      to propagate with nothing written. */
  function HolderWrite<V>(locked: Strings, key: string, id: int, json: Json<V>, loader: int -> Load<V>,
                          isEmptyObject: V -> bool, time: int, cacheNullTtl: int,
                          unit: TimeUnit): (r: (MutexResult<V>, Strings))
    ensures forall k :: k != key ==> Get(r.1, k) == Get(locked, k)
    ensures match loader(id)
            case DbError => r == (LoaderFailed, locked)
            case NoRow => r.0 == Value(None) && Get(r.1, key) == Some("")
                          && r.1[key].ttl == Expires(cacheNullTtl, unit)
            case Row(v) =>
              if isEmptyObject(v) then r.0 == Value(None) && Get(r.1, key) == Some("")
                                       && r.1[key].ttl == Expires(cacheNullTtl, unit)
              else r.0 == Value(Some(v)) && Get(r.1, key) == Some(json.encode(v))
                   && r.1[key].ttl == Expires(time, unit)
  {
    match loader(id)
    case DbError => (LoaderFailed, locked)
    case NoRow => (Value(None), Put(locked, key, "", Expires(cacheNullTtl, unit)))
    case Row(v) =>
      if isEmptyObject(v) then (Value(None), Put(locked, key, "", Expires(cacheNullTtl, unit)))
      else (Value(Some(v)), Put(locked, key, json.encode(v), Expires(time, unit)))
  }

  /** Taking a free lock and deleting it again restores the store. */
  lemma LockRoundTrip(m: Strings, lockKey: string)
    requires lockKey !in m
    ensures UnLock(TryLock(m, lockKey).1, lockKey) == m
  {
    assert UnLock(TryLock(m, lockKey).1, lockKey) == m - {lockKey};
  }

  /** `queryWithMutex`. Note the parameter order `time, cacheNullTtl`
      (swapped against pass-through), the absence of a re-read by the lock
      holder, `ObjectUtils.isEmpty` (modelled by `isEmptyObject` on non-null
      rows) as the tombstone test, and a timeout that throws. */
  method QueryWithMutex<V>(m: Strings, keyPrefix: string, lockKeyPrefix: string, id: int, json: Json<V>,
                           loader: int -> Load<V>, isEmptyObject: V -> bool, time: int,
                           cacheNullTtl: int, unit: TimeUnit, snapshots: seq<Option<string>>)
    returns (out: MutexRead<V>)
    // hit and tombstone: answered from the cache
    ensures Settled(Get(m, Key(keyPrefix, id))) ==>
              out == MutexRead(Value(SettledValue(Get(m, Key(keyPrefix, id)), json)), m, 0, false, 0, 0)
    // a miss takes the lock exactly when nobody holds it
    ensures !Settled(Get(m, Key(keyPrefix, id))) ==>
              (out.lockAcquired <==> Key(lockKeyPrefix, id) !in m)
    // the waiter never loads or writes; it polls as `Waited` describes
    ensures !out.lockAcquired ==> out.loads == 0 && out.store == m
    ensures !out.lockAcquired && !Settled(Get(m, Key(keyPrefix, id))) ==>
              Waited(snapshots, json, out.result, out.polls, out.sleptMs)
    // the holder: loads once, writes the key, and always releases the lock
    ensures out.lockAcquired ==>
              && out.loads == 1 && out.polls == 0
              && Get(out.store, Key(lockKeyPrefix, id)) == None
              && (forall k :: k != Key(keyPrefix, id) && k != Key(lockKeyPrefix, id) ==> Get(out.store, k) == Get(m, k))
    ensures out.lockAcquired && Key(keyPrefix, id) != Key(lockKeyPrefix, id) ==>
              match loader(id)
              case DbError => out.result == LoaderFailed && out.store == m
              case NoRow => out.result == Value(None) && Get(out.store, Key(keyPrefix, id)) == Some("")
                            && out.store[Key(keyPrefix, id)].ttl == Expires(cacheNullTtl, unit)
              case Row(v) =>
                if isEmptyObject(v) then out.result == Value(None) && Get(out.store, Key(keyPrefix, id)) == Some("")
                                         && out.store[Key(keyPrefix, id)].ttl == Expires(cacheNullTtl, unit)
                else out.result == Value(Some(v)) && Get(out.store, Key(keyPrefix, id)) == Some(json.encode(v))
                     && out.store[Key(keyPrefix, id)].ttl == Expires(time, unit)
  {
    var key := Key(keyPrefix, id);
    var cached := Get(m, key);
    // a payload is decoded, the tombstone is null
    if Settled(cached) {
      return MutexRead(Value(SettledValue(cached, json)), m, 0, false, 0, 0);
    }
    var lockKey := Key(lockKeyPrefix, id);
    var (isLock, locked) := TryLock(m, lockKey);
    if !isLock {
      var result, polls, slept := AwaitRebuild(snapshots, json);
      return MutexRead(result, m, 0, false, polls, slept);
    }
    // only the lock holder gets here; it loads without re-reading the cache
    var (result, written) := HolderWrite(locked, key, id, json, loader, isEmptyObject, time, cacheNullTtl, unit);
    // finally: the holder, and only the holder, deletes the lock
    var released := UnLock(written, lockKey);
    if key != lockKey && loader(id) == DbError {
      LockRoundTrip(m, lockKey);
    }
    return MutexRead(result, released, 1, true, 0, 0);
  }

  /** Pass-through and mutex reads agree on a hit and on a tombstone: same
      value, no loader call, no write, no lock. */
  method HitsAgree<V>(m: Strings, keyPrefix: string, lockKeyPrefix: string, id: int, json: Json<V>,
                      loader: int -> Load<V>, isEmptyObject: V -> bool, time: int,
                      cacheNullTtl: int, unit: TimeUnit, snapshots: seq<Option<string>>)
    returns (viaPassThrough: Read<V>, viaMutex: MutexRead<V>)
    requires Settled(Get(m, Key(keyPrefix, id)))
    ensures viaPassThrough.Read? && viaMutex.result == Value(viaPassThrough.value)
    ensures viaPassThrough.loads == 0 && viaMutex.loads == 0
    ensures viaPassThrough.store == m && viaMutex.store == m && !viaMutex.lockAcquired
  {
    viaPassThrough := QueryWithPassThrough(m, keyPrefix, id, json, loader, cacheNullTtl, time, unit);
    viaMutex := QueryWithMutex(m, keyPrefix, lockKeyPrefix, id, json, loader, isEmptyObject, time,
                               cacheNullTtl, unit, snapshots);
  }

  // ---------------------------------------------------------------------
  // Logical-expiry rebuild
  // ---------------------------------------------------------------------

  /** Outcome of `queryWithLogicalExpire`: the value returned, the store when
      the call returns, the store once the scheduled rebuild (if any) has
      finished, whether the lock was taken, whether a rebuild was scheduled,
      and loader calls made by that rebuild. */
  datatype LogicalRead<V> = LogicalRead(value: Option<V>, afterCall: Strings, afterRebuild: Strings,
                                        lockAcquired: bool, rebuildScheduled: bool, loads: nat)

  /** Is the entry a non-blank envelope whose `expireTime` is after `now`? */
  predicate Fresh<V>(s: Option<string>, json: Json<V>, now: int) {
    IsNotBlank(s) && json.decodeEnvelope(s.value).expireTime > now
  }

  /** The store the asynchronous rebuild leaves, starting from `locked`:
      load, write a fresh envelope (also for a null row), and release the
      lock in `finally`; a loader exception writes nothing. */
  function Rebuild<V>(locked: Strings, key: string, lockKey: string, id: int, json: Json<V>,
                      loader: int -> Load<V>, time: int, unit: TimeUnit, rebuildNow: int): (r: Strings)
    // the lock is released in every case
    ensures Get(r, lockKey) == None
    // a completed load leaves an envelope with no store TTL, also for a null row
    ensures key != lockKey && loader(id) != DbError ==>
              && Get(r, key) == Some(json.encodeEnvelope(RedisData(rebuildNow + ToSeconds(time, unit),
                                                                   if loader(id).Row? then Some(loader(id).row) else None)))
              && r[key].ttl == Forever
    // nothing else changes, and after a loader exception not even the key
    ensures forall k :: k != key && k != lockKey ==> Get(r, k) == Get(locked, k)
    ensures loader(id) == DbError ==> forall k :: k != lockKey ==> Get(r, k) == Get(locked, k)
  {
    var written :=
      match loader(id)
      case Row(v) => SetWithLogicalExpire(locked, key, Some(v), time, unit, rebuildNow, json)
      case NoRow => SetWithLogicalExpire(locked, key, None, time, unit, rebuildNow, json)
      case DbError => locked;
    UnLock(written, lockKey)
  }

  /** `queryWithLogicalExpire`. `m` is the store at the first read and
      `atLock` the store when the caller tries the lock, which other
      clients may have changed in between; `now` is the caller's clock and
      `rebuildNow` the clock when the rebuild task runs. */
  function QueryWithLogicalExpire<V>(m: Strings, atLock: Strings, keyPrefix: string, lockKeyPrefix: string,
                                     id: int, json: Json<V>, loader: int -> Load<V>, time: int,
                                     unit: TimeUnit, now: int, rebuildNow: int): (r: LogicalRead<V>)
    // cold key: null, and nothing else happens
    ensures IsBlank(Get(m, Key(keyPrefix, id))) ==> r == LogicalRead(None, m, m, false, false, 0)
    // fresh entry: its data, and the lock is never touched
    ensures Fresh(Get(m, Key(keyPrefix, id)), json, now) ==>
              r == LogicalRead(json.decodeEnvelope(Get(m, Key(keyPrefix, id)).value).data, m, m, false, false, 0)
    // expired entry: the lock is taken exactly when it is free ...
    ensures IsNotBlank(Get(m, Key(keyPrefix, id))) && !Fresh(Get(m, Key(keyPrefix, id)), json, now) ==>
              (r.lockAcquired <==> Key(lockKeyPrefix, id) !in atLock)
    // ... and the stale data comes back unless the re-read under the lock found a fresh entry
    ensures Key(keyPrefix, id) != Key(lockKeyPrefix, id)
            && IsNotBlank(Get(m, Key(keyPrefix, id))) && !Fresh(Get(m, Key(keyPrefix, id)), json, now) ==>
              if r.lockAcquired && Fresh(Get(atLock, Key(keyPrefix, id)), json, now)
              then r.value == json.decodeEnvelope(Get(atLock, Key(keyPrefix, id)).value).data
                   && !r.rebuildScheduled && r.afterCall == r.afterRebuild
                   && Get(r.afterCall, Key(lockKeyPrefix, id)) == None
              else r.value == json.decodeEnvelope(Get(m, Key(keyPrefix, id)).value).data
    // a caller that lost the lock writes nothing; the winner's call changes only the lock key
    ensures IsNotBlank(Get(m, Key(keyPrefix, id))) && !Fresh(Get(m, Key(keyPrefix, id)), json, now) ==>
              && (!r.lockAcquired ==> r.afterCall == atLock && r.afterRebuild == atLock)
              && (r.lockAcquired ==> forall k :: k != Key(lockKeyPrefix, id) ==> Get(r.afterCall, k) == Get(atLock, k))
    // the winner rebuilds exactly when its re-read under the lock is not fresh
    ensures Key(keyPrefix, id) != Key(lockKeyPrefix, id)
            && IsNotBlank(Get(m, Key(keyPrefix, id))) && !Fresh(Get(m, Key(keyPrefix, id)), json, now)
            && r.lockAcquired ==>
              (r.rebuildScheduled <==> !Fresh(Get(atLock, Key(keyPrefix, id)), json, now))
    // a rebuild is scheduled only by the lock winner, and it releases the lock
    ensures r.rebuildScheduled ==> r.lockAcquired && r.loads == 1 && Get(r.afterRebuild, Key(lockKeyPrefix, id)) == None
    ensures !r.rebuildScheduled ==> r.loads == 0 && r.afterRebuild == r.afterCall
    ensures r.rebuildScheduled ==> Get(r.afterCall, Key(lockKeyPrefix, id)) == Some(LOCK_VALUE)
  {
    var key := Key(keyPrefix, id);
    var cached := Get(m, key);
    if IsBlank(cached) then LogicalRead(None, m, m, false, false, 0)
    else
      var stale := json.decodeEnvelope(cached.value);
      if stale.expireTime > now then LogicalRead(stale.data, m, m, false, false, 0)
      else
        var lockKey := Key(lockKeyPrefix, id);
        var (won, locked) := TryLock(atLock, lockKey);
        if !won then LogicalRead(stale.data, atLock, atLock, false, false, 0)
        else
          var latest := Get(locked, key);
          if IsNotBlank(latest) && json.decodeEnvelope(latest.value).expireTime > now then
            var released := UnLock(locked, lockKey);
            LogicalRead(json.decodeEnvelope(latest.value).data, released, released, true, false, 0)
          else
            LogicalRead(stale.data, locked, Rebuild(locked, key, lockKey, id, json, loader, time, unit, rebuildNow),
                        true, true, 1)
  }

  /** The rebuild writes an envelope expiring `time` after it runs, with no
      store TTL, and leaves every other key but the lock as it was. */
  lemma RebuildWritesEnvelope<V>(m: Strings, atLock: Strings, keyPrefix: string, lockKeyPrefix: string,
                                 id: int, json: Json<V>, loader: int -> Load<V>, time: int,
                                 unit: TimeUnit, now: int, rebuildNow: int)
    requires Key(keyPrefix, id) != Key(lockKeyPrefix, id)
    requires loader(id) != DbError
    ensures var r := QueryWithLogicalExpire(m, atLock, keyPrefix, lockKeyPrefix, id, json, loader, time, unit, now, rebuildNow);
            r.rebuildScheduled ==>
              && Get(r.afterRebuild, Key(keyPrefix, id)) ==
                   Some(json.encodeEnvelope(RedisData(rebuildNow + ToSeconds(time, unit),
                                                      if loader(id).Row? then Some(loader(id).row) else None)))
              && r.afterRebuild[Key(keyPrefix, id)].ttl == Forever
              && (forall k :: k != Key(keyPrefix, id) && k != Key(lockKeyPrefix, id) ==>
                    Get(r.afterRebuild, k) == Get(atLock, k))
  {
    var key, lockKey := Key(keyPrefix, id), Key(lockKeyPrefix, id);
    var r := QueryWithLogicalExpire(m, atLock, keyPrefix, lockKeyPrefix, id, json, loader, time, unit, now, rebuildNow);
    if r.rebuildScheduled {
      var (won, locked) := TryLock(atLock, lockKey);
      assert r.afterRebuild == Rebuild(locked, key, lockKey, id, json, loader, time, unit, rebuildNow);
    }
  }

  /** Without an interleaved writer (`atLock == m`) the re-read under the
      lock sees the same expired entry, so the winner always schedules the
      rebuild; the double check only matters when another client refreshed
      the key in between. */
  lemma QuiescentWinnerRebuilds<V>(m: Strings, keyPrefix: string, lockKeyPrefix: string, id: int,
                                   json: Json<V>, loader: int -> Load<V>, time: int, unit: TimeUnit,
                                   now: int, rebuildNow: int)
    requires Key(keyPrefix, id) != Key(lockKeyPrefix, id)
    requires IsNotBlank(Get(m, Key(keyPrefix, id))) && !Fresh(Get(m, Key(keyPrefix, id)), json, now)
    requires Key(lockKeyPrefix, id) !in m
    ensures QueryWithLogicalExpire(m, m, keyPrefix, lockKeyPrefix, id, json, loader, time, unit, now, rebuildNow).rebuildScheduled
  {
    var (won, locked) := TryLock(m, Key(lockKeyPrefix, id));
    assert Get(locked, Key(keyPrefix, id)) == Get(m, Key(keyPrefix, id));
  }

  /** One rebuild per key: a second caller that finds the lock still held
      by the first caller's rebuild returns stale data and schedules nothing. */
  lemma SecondCallerDoesNotRebuild<V>(m: Strings, keyPrefix: string, lockKeyPrefix: string, id: int,
                                      json: Json<V>, loader: int -> Load<V>, time: int, unit: TimeUnit,
                                      now: int, rebuildNow: int)
    requires Key(keyPrefix, id) != Key(lockKeyPrefix, id)
    ensures var first := QueryWithLogicalExpire(m, m, keyPrefix, lockKeyPrefix, id, json, loader, time, unit, now, rebuildNow);
            var second := QueryWithLogicalExpire(first.afterCall, first.afterCall, keyPrefix, lockKeyPrefix, id,
                                                 json, loader, time, unit, now, rebuildNow);
            first.rebuildScheduled ==> !second.rebuildScheduled && second.value == first.value
  {
    var first := QueryWithLogicalExpire(m, m, keyPrefix, lockKeyPrefix, id, json, loader, time, unit, now, rebuildNow);
    if first.rebuildScheduled {
      assert Get(first.afterCall, Key(keyPrefix, id)) == Get(m, Key(keyPrefix, id));
    }
  }

  /** Once the rebuild has run, a read before the new expiry returns the
      refreshed row without touching the lock (given the envelope codec
      round-trips). */
  lemma RefreshedValueVisible<V>(m: Strings, keyPrefix: string, lockKeyPrefix: string, id: int,
                                 json: Json<V>, loader: int -> Load<V>, time: int, unit: TimeUnit,
                                 now: int, rebuildNow: int, later: int)
    requires Key(keyPrefix, id) != Key(lockKeyPrefix, id)
    requires loader(id).Row?
    requires var e := RedisData(rebuildNow + ToSeconds(time, unit), Some(loader(id).row));
             json.decodeEnvelope(json.encodeEnvelope(e)) == e && IsNotBlank(Some(json.encodeEnvelope(e)))
    requires later < rebuildNow + ToSeconds(time, unit)
    ensures var first := QueryWithLogicalExpire(m, m, keyPrefix, lockKeyPrefix, id, json, loader, time, unit, now, rebuildNow);
            var next := QueryWithLogicalExpire(first.afterRebuild, first.afterRebuild, keyPrefix, lockKeyPrefix, id,
                                               json, loader, time, unit, later, rebuildNow);
            first.rebuildScheduled ==> next.value == Some(loader(id).row) && !next.lockAcquired
  {
    RebuildWritesEnvelope(m, m, keyPrefix, lockKeyPrefix, id, json, loader, time, unit, now, rebuildNow);
  }

  // ---------------------------------------------------------------------
  // Batch read and warm-up
  // ---------------------------------------------------------------------

  /** Cached values for the ids whose entry is not blank, decoded. */
  function Hits<V>(m: Strings, keyPrefix: string, ids: seq<int>, json: Json<V>): (h: map<int, V>)
    ensures forall id :: id in h <==> id in ids && IsNotBlank(Get(m, Key(keyPrefix, id)))
    ensures forall id :: id in h ==> IsNotBlank(Get(m, Key(keyPrefix, id)))
                                     && h[id] == json.decode(Get(m, Key(keyPrefix, id)).value)
  {
    if ids == [] then map[]
    else
      var id := ids[|ids| - 1];
      var h := Hits(m, keyPrefix, ids[..|ids| - 1], json);
      if IsNotBlank(Get(m, Key(keyPrefix, id))) then h[id := json.decode(Get(m, Key(keyPrefix, id)).value)] else h
  }

  /** The ids whose entry is blank (absent, `""` or whitespace), in input order. */
  function Missed(m: Strings, keyPrefix: string, ids: seq<int>): (r: seq<int>)
    ensures forall id :: id in r <==> id in ids && !IsNotBlank(Get(m, Key(keyPrefix, id)))
  {
    if ids == [] then []
    else Missed(m, keyPrefix, ids[..|ids| - 1])
         + (if IsNotBlank(Get(m, Key(keyPrefix, ids[|ids| - 1]))) then [] else [ids[|ids| - 1]])
  }

  /** The loaded rows of the given ids. */
  function LoadedRows<V>(loaded: map<int, V>, ids: seq<int>): (r: map<int, V>)
    ensures forall id :: id in r <==> id in ids && id in loaded
    ensures forall id :: id in r ==> r[id] == loaded[id]
  {
    if ids == [] then map[]
    else
      var id := ids[|ids| - 1];
      var r := LoadedRows(loaded, ids[..|ids| - 1]);
      if id in loaded then r[id := loaded[id]] else r
  }

  /** The keys `keyPrefix + id` of the given ids. */
  function KeysOf(keyPrefix: string, ids: seq<int>): (r: set<string>)
    ensures forall id :: id in ids ==> Key(keyPrefix, id) in r
  {
    if ids == [] then {} else KeysOf(keyPrefix, ids[..|ids| - 1]) + {Key(keyPrefix, ids[|ids| - 1])}
  }

  /** A key of one of the ids belongs to that id only. */
  lemma {:induction false} KeyOfOtherId(keyPrefix: string, id: int, ids: seq<int>)
    requires id !in ids
    ensures Key(keyPrefix, id) !in KeysOf(keyPrefix, ids)
  {
    if ids != [] {
      var last := ids[|ids| - 1];
      assert ids[..|ids| - 1] + [last] == ids;
      KeyOfOtherId(keyPrefix, id, ids[..|ids| - 1]);
      if Key(keyPrefix, id) == Key(keyPrefix, last) {
        KeyInjective(keyPrefix, id, last);
      }
    }
  }

  /** Fewer ids, fewer keys. */
  lemma {:induction false} KeysOfSubset(keyPrefix: string, a: seq<int>, b: seq<int>)
    requires forall id :: id in a ==> id in b
    ensures KeysOf(keyPrefix, a) <= KeysOf(keyPrefix, b)
  {
    if a != [] {
      assert a[..|a| - 1] + [a[|a| - 1]] == a;
      KeysOfSubset(keyPrefix, a[..|a| - 1], b);
    }
  }

  /** Tombstone TTL of the batch path: 2 minutes. */
  const BATCH_NULL_TTL: Ttl := Expires(2, Minutes)

  /** Hits and misses of a prefix of the ids, extended by the next id. */
  lemma {:induction false} HitsMissedStep<V>(m: Strings, keyPrefix: string, ids: seq<int>, i: nat, json: Json<V>)
    requires i < |ids|
    ensures var key := Key(keyPrefix, ids[i]);
            && Hits(m, keyPrefix, ids[..i + 1], json)
               == (if IsNotBlank(Get(m, key)) then Hits(m, keyPrefix, ids[..i], json)[ids[i] := json.decode(Get(m, key).value)]
                   else Hits(m, keyPrefix, ids[..i], json))
            && Missed(m, keyPrefix, ids[..i + 1])
               == Missed(m, keyPrefix, ids[..i]) + (if IsNotBlank(Get(m, key)) then [] else [ids[i]])
  {
    assert ids[..i + 1][..i] == ids[..i];
  }

  /** First half of `batchQueryOptimized`: one MGET, hits decoded, misses
      collected in input order. */
  method SplitHits<V>(m: Strings, keyPrefix: string, ids: seq<int>, json: Json<V>)
    returns (result: map<int, V>, missed: seq<int>)
    ensures result == Hits(m, keyPrefix, ids, json)
    ensures missed == Missed(m, keyPrefix, ids)
  {
    result := map[];
    missed := [];
    var i := 0;
    while i < |ids|
      invariant i <= |ids|
      invariant missed == Missed(m, keyPrefix, ids[..i])
      invariant result == Hits(m, keyPrefix, ids[..i], json)
    {
      var value := Get(m, Key(keyPrefix, ids[i]));
      HitsMissedStep(m, keyPrefix, ids, i, json);
      if IsNotBlank(value) {
        result := result[ids[i] := json.decode(value.value)];
      } else {
        missed := missed + [ids[i]];
      }
      i := i + 1;
    }
    assert ids[..i] == ids;
  }

  /** The keys of two distinct ids differ. */
  lemma KeysDiffer(keyPrefix: string, id: int)
    ensures forall other :: other != id ==> Key(keyPrefix, other) != Key(keyPrefix, id)
  {
    forall other | other != id
      ensures Key(keyPrefix, other) != Key(keyPrefix, id)
    {
      if Key(keyPrefix, other) == Key(keyPrefix, id) {
        KeyInjective(keyPrefix, other, id);
      }
    }
  }

  /** The entry the batch path writes for a missed id: the loaded row as
      JSON with its own TTL, or the `""` tombstone for 2 minutes. */
  function MissCell<V>(id: int, loaded: map<int, V>, json: Json<V>, ttlFor: int -> int, unit: TimeUnit): Cell {
    if id in loaded then Cell(json.encode(loaded[id]), Expires(ttlFor(id), unit)) else Cell("", BATCH_NULL_TTL)
  }

  predicate HoldsMissWrite<V>(store: Strings, key: string, id: int, loaded: map<int, V>, json: Json<V>,
                              ttlFor: int -> int, unit: TimeUnit) {
    key in store && store[key] == MissCell(id, loaded, json, ttlFor, unit)
  }

  /** Second half of `batchQueryOptimized`: the pipelined writes for the
      missed ids, in order. */
  function WriteMisses<V>(m: Strings, keyPrefix: string, missed: seq<int>, loaded: map<int, V>,
                          json: Json<V>, ttlFor: int -> int, unit: TimeUnit): Strings
  {
    if missed == [] then m
    else
      var id := missed[|missed| - 1];
      var before := WriteMisses(m, keyPrefix, missed[..|missed| - 1], loaded, json, ttlFor, unit);
      var cell := MissCell(id, loaded, json, ttlFor, unit);
      Put(before, Key(keyPrefix, id), cell.value, cell.ttl)
  }

  /** One step of the pipelined writes: the last missed id's write. */
  lemma WriteMissesStep<V>(m: Strings, keyPrefix: string, missed: seq<int>, loaded: map<int, V>,
                           json: Json<V>, ttlFor: int -> int, unit: TimeUnit)
    requires missed != []
    ensures var id := missed[|missed| - 1];
            WriteMisses(m, keyPrefix, missed, loaded, json, ttlFor, unit)
            == WriteMisses(m, keyPrefix, missed[..|missed| - 1], loaded, json, ttlFor, unit)
                 [Key(keyPrefix, id) := MissCell(id, loaded, json, ttlFor, unit)]
  {
  }

  /** A missed id ends up holding its write: a later write of another id
      goes to another key, and a repeated id writes the same entry again. */
  lemma {:induction false} WriteMissesHolds<V>(m: Strings, keyPrefix: string, missed: seq<int>, loaded: map<int, V>,
                                               json: Json<V>, ttlFor: int -> int, unit: TimeUnit, j: nat)
    requires j < |missed|
    ensures HoldsMissWrite(WriteMisses(m, keyPrefix, missed, loaded, json, ttlFor, unit),
                           Key(keyPrefix, missed[j]), missed[j], loaded, json, ttlFor, unit)
  {
    var last := missed[|missed| - 1];
    WriteMissesStep(m, keyPrefix, missed, loaded, json, ttlFor, unit);
    if missed[j] != last {
      WriteMissesHolds(m, keyPrefix, missed[..|missed| - 1], loaded, json, ttlFor, unit, j);
      if Key(keyPrefix, missed[j]) == Key(keyPrefix, last) {
        KeyInjective(keyPrefix, missed[j], last);
      }
    }
  }

  /** The pipelined writes touch no key but those of the missed ids. */
  lemma {:induction false} WriteMissesFrame<V>(m: Strings, keyPrefix: string, missed: seq<int>, loaded: map<int, V>,
                                               json: Json<V>, ttlFor: int -> int, unit: TimeUnit, k: string)
    requires k !in KeysOf(keyPrefix, missed)
    ensures Get(WriteMisses(m, keyPrefix, missed, loaded, json, ttlFor, unit), k) == Get(m, k)
  {
    if missed != [] {
      WriteMissesStep(m, keyPrefix, missed, loaded, json, ttlFor, unit);
      WriteMissesFrame(m, keyPrefix, missed[..|missed| - 1], loaded, json, ttlFor, unit, k);
    }
  }

  /** `batchQueryOptimized`. `batchLoader` is the database fallback over
      the missed ids: `None` when it throws, or returns a null map whose
      first `dbResult.get` throws inside the pipeline before any write;
      either way the exception reaches the caller (`result == None`).
      `ttlFor` supplies the randomised TTL of each write. */
  method BatchQuery<V>(m: Strings, keyPrefix: string, ids: seq<int>, json: Json<V>,
                       batchLoader: seq<int> -> Option<map<int, V>>, ttlFor: int -> int, unit: TimeUnit)
    returns (result: Option<map<int, V>>, store: Strings)
    // the call throws exactly when there are misses and the loader fails; then nothing is written
    ensures result == None <==> Missed(m, keyPrefix, ids) != [] && batchLoader(Missed(m, keyPrefix, ids)) == None
    ensures result == None ==> store == m
    // only requested ids come back
    ensures result.Some? ==> forall id :: id in result.value ==> id in ids
    // hits are decoded from the cache and left as they are
    ensures result.Some? ==>
              forall id :: id in ids && IsNotBlank(Get(m, Key(keyPrefix, id))) ==>
                id in result.value && result.value[id] == json.decode(Get(m, Key(keyPrefix, id)).value)
                && Get(store, Key(keyPrefix, id)) == Get(m, Key(keyPrefix, id))
    // misses are loaded: a row is returned and cached, a null is cached as "" for 2 minutes and left out
    ensures result.Some? && Missed(m, keyPrefix, ids) != [] ==>
              var loaded := batchLoader(Missed(m, keyPrefix, ids)).value;
              forall id :: id in ids && !IsNotBlank(Get(m, Key(keyPrefix, id))) ==>
                && (id in result.value <==> id in loaded)
                && (id in loaded ==> result.value[id] == loaded[id])
                && HoldsMissWrite(store, Key(keyPrefix, id), id, loaded, json, ttlFor, unit)
    // with no misses the loader is not called and nothing is written
    ensures Missed(m, keyPrefix, ids) == [] ==> result.Some? && store == m
    // no key outside the requested ids' keys is written
    ensures forall k :: k !in KeysOf(keyPrefix, ids) ==> Get(store, k) == Get(m, k)
  {
    var hits, missed := SplitHits(m, keyPrefix, ids, json);
    result, store := Some(hits), m;
    if missed != [] {
      var reply := batchLoader(missed);
      if reply == None {
        return None, m;
      }
      var loaded := reply.value;
      store := WriteMisses(m, keyPrefix, missed, loaded, json, ttlFor, unit);
      forall j | 0 <= j < |missed|
        ensures HoldsMissWrite(store, Key(keyPrefix, missed[j]), missed[j], loaded, json, ttlFor, unit)
      {
        WriteMissesHolds(m, keyPrefix, missed, loaded, json, ttlFor, unit, j);
      }
      result := Some(hits + LoadedRows(loaded, missed));
      forall id | id in ids && IsNotBlank(Get(m, Key(keyPrefix, id)))
        ensures Get(store, Key(keyPrefix, id)) == Get(m, Key(keyPrefix, id))
      {
        KeyOfOtherId(keyPrefix, id, missed);
        WriteMissesFrame(m, keyPrefix, missed, loaded, json, ttlFor, unit, Key(keyPrefix, id));
      }
      KeysOfSubset(keyPrefix, missed, ids);
      forall k | k !in KeysOf(keyPrefix, missed)
        ensures Get(store, k) == Get(m, k)
      {
        WriteMissesFrame(m, keyPrefix, missed, loaded, json, ttlFor, unit, k);
      }
    }
  }

  /** The envelope `warmUp` writes for a row. */
  predicate HoldsWarmEnvelope<V>(store: Strings, key: string, row: V, json: Json<V>, time: int, unit: TimeUnit, now: int) {
    key in store && store[key] == Cell(json.encodeEnvelope(RedisData(now + ToSeconds(time, unit), Some(row))), Forever)
  }

  /** `warmUp`: load every id and write a logical-expiry envelope for each
      non-null row; null rows and loader exceptions write nothing. The
      source runs the loads in parallel; the writes go to distinct keys, so
      the resulting store does not depend on their order. */
  function WarmUp<V>(m: Strings, keyPrefix: string, ids: seq<int>, json: Json<V>,
                     loader: int -> Load<V>, time: int, unit: TimeUnit, now: int): Strings
  {
    if ids == [] then m
    else
      var id := ids[|ids| - 1];
      var before := WarmUp(m, keyPrefix, ids[..|ids| - 1], json, loader, time, unit, now);
      match loader(id)
      case Row(v) => SetWithLogicalExpire(before, Key(keyPrefix, id), Some(v), time, unit, now, json)
      case NoRow => before
      case DbError => before
  }

  /** One step of the warm-up: the last id's load decides its write. */
  lemma WarmUpStep<V>(m: Strings, keyPrefix: string, ids: seq<int>, json: Json<V>,
                      loader: int -> Load<V>, time: int, unit: TimeUnit, now: int)
    requires ids != []
    ensures var id := ids[|ids| - 1];
            var before := WarmUp(m, keyPrefix, ids[..|ids| - 1], json, loader, time, unit, now);
            WarmUp(m, keyPrefix, ids, json, loader, time, unit, now)
            == if loader(id).Row? then SetWithLogicalExpire(before, Key(keyPrefix, id), Some(loader(id).row), time, unit, now, json)
               else before
  {
  }

  /** After the warm-up an id with a row holds its envelope, kept forever:
      a later write of another id goes to another key. */
  lemma {:induction false} WarmUpWritesRow<V>(m: Strings, keyPrefix: string, ids: seq<int>, json: Json<V>,
                                              loader: int -> Load<V>, time: int, unit: TimeUnit, now: int, id: int)
    requires id in ids && loader(id).Row?
    ensures HoldsWarmEnvelope(WarmUp(m, keyPrefix, ids, json, loader, time, unit, now),
                              Key(keyPrefix, id), loader(id).row, json, time, unit, now)
  {
    var last := ids[|ids| - 1];
    var init := ids[..|ids| - 1];
    WarmUpStep(m, keyPrefix, ids, json, loader, time, unit, now);
    if id != last {
      assert id in init by {
        assert ids == init + [last];
      }
      WarmUpWritesRow(m, keyPrefix, init, json, loader, time, unit, now, id);
      if Key(keyPrefix, id) == Key(keyPrefix, last) {
        KeyInjective(keyPrefix, id, last);
      }
    }
  }

  /** An id whose load yields no row keeps its old entry. */
  lemma {:induction false} WarmUpSkipsMissing<V>(m: Strings, keyPrefix: string, ids: seq<int>, json: Json<V>,
                                                 loader: int -> Load<V>, time: int, unit: TimeUnit, now: int)
    ensures var store := WarmUp(m, keyPrefix, ids, json, loader, time, unit, now);
            forall id :: !loader(id).Row? ==> Get(store, Key(keyPrefix, id)) == Get(m, Key(keyPrefix, id))
  {
    if ids != [] {
      WarmUpSkipsMissing(m, keyPrefix, ids[..|ids| - 1], json, loader, time, unit, now);
      WarmUpStep(m, keyPrefix, ids, json, loader, time, unit, now);
      KeysDiffer(keyPrefix, ids[|ids| - 1]);
    }
  }

  /** The warm-up touches no key but those of the given ids. */
  lemma {:induction false} WarmUpFrame<V>(m: Strings, keyPrefix: string, ids: seq<int>, json: Json<V>,
                                          loader: int -> Load<V>, time: int, unit: TimeUnit, now: int, k: string)
    requires k !in KeysOf(keyPrefix, ids)
    ensures Get(WarmUp(m, keyPrefix, ids, json, loader, time, unit, now), k) == Get(m, k)
  {
    if ids != [] {
      WarmUpStep(m, keyPrefix, ids, json, loader, time, unit, now);
      WarmUpFrame(m, keyPrefix, ids[..|ids| - 1], json, loader, time, unit, now, k);
    }
  }
}

=== FILE: constants.dfy ===
/** Key prefixes and TTLs shared by the services (`RedisConstants`). */
module Constants {
  const LOGIN_CODE_KEY: string := "hm-DianPing:user:login:"
  const LOGIN_CODE_TTL: int := 2
  const LOGIN_USER_KEY: string := "hm-DianPing:user:token:"
  const LOGIN_USER_TTL: int := 360000

  const CACHE_NULL_TTL: int := 2

  const CACHE_SHOP_TTL: int := 30
  const CACHE_SHOP_KEY: string := "hm-DianPing:shop:query:"

  const CACHE_SHOP_TYPE_KEY: string := "hm-DianPing:shop:typeQuery:1"

  const LOCK_SHOP_KEY: string := "hm-DianPing:lock:shop:"
  const LOCK_SHOP_TTL: int := 10

  const LOCK_ORDER_KEY: string := "hm-DianPing:lock:order:"

  const SECKILL_TYPE_KEY: string := "hm-DianPing:seckill:type:"
  const BLOG_LIKED_KEY: string := "hm-DianPing:blog:liked:"
  /** Hash field blogId -> like count. */
  const BLOG_LIKED_COUNT_KEY: string := "hm-DianPing:blog:counter:count"
  /** Per-author hash of published-blog counters. */
  const BLOG_COUNTER_KEY: string := "hm-DianPing:blog:addCount:"
  /** Per-author set of fans. */
  const BLOG_FANS_KEY: string := "hm-DianPing:follow:fans:"
  const FOLLOW_KEY: string := "hm-DianPing:follow:userFollow:"
  const UN_FOLLOW_KEY: string := "hm-DianPing:follow:unUserFollow:"
  const FEED_KEY: string := "hm-DianPing:blog:feed:"
  /** Per-blog set of the fans it was pushed to. */
  const BLOG_PUSH_FANS_KEY: string := "hm-DianPing:blog:pushFans:"
  const SHOP_GEO_KEY: string := "hm-DianPing:shop:geo:"
  const USER_SIGN_KEY: string := "hm-DianPing:sign:"
}

=== FILE: follow_service.dfy ===
/**
 * `FollowServiceImpl`: the follow/unfollow entry point that runs a
 * server-side script and hands its reply to an asynchronous database
 * step, that database step (`addOrRemoveResult`), common follows and the
 * follow check.
 *
 * The script's reply is a parameter (its internal checks are not part of
 * this model). Follow rows are a multiset of (user, followed user) pairs,
 * since the table does not prevent duplicates; a transaction that throws
 * leaves the rows as they were.
 */
module FollowService {
  import opened Base
  import opened Store
  import opened SetStore
  import Constants

  /** An element of the script's reply list: a Redis integer, a bulk
      string, or a null. */
  datatype Item = Num(n: int) | Text(s: string) | Nil

  /** `toString()` of a reply element; a null throws. */
  function ItemText(x: Item): Option<string> {
    match x
    case Num(n) => Some(LongStr(n))
    case Text(s) => Some(s)
    case Nil => None
  }

  /** `String.valueOf` of a nullable `Long`, as concatenated into keys. */
  function IdText(id: Option<int>): string {
    match id
    case Some(i) => LongStr(i)
    case None => "null"
  }

  // ---------------------------------------------------------------------
  // follow
  // ---------------------------------------------------------------------

  const NOT_LOGGED_IN: string := "用户未登录"
  const OP_FAILED: string := "操作失败"

  datatype Reply = Ok(message: string) | Fail(message: string)

  /** The keys and arguments of the script call. */
  datatype ScriptCall = ScriptCall(keys: seq<string>, args: seq<string>)

  /** What `follow` did: its reply, the script call it made (if any) and
      the reply list it handed to the asynchronous database step (if any). */
  datatype FollowOutcome = FollowOutcome(reply: Reply, call: Option<ScriptCall>, dispatched: Option<seq<Item>>)

  function FollowCall(userId: int, followUserId: int, isFollow: bool): ScriptCall {
    ScriptCall([Constants.FOLLOW_KEY + LongStr(userId), Constants.UN_FOLLOW_KEY + LongStr(userId),
                Constants.BLOG_COUNTER_KEY + LongStr(followUserId), Constants.BLOG_FANS_KEY + LongStr(followUserId)],
               [LongStr(followUserId), if isFollow then "1" else "0", LongStr(userId)])
  }

  /** `follow(followUserId, isFollow)`. A null `isFollow` throws before the
      script runs; a null or empty reply fails; a reply too short for
      `result.get(1)`, or a null there, throws. Every exception inside the
      `try` becomes the generic failure. */
  function Follow(userId: Option<int>, followUserId: int, isFollow: Option<bool>,
                  scriptReply: Option<seq<Item>>): (r: FollowOutcome)
    ensures userId == None ==> r == FollowOutcome(Fail(NOT_LOGGED_IN), None, None)
    ensures userId.Some? && isFollow == None ==> r == FollowOutcome(Fail(OP_FAILED), None, None)
    ensures userId.Some? && isFollow.Some? ==> r.call == Some(FollowCall(userId.value, followUserId, isFollow.value))
    // the reply is ok exactly when the script replied with a printable second element
    ensures r.reply.Ok? <==>
              userId.Some? && isFollow.Some? && scriptReply.Some? && |scriptReply.value| >= 2
              && ItemText(scriptReply.value[1]).Some?
    ensures r.reply.Ok? ==> r.reply.message == ItemText(scriptReply.value[1]).value
    ensures r.reply.Fail? && userId.Some? ==> r.reply.message == OP_FAILED
    // the database step runs exactly after an ok reply, on the whole reply list
    ensures r.dispatched.Some? <==> r.reply.Ok?
    ensures r.dispatched.Some? ==> r.dispatched == scriptReply
  {
    match userId
    case None => FollowOutcome(Fail(NOT_LOGGED_IN), None, None)
    case Some(uid) =>
      match isFollow
      case None => FollowOutcome(Fail(OP_FAILED), None, None)
      case Some(f) =>
        var call := Some(FollowCall(uid, followUserId, f));
        if scriptReply == None || |scriptReply.value| == 0 then FollowOutcome(Fail(OP_FAILED), call, None)
        else if |scriptReply.value| < 2 then FollowOutcome(Fail(OP_FAILED), call, None)
        else match ItemText(scriptReply.value[1])
          case None => FollowOutcome(Fail(OP_FAILED), call, None)
          case Some(message) => FollowOutcome(Ok(message), call, scriptReply)
  }

  // ---------------------------------------------------------------------
  // addOrRemoveResult
  // ---------------------------------------------------------------------

  /** A row of the follow table. */
  datatype FollowRow = FollowRow(userId: int, followUserId: int)

  type FollowRows = multiset<FollowRow>

  /** The database step's outcome: committed rows, or an exception (the
      transaction rolls back). */
  datatype Applied = Committed(rows: FollowRows) | Threw

  /** The status of a reply: `(Long) result.get(0)` compared as a number;
      a non-integer or null element throws. */
  function Status(result: seq<Item>): Option<int> {
    if |result| >= 1 && result[0].Num? then Some(result[0].n) else None
  }

  /** `remove(... user_id = ? and follow_user_id = ?)`: every matching row. */
  function RemoveAll(rows: FollowRows, row: FollowRow): (r: FollowRows)
    ensures r[row] == 0
    ensures forall o :: o != row ==> r[o] == rows[o]
  {
    rows[row := 0]
  }

  /** `addOrRemoveResult`. Status 2 inserts the row (a failed save
      throws); status -2 removes the matching rows (removing none throws);
      any other status changes nothing. `saveOk` is the insert's reply. */
  function AddOrRemoveResult(rows: FollowRows, followUserId: int, result: seq<Item>, userId: int,
                             saveOk: bool): (r: Applied)
    ensures Status(result) == None || |result| < 2 || ItemText(result[1]) == None ==> r == Threw
    ensures Status(result) == Some(2) && |result| >= 2 && ItemText(result[1]).Some? ==>
              r == if saveOk then Committed(rows + multiset{FollowRow(userId, followUserId)}) else Threw
    ensures Status(result) == Some(-2) && |result| >= 2 && ItemText(result[1]).Some? ==>
              if FollowRow(userId, followUserId) in rows
              then r.Committed? && r.rows[FollowRow(userId, followUserId)] == 0
                   && forall o :: o != FollowRow(userId, followUserId) ==> r.rows[o] == rows[o]
              else r == Threw
    ensures (Status(result).Some? && Status(result).value != 2 && Status(result).value != -2
             && |result| >= 2 && ItemText(result[1]).Some?) ==> r == Committed(rows)
  {
    if Status(result) == None || |result| < 2 || ItemText(result[1]) == None then Threw
    else
      var row := FollowRow(userId, followUserId);
      var status := Status(result).value;
      if status == 2 then (if saveOk then Committed(rows + multiset{row}) else Threw)
      else if status == -2 then (if row in rows then Committed(RemoveAll(rows, row)) else Threw)
      else Committed(rows)
  }

  /** A follow followed by an unfollow of the same pair, when the pair had
      no row before, restores the table exactly. */
  lemma FollowThenUnfollowRestores(rows: FollowRows, userId: int, followUserId: int, message: string)
    requires FollowRow(userId, followUserId) !in rows
    ensures var after := AddOrRemoveResult(rows, followUserId, [Num(2), Text(message)], userId, true);
            after.Committed?
            && AddOrRemoveResult(after.rows, followUserId, [Num(-2), Text(message)], userId, true) == Committed(rows)
  {
    var row := FollowRow(userId, followUserId);
    var after := rows + multiset{row};
    assert RemoveAll(after, row) == rows;
  }

  /** A reply `follow` hands on always has a printable message, so with a
      working insert the database step throws only for a non-integer
      status, or for an unfollow of a pair that has no row. */
  lemma DispatchedStepFailures(rows: FollowRows, userId: int, followUserId: int, isFollow: bool,
                               scriptReply: Option<seq<Item>>)
    ensures var out := Follow(Some(userId), followUserId, Some(isFollow), scriptReply);
            out.dispatched.Some? ==>
              (AddOrRemoveResult(rows, followUserId, out.dispatched.value, userId, true) == Threw
               <==> Status(out.dispatched.value) == None
                    || (Status(out.dispatched.value) == Some(-2) && FollowRow(userId, followUserId) !in rows))
  {
  }

  // ---------------------------------------------------------------------
  // common and isFollow
  // ---------------------------------------------------------------------

  function FollowKey(userId: int): string {
    Constants.FOLLOW_KEY + LongStr(userId)
  }

  datatype CommonResult = CommonOk(users: set<int>) | CommonFail(message: string) | CommonThrew

  /** `common(id)`: SINTER of the two follow sets, each member parsed with
      `Long.parseLong` (a malformed member throws), then the users of
      those ids that exist. */
  function Common(s: Sets, userId: Option<int>, id: int, users: set<int>): (r: CommonResult)
    ensures userId == None <==> r == CommonFail(NOT_LOGGED_IN)
    ensures userId.Some? && Members(s, FollowKey(userId.value)) * Members(s, FollowKey(id)) == {} ==> r == CommonOk({})
    ensures r.CommonOk? ==> forall u :: u in r.users <==>
              u in users && exists m :: m in Members(s, FollowKey(userId.value)) * Members(s, FollowKey(id)) && ParseLong(m) == Some(u)
    ensures userId.Some? ==>
              (r == CommonThrew <==> exists m :: m in Members(s, FollowKey(userId.value)) * Members(s, FollowKey(id)) && ParseLong(m) == None)
  {
    match userId
    case None => CommonFail(NOT_LOGGED_IN)
    case Some(uid) =>
      var both := Members(s, FollowKey(uid)) * Members(s, FollowKey(id));
      if both == {} then CommonOk({})
      else if exists m :: m in both && ParseLong(m) == None then CommonThrew
      else CommonOk(set m, u | m in both && u in users && ParseLong(m) == Some(u) :: u)
  }

  /** Common follows do not depend on who asks: the two users see the same set. */
  lemma CommonIsSymmetric(s: Sets, a: int, b: int, users: set<int>)
    ensures Common(s, Some(a), b, users) == Common(s, Some(b), a, users)
  {
    var x := Members(s, FollowKey(a)) * Members(s, FollowKey(b));
    var y := Members(s, FollowKey(b)) * Members(s, FollowKey(a));
    assert x == y;
  }

  /** `isFollow(followUserId)`: SISMEMBER of the target's decimal id in the
      caller's follow set; a null caller id makes the key end in "null". */
  function IsFollow(s: Sets, userId: Option<int>, followUserId: int): (r: bool)
    ensures r <==> LongStr(followUserId) in Members(s, Constants.FOLLOW_KEY + IdText(userId))
  {
    IsTrue(Some(LongStr(followUserId) in Members(s, Constants.FOLLOW_KEY + IdText(userId))))
  }

  /** The check reflects the set: adding the target's id makes it true,
      removing it makes it false, and another user's set does not matter. */
  lemma IsFollowTracksSet(s: Sets, userId: int, followUserId: int, other: int)
    requires other != userId
    ensures IsFollow(SAdd(s, FollowKey(userId), {LongStr(followUserId)}), Some(userId), followUserId)
    ensures !IsFollow(SRem(s, FollowKey(userId), {LongStr(followUserId)}), Some(userId), followUserId)
    ensures IsFollow(SAdd(s, FollowKey(other), {LongStr(followUserId)}), Some(userId), followUserId)
            == IsFollow(s, Some(userId), followUserId)
  {
    if FollowKey(other) == FollowKey(userId) {
      KeyInjective(Constants.FOLLOW_KEY, other, userId);
    }
  }
}

=== FILE: set_store.dfy ===
/**
 * The Redis set keyspace as an immutable map from key to member set; a
 * missing key reads as the empty set. Only SMEMBERS, SADD and SREM are
 * modelled.
 */
module SetStore {
  /** The set keyspace: key to members; a missing key is the empty set. */
  type Sets = map<string, set<string>>

  /** SMEMBERS key. */
  function Members(s: Sets, key: string): set<string> {
    if key in s then s[key] else {}
  }

  /** SADD key members. */
  function SAdd(s: Sets, key: string, members: set<string>): (s': Sets)
    ensures Members(s', key) == Members(s, key) + members
    ensures forall k :: k != key ==> Members(s', k) == Members(s, k)
  {
    s[key := Members(s, key) + members]
  }

  /** SREM key members. */
  function SRem(s: Sets, key: string, members: set<string>): (s': Sets)
    ensures Members(s', key) == Members(s, key) - members
    ensures forall k :: k != key ==> Members(s', k) == Members(s, k)
  {
    s[key := Members(s, key) - members]
  }
}

=== FILE: shop_service.dfy ===
/**
 * `ShopServiceImpl`: the shop read through the logical-expiry cache, the
 * warm-up write of a logical-expiry envelope, update-then-invalidate, and
 * the page slice of the distance-ordered geo search.
 *
 * The shop table is a map from id to row; the row type is left abstract.
 * The geo search reply is the list of member names within the radius in
 * distance order, before the `limit`; distance values are not modelled,
 * but their lookup by `id.toString()` is: a member name that is not the
 * canonical decimal form of its id finds no distance and the page throws.
 */
module ShopService {
  import opened Base
  import opened Store
  import Constants
  import CacheClient

  type ShopTable<V> = map<int, V>

  /** `getById` as a cache loader: the row, or null. */
  function DbLoader<V>(db: ShopTable<V>): int -> CacheClient.Load<V> {
    i => if i in db then CacheClient.Row(db[i]) else CacheClient.NoRow
  }

  /** `getById` as a nullable value. */
  function Lookup<V>(db: ShopTable<V>, id: int): (r: Option<V>)
    ensures r.Some? <==> id in db
    ensures r.Some? ==> r.value == db[id]
  {
    if id in db then Some(db[id]) else None
  }

  function ShopKey(id: int): string {
    CacheClient.Key(Constants.CACHE_SHOP_KEY, id)
  }

  function ShopLockKey(id: int): string {
    CacheClient.Key(Constants.LOCK_SHOP_KEY, id)
  }

  /** The shop key and its rebuild-lock key never coincide. */
  lemma ShopKeysDistinct(id: int)
    ensures ShopKey(id) != ShopLockKey(id)
  {
    var a := ShopKey(id);
    var b := ShopLockKey(id);
    assert a[|"hm-DianPing:"|] == 's' && b[|"hm-DianPing:"|] == 'l';
  }

  // ---------------------------------------------------------------------
  // queryById
  // ---------------------------------------------------------------------

  const SHOP_MISSING: string := "店铺不存在！"
  const SHOP_ID_REQUIRED: string := "店铺id不能为空！"

  /** The logical TTL `queryById` passes: 20 minutes. */
  const LOGICAL_TTL_MINUTES: int := 20

  datatype ShopResult<V> = ShopOk(shop: V) | ShopFail(message: string)

  /** `queryById`: the logical-expiry read of `CACHE_SHOP_KEY + id`, with
      `getById` as the rebuild loader; a null read is the failure reply. */
  function QueryById<V>(m: Strings, atLock: Strings, db: ShopTable<V>, id: int, json: CacheClient.Json<V>,
                        now: int, rebuildNow: int): (r: (ShopResult<V>, CacheClient.LogicalRead<V>))
    ensures r.1 == CacheClient.QueryWithLogicalExpire(m, atLock, Constants.CACHE_SHOP_KEY, Constants.LOCK_SHOP_KEY, id,
                                                      json, DbLoader(db), LOGICAL_TTL_MINUTES, Minutes, now, rebuildNow)
    ensures r.0.ShopFail? <==> r.1.value == None
    ensures r.0.ShopFail? ==> r.0.message == SHOP_MISSING
    ensures r.0.ShopOk? ==> r.1.value == Some(r.0.shop)
    // a cold key is a failure, whatever the table holds
    ensures IsBlank(Get(m, ShopKey(id))) ==> r.0 == ShopFail(SHOP_MISSING) && r.1.afterRebuild == m
  {
    var read := CacheClient.QueryWithLogicalExpire(m, atLock, Constants.CACHE_SHOP_KEY, Constants.LOCK_SHOP_KEY, id,
                                                   json, DbLoader(db), LOGICAL_TTL_MINUTES, Minutes, now, rebuildNow);
    match read.value
    case None => (ShopFail(SHOP_MISSING), read)
    case Some(shop) => (ShopOk(shop), read)
  }

  // ---------------------------------------------------------------------
  // saveShop2Redis
  // ---------------------------------------------------------------------

  /** `saveShop2Redis(id, expireSeconds)`: the row (or null) in an envelope
      expiring `expireSeconds` after `now`, with no store TTL. `now` is the
      clock after the simulated rebuild delay. */
  function SaveShop2Redis<V>(db: ShopTable<V>, m: Strings, id: int, expireSeconds: int, now: int,
                             json: CacheClient.Json<V>): (m': Strings)
    ensures Get(m', ShopKey(id)) == Some(json.encodeEnvelope(CacheClient.RedisData(now + expireSeconds, Lookup(db, id))))
    ensures m'[ShopKey(id)].ttl == Forever
    ensures forall k :: k != ShopKey(id) ==> Get(m', k) == Get(m, k)
  {
    Put(m, ShopKey(id), json.encodeEnvelope(CacheClient.RedisData(now + expireSeconds, Lookup(db, id))), Forever)
  }

  /** Warm-up writes exactly what `setWithLogicalExpire` writes for the
      loaded row with a TTL in seconds. */
  lemma SaveShopIsLogicalWrite<V>(db: ShopTable<V>, m: Strings, id: int, expireSeconds: int, now: int,
                                  json: CacheClient.Json<V>)
    ensures SaveShop2Redis(db, m, id, expireSeconds, now, json)
            == CacheClient.SetWithLogicalExpire(m, ShopKey(id), Lookup(db, id), expireSeconds, Seconds, now, json)
  {
  }

  /** After warm-up, a read before the logical expiry returns the row
      without taking the lock (given that the envelope codec round-trips). */
  lemma WarmedShopIsServed<V>(db: ShopTable<V>, m: Strings, id: int, expireSeconds: int, now: int,
                              json: CacheClient.Json<V>, later: int, rebuildNow: int)
    requires id in db
    requires var e := CacheClient.RedisData(now + expireSeconds, Some(db[id]));
             json.decodeEnvelope(json.encodeEnvelope(e)) == e && IsNotBlank(Some(json.encodeEnvelope(e)))
    requires later < now + expireSeconds
    ensures var warmed := SaveShop2Redis(db, m, id, expireSeconds, now, json);
            var r := QueryById(warmed, warmed, db, id, json, later, rebuildNow);
            r.0 == ShopOk(db[id]) && !r.1.lockAcquired && r.1.afterCall == warmed
  {
  }

  // ---------------------------------------------------------------------
  // update
  // ---------------------------------------------------------------------

  datatype UpdateResult = Updated | UpdateFailed(message: string)

  /** `update(shop)`: a null id fails; otherwise `updateById` (which changes
      nothing when no row has that id) and then DEL of the shop key.
      `updateById` writes only the non-null fields of `shop`: `merge(old,
      shop)` is the stored row with those fields overwritten. */
  function Update<V>(db: ShopTable<V>, m: Strings, id: Option<int>, row: V, merge: (V, V) -> V): (r: (UpdateResult, ShopTable<V>, Strings))
    ensures id == None <==> r.0 == UpdateFailed(SHOP_ID_REQUIRED)
    ensures id == None ==> r.1 == db && r.2 == m
    ensures id.Some? ==> r.0 == Updated && r.1.Keys == db.Keys
                         && (forall k :: k in db ==> r.1[k] == if k == id.value then merge(db[k], row) else db[k])
    ensures id.Some? ==> Get(r.2, ShopKey(id.value)) == None
                         && forall k :: k != ShopKey(id.value) ==> Get(r.2, k) == Get(m, k)
  {
    match id
    case None => (UpdateFailed(SHOP_ID_REQUIRED), db, m)
    case Some(i) =>
      var db' := if i in db then db[i := merge(db[i], row)] else db;
      (Updated, db', Delete(m, ShopKey(i)))
  }

  /** Invalidation suits the pass-through read: after an update, the next
      pass-through read misses, reloads the merged row and caches it. */
  lemma UpdateThenPassThroughReloads<V>(db: ShopTable<V>, m: Strings, id: int, row: V, merge: (V, V) -> V,
                                        json: CacheClient.Json<V>)
    requires id in db
    ensures var u := Update(db, m, Some(id), row, merge);
            var r := CacheClient.QueryWithPassThrough(u.2, Constants.CACHE_SHOP_KEY, id, json, DbLoader(u.1),
                                                       Constants.CACHE_NULL_TTL, Constants.CACHE_SHOP_TTL, Minutes);
            var merged := merge(db[id], row);
            r == CacheClient.Read(Some(merged), CacheClient.Set(u.2, ShopKey(id), merged, Constants.CACHE_SHOP_TTL, Minutes, json), 1)
  {
  }

  /** As written, `update` deletes the key that `queryById` reads with
      logical expiry, and logical expiry never loads a cold key: every
      `queryById` after an update reports the shop missing, although the
      row exists, until something writes the envelope again. */
  lemma UpdateThenQueryByIdFails<V>(db: ShopTable<V>, m: Strings, id: int, row: V, merge: (V, V) -> V,
                                    json: CacheClient.Json<V>, atLock: Strings, now: int, rebuildNow: int)
    requires id in db
    ensures var u := Update(db, m, Some(id), row, merge);
            id in u.1 && QueryById(u.2, atLock, u.1, id, json, now, rebuildNow).0 == ShopFail(SHOP_MISSING)
  {
  }

  /** The update the logical-expiry read needs: write the row, then write a
      fresh envelope of it (the warm-up write) instead of deleting the key. */
  function UpdateAndRefresh<V>(db: ShopTable<V>, m: Strings, id: Option<int>, row: V, merge: (V, V) -> V, now: int,
                               json: CacheClient.Json<V>): (r: (UpdateResult, ShopTable<V>, Strings))
    ensures id == None <==> r.0 == UpdateFailed(SHOP_ID_REQUIRED)
    ensures id == None ==> r.1 == db && r.2 == m
    ensures id.Some? ==> r.1 == Update(db, m, id, row, merge).1
    ensures id.Some? ==> forall k :: k != ShopKey(id.value) ==> Get(r.2, k) == Get(m, k)
  {
    match id
    case None => (UpdateFailed(SHOP_ID_REQUIRED), db, m)
    case Some(i) =>
      var db' := Update(db, m, id, row, merge).1;
      (Updated, db', SaveShop2Redis(db', m, i, LOGICAL_TTL_MINUTES * 60, now, json))
  }

  /** With the refreshing update, a read within the logical TTL returns the
      merged row. */
  lemma UpdateAndRefreshServesRow<V>(db: ShopTable<V>, m: Strings, id: int, row: V, merge: (V, V) -> V, now: int,
                                     json: CacheClient.Json<V>, later: int, rebuildNow: int)
    requires id in db
    requires var e := CacheClient.RedisData(now + LOGICAL_TTL_MINUTES * 60, Some(merge(db[id], row)));
             json.decodeEnvelope(json.encodeEnvelope(e)) == e && IsNotBlank(Some(json.encodeEnvelope(e)))
    requires later < now + LOGICAL_TTL_MINUTES * 60
    ensures var u := UpdateAndRefresh(db, m, Some(id), row, merge, now, json);
            QueryById(u.2, u.2, u.1, id, json, later, rebuildNow).0 == ShopOk(merge(db[id], row))
  {
    var u := UpdateAndRefresh(db, m, Some(id), row, merge, now, json);
    assert u.1[id] == merge(db[id], row);
    WarmedShopIsServed(u.1, m, id, LOGICAL_TTL_MINUTES * 60, now, json, later, rebuildNow);
  }

  // ---------------------------------------------------------------------
  // queryShopByType: the geo page
  // ---------------------------------------------------------------------

  /** The members of `all` from position `lo` up to `hi`, clipped to its length. */
  function Window<T>(all: seq<T>, lo: nat, hi: nat): (w: seq<T>)
    requires lo <= hi
    ensures |w| == (if hi <= |all| then hi else |all|) - (if lo <= |all| then lo else |all|)
  {
    var a := if lo <= |all| then lo else |all|;
    var b := if hi <= |all| then hi else |all|;
    all[a..b]
  }

  datatype GeoResult = GeoPage(ids: seq<int>, shops: seq<int>) | GeoError

  /** The `from`/`end` bounds of page `current`, in 32-bit arithmetic. */
  function PageFrom(current: int, pageSize: int): int {
    IntValue((current - 1) * pageSize)
  }

  function PageEnd(current: int, pageSize: int): int {
    IntValue(current * pageSize)
  }

  /** Page 858993460 of size 5 wraps around: `(current - 1) * 5` is
      4294967295, which `int` reads as -1, while `current * 5` reads as 4. */
  lemma WrappedPageStartsBeforeZero()
    ensures PageFrom(858993460, 5) == -1 && PageEnd(858993460, 5) == 4
  {
    assert (858993460 - 1) * 5 == -1 + 0x1_0000_0000;
    assert 858993460 * 5 == 4 + 0x1_0000_0000;
  }

  /** Every found shop's printed id is one of the page's member names, so
      the distance lookup `distanceMap.get(shop.getId().toString())`
      finds an entry (the map is keyed by the member names). */
  predicate DistancesFound(names: seq<string>, found: seq<int>) {
    forall x :: x in found ==> LongStr(x) in names
  }

  /** Member names that are the decimal printing of a `long`, as the
      shop ids' `toString()` writes them. */
  predicate CanonicalNames(names: seq<string>) {
    forall n :: n in names ==> ParseLong(n).Some? && LongStr(ParseLong(n).value) == n
  }

  /** Lines 319-351. `reply` is the search result without `limit(end)`
      applied (null possible); `shops` the ids of the table. A non-positive
      `end`, a negative `from`, an unparsable member name, or a found shop
      whose printed id is not a member name of the page (a null distance)
      throws. */
  function GeoPageOf(current: int, pageSize: int, reply: Option<seq<string>>, shops: set<int>): (r: GeoResult)
    requires INT_MIN <= current <= INT_MAX
    ensures PageEnd(current, pageSize) <= 0 ==> r == GeoError
    ensures reply == None && PageEnd(current, pageSize) > 0 ==> r == GeoPage([], [])
    ensures var from, end := PageFrom(current, pageSize), PageEnd(current, pageSize);
            reply.Some? && 0 < end && |Window(reply.value, 0, end)| <= from ==> r == GeoPage([], [])
    // a negative `from` with a positive `end` (only by `int` wrap-around) fails in `skip(from)`
    ensures reply.Some? && PageFrom(current, pageSize) < 0 < PageEnd(current, pageSize) ==> r == GeoError
    ensures var from, end := PageFrom(current, pageSize), PageEnd(current, pageSize);
            reply.Some? && 0 <= from < end && from < |reply.value| ==>
              var names := Window(reply.value, from, end);
              match ParseAll(names)
              case None => r == GeoError
              case Some(ids) =>
                && 0 < |ids| <= end - from
                && r == if DistancesFound(names, FirstExisting(ids, shops)) then GeoPage(ids, FirstExisting(ids, shops))
                        else GeoError
  {
    var from := PageFrom(current, pageSize);
    var end := PageEnd(current, pageSize);
    if end <= 0 then GeoError
    else if reply == None then GeoPage([], [])
    else
      var list := Window(reply.value, 0, end);
      if |list| <= from then GeoPage([], [])
      else if from < 0 then GeoError
      else
        var names := list[from..];
        assert names == Window(reply.value, from, end);
        match ParseAll(names)
        case None => GeoError
        case Some(ids) =>
          var found := FirstExisting(ids, shops);
          if forall x :: x in found ==> LongStr(x) in names then GeoPage(ids, found) else GeoError
  }

  /** With canonical member names every found shop has its distance: the
      names parse, and each found id prints back to the name it came from. */
  lemma CanonicalNamesFindDistances(names: seq<string>, shops: set<int>)
    requires CanonicalNames(names)
    ensures ParseAll(names).Some?
    ensures DistancesFound(names, FirstExisting(ParseAll(names).value, shops))
  {
    ParseEachPointwise(names, ParseLong);
    var ids := ParseAll(names).value;
    forall x | x in FirstExisting(ids, shops)
      ensures LongStr(x) in names
    {
      var k :| 0 <= k < |ids| && ids[k] == x;
      assert names[k] in names;
    }
  }

  /** `Long.valueOf("07")` is 7: a leading zero is accepted. */
  lemma ZeroSevenParses()
    ensures ParseAll(["07"]) == Some([7])
  {
    var names := ["07"];
    var s := "07";
    var zero := s[..1];
    assert zero == "0" && zero[..0] == [] && zero[0] == '0';
    assert DigitValue('0') == 0 && DigitValue('7') == 7;
    assert AllDigits(zero[..0]) && DigitsValue(zero[..0]) == 0;
    assert AllDigits(zero);
    assert DigitsValue(zero) == DigitsValue(zero[..0]) * 10 + DigitValue(zero[0]) == 0;
    assert AllDigits(s) && DigitsValue(s) == 7;
    assert ParseLong(s) == Some(7);
    assert names[0] == s && names[1..] == [];
    assert ParseEach(names[1..], ParseLong) == Some([]);
    assert [7] + [] == [7];
    assert ParseAll(names) == Some([7] + []);
  }

  /** A member name that parses but is not the shop id's own printing
      ("07" for shop 7) finds the shop but not its distance, and the page
      throws. */
  lemma NonCanonicalNameThrows()
    ensures GeoPageOf(1, 5, Some(["07"]), {7}) == GeoError
  {
    var names := ["07"];
    ZeroSevenParses();
    IntValueOfInt(0);
    IntValueOfInt(5);
    assert Window(names, 0, 5) == names;
    assert FirstExisting([7], {7}) == [7];
    assert LongStr(7) == "7";
    assert !DistancesFound(names, [7]);
  }

  /** The page bounds without wrap-around. */
  lemma PageBounds(c: int, pageSize: int)
    requires 1 <= c && 0 < pageSize && (c + 1) * pageSize <= INT_MAX
    ensures PageFrom(c, pageSize) == (c - 1) * pageSize && PageEnd(c, pageSize) == c * pageSize
    ensures PageFrom(c + 1, pageSize) == c * pageSize && PageEnd(c + 1, pageSize) == (c + 1) * pageSize
    ensures 0 <= PageFrom(c, pageSize) < PageEnd(c, pageSize) == PageFrom(c + 1, pageSize) < PageEnd(c + 1, pageSize)
  {
    assert c * pageSize == (c - 1) * pageSize + pageSize;
    assert (c + 1) * pageSize == c * pageSize + pageSize;
    IntValueOfInt((c - 1) * pageSize);
    IntValueOfInt(c * pageSize);
    IntValueOfInt((c + 1) * pageSize);
  }

  /** A page of a reply of canonical names whose end fits an `int` starts
      at `(c-1)*size`, ends at `c*size`, and holds the parsed ids of that
      window. */
  lemma PageIsWindow(c: int, pageSize: int, all: seq<string>, shops: set<int>)
    requires 1 <= c && 0 < pageSize && c * pageSize <= INT_MAX
    requires CanonicalNames(all)
    ensures 0 <= PageFrom(c, pageSize) == (c - 1) * pageSize < PageEnd(c, pageSize) == c * pageSize
    ensures GeoPageOf(c, pageSize, Some(all), shops).GeoPage?
    ensures Some(GeoPageOf(c, pageSize, Some(all), shops).ids) == ParseAll(Window(all, PageFrom(c, pageSize), PageEnd(c, pageSize)))
  {
    assert c * pageSize == (c - 1) * pageSize + pageSize;
    IntValueOfInt((c - 1) * pageSize);
    IntValueOfInt(c * pageSize);
    var from, end := PageFrom(c, pageSize), PageEnd(c, pageSize);
    var names := Window(all, from, end);
    assert forall n :: n in names ==> n in all;
    CanonicalNamesFindDistances(names, shops);
    if |all| <= from {
      assert names == [];
    }
  }

  /** A slice of a list that parses parses to the same slice of ids. */
  lemma ParseSlice(all: seq<string>, a: nat, b: nat, parse: string -> Option<int>)
    requires a <= b <= |all|
    requires ParseEach(all, parse).Some?
    ensures ParseEach(all[a..b], parse) == Some(ParseEach(all, parse).value[a..b])
  {
    assert all == all[..a] + all[a..b] + all[b..];
    ParseEachAppend(all[..a] + all[a..b], all[b..], parse);
    ParseEachAppend(all[..a], all[a..b], parse);
  }

  /** When the whole list parses, so does every window, and adjoining
      windows parse to adjoining id lists. */
  lemma WindowsParse(all: seq<string>, lo: nat, mid: nat, hi: nat, parse: string -> Option<int>)
    requires lo <= mid <= hi
    requires ParseEach(all, parse).Some?
    ensures ParseEach(Window(all, lo, mid), parse).Some? && ParseEach(Window(all, mid, hi), parse).Some?
    ensures ParseEach(Window(all, lo, hi), parse)
            == Some(ParseEach(Window(all, lo, mid), parse).value + ParseEach(Window(all, mid, hi), parse).value)
  {
    var n := |all|;
    var a := if lo <= n then lo else n;
    var m := if mid <= n then mid else n;
    var b := if hi <= n then hi else n;
    assert Window(all, lo, mid) == all[a..m];
    assert Window(all, mid, hi) == all[m..b];
    assert Window(all, lo, hi) == all[a..b];
    SlicesParse(all, a, m, b, parse);
  }

  lemma {:induction false} SlicesParse(all: seq<string>, a: nat, m: nat, b: nat, parse: string -> Option<int>)
    requires a <= m <= b <= |all|
    requires ParseEach(all, parse).Some?
    ensures ParseEach(all[a..m], parse).Some? && ParseEach(all[m..b], parse).Some?
    ensures ParseEach(all[a..b], parse) == Some(ParseEach(all[a..m], parse).value + ParseEach(all[m..b], parse).value)
  {
    ParseSlice(all, a, b, parse);
    assert all[a..b] == all[a..m] + all[m..b];
    ParseEachAppend(all[a..m], all[m..b], parse);
  }

  /** Consecutive pages tile the distance-ordered result: the ids of page
      `c` followed by those of page `c + 1` are the ids at positions
      `(c-1)*size` up to `(c+1)*size`, so no shop is skipped or repeated. */
  lemma ConsecutivePagesTile(c: int, pageSize: int, all: seq<string>, shops: set<int>)
    requires 1 <= c && 0 < pageSize && (c + 1) * pageSize <= INT_MAX
    requires CanonicalNames(all)
    ensures var p, q := GeoPageOf(c, pageSize, Some(all), shops), GeoPageOf(c + 1, pageSize, Some(all), shops);
            p.GeoPage? && q.GeoPage?
            && 0 <= PageFrom(c, pageSize) <= PageEnd(c + 1, pageSize)
            && ParseAll(Window(all, PageFrom(c, pageSize), PageEnd(c + 1, pageSize))) == Some(p.ids + q.ids)
  {
    PageBounds(c, pageSize);
    var lo, mid, hi := PageFrom(c, pageSize), PageEnd(c, pageSize), PageEnd(c + 1, pageSize);
    PageIsWindow(c, pageSize, all, shops);
    PageIsWindow(c + 1, pageSize, all, shops);
    CanonicalNamesFindDistances(all, shops);
    WindowsParse(all, lo, mid, hi, ParseLong);
  }
}

=== FILE: shop_type_service.dfy ===
/**
 * `ShopTypeServiceImpl.queryTypeList`: the shop-type list cached as one
 * JSON string under `CACHE_SHOP_TYPE_KEY`, loaded on a miss ordered by
 * the `sort` column.
 *
 * The table is a sequence of rows in storage order; `ORDER BY sort` is
 * modelled as a stable sort of it (the order of rows with equal `sort`
 * is up to the database). The list codec is opaque.
 */
module ShopTypeService {
  import opened Base
  import opened Store
  import Constants

  datatype ShopType = ShopType(id: int, name: string, sort: int)

  datatype ListJson = ListJson(encode: seq<ShopType> -> string, decode: string -> seq<ShopType>)

  predicate Sorted(s: seq<ShopType>) {
    forall i, j :: 0 <= i < j < |s| ==> s[i].sort <= s[j].sort
  }

  /** Place `x` before the first element whose `sort` is not smaller. */
  function Insert(x: ShopType, s: seq<ShopType>): seq<ShopType> {
    if s == [] || x.sort <= s[0].sort then [x] + s else [s[0]] + Insert(x, s[1..])
  }

  /** Insertion adds exactly `x`. */
  lemma {:induction false} InsertPermutes(x: ShopType, s: seq<ShopType>)
    ensures multiset(Insert(x, s)) == multiset(s) + multiset{x}
  {
    if s != [] && x.sort > s[0].sort {
      InsertPermutes(x, s[1..]);
      assert s == [s[0]] + s[1..];
    }
  }

  /** Insertion into a sorted list keeps it sorted, and the new head is
      `x` or the old head. */
  lemma {:induction false} InsertSorted(x: ShopType, s: seq<ShopType>)
    requires Sorted(s)
    ensures Sorted(Insert(x, s))
    ensures Insert(x, s)[0] == x || (s != [] && Insert(x, s)[0] == s[0])
  {
    if s != [] && x.sort > s[0].sort {
      var t := Insert(x, s[1..]);
      InsertSorted(x, s[1..]);
      assert s[0].sort <= t[0].sort by {
        if t[0] != x {
          assert t[0] == s[1];
        }
      }
      assert Insert(x, s) == [s[0]] + t;
      forall i, j | 0 <= i < j < |Insert(x, s)|
        ensures Insert(x, s)[i].sort <= Insert(x, s)[j].sort
      {
        if i > 0 {
          assert Insert(x, s)[i] == t[i - 1] && Insert(x, s)[j] == t[j - 1];
        } else {
          assert Sorted(t) && 0 <= j - 1 < |t|;
          assert t[0].sort <= t[j - 1].sort || j - 1 == 0;
        }
      }
    }
  }

  /** `query().orderByAsc("sort").list()`: rows with equal `sort` keep
      their storage order. */
  function OrderBySort(rows: seq<ShopType>): seq<ShopType> {
    if rows == [] then [] else Insert(rows[0], OrderBySort(rows[1..]))
  }

  /** The ordered list is sorted and holds exactly the rows. */
  lemma {:induction false} OrderBySortSpec(rows: seq<ShopType>)
    ensures Sorted(OrderBySort(rows))
    ensures multiset(OrderBySort(rows)) == multiset(rows)
  {
    if rows != [] {
      var t := OrderBySort(rows[1..]);
      OrderBySortSpec(rows[1..]);
      InsertSorted(rows[0], t);
      InsertPermutes(rows[0], t);
      assert rows == [rows[0]] + rows[1..];
    }
  }

  /** A list already ordered by `sort` comes back unchanged. */
  lemma {:induction false} OrderBySortKeepsSorted(rows: seq<ShopType>)
    requires Sorted(rows)
    ensures OrderBySort(rows) == rows
  {
    if rows != [] {
      OrderBySortKeepsSorted(rows[1..]);
    }
  }

  const TYPES_EMPTY: string := "商铺类型为空！"

  datatype TypeListResult = TypesOk(types: seq<ShopType>) | TypesFail(message: string)

  /** The reply, the store left behind and the number of table reads. */
  datatype TypeListRead = TypeListRead(result: TypeListResult, store: Strings, loads: nat)

  /** `queryTypeList` as written. The `Result.fail` for an empty table is
      built and discarded, so an empty list is cached and returned ok. */
  function QueryTypeList(m: Strings, rows: seq<ShopType>, json: ListJson): (r: TypeListRead)
    // a non-blank cached list is decoded, without a table read
    ensures IsNotBlank(Get(m, Constants.CACHE_SHOP_TYPE_KEY)) ==>
              r == TypeListRead(TypesOk(json.decode(Get(m, Constants.CACHE_SHOP_TYPE_KEY).value)), m, 0)
    // otherwise the ordered rows are cached for CACHE_SHOP_TTL minutes and returned
    ensures IsBlank(Get(m, Constants.CACHE_SHOP_TYPE_KEY)) ==>
              && r.loads == 1 && r.result.TypesOk?
              && Sorted(r.result.types) && multiset(r.result.types) == multiset(rows)
              && Get(r.store, Constants.CACHE_SHOP_TYPE_KEY) == Some(json.encode(r.result.types))
              && r.store[Constants.CACHE_SHOP_TYPE_KEY].ttl == Expires(Constants.CACHE_SHOP_TTL, Minutes)
    ensures forall k :: k != Constants.CACHE_SHOP_TYPE_KEY ==> Get(r.store, k) == Get(m, k)
  {
    var cached := Get(m, Constants.CACHE_SHOP_TYPE_KEY);
    if IsNotBlank(cached) then TypeListRead(TypesOk(json.decode(cached.value)), m, 0)
    else
      var types := OrderBySort(rows);
      OrderBySortSpec(rows);
      var m' := Put(m, Constants.CACHE_SHOP_TYPE_KEY, json.encode(types), Expires(Constants.CACHE_SHOP_TTL, Minutes));
      TypeListRead(TypesOk(types), m', 1)
  }

  /** Once a list is cached, the next read returns the same list without a
      table read (given that the codec round-trips it). */
  lemma SecondReadIsCached(m: Strings, rows: seq<ShopType>, json: ListJson)
    requires json.decode(json.encode(OrderBySort(rows))) == OrderBySort(rows)
    requires IsNotBlank(Some(json.encode(OrderBySort(rows))))
    ensures var first := QueryTypeList(m, rows, json);
            var second := QueryTypeList(first.store, rows, json);
            first.loads == 1 ==> second.result == first.result && second.loads == 0 && second.store == first.store
  {
  }

  /** As written, an empty table yields an ok reply with an empty list, and
      the empty list is written to the cache, where (its JSON being
      non-blank) it hides rows added later for the whole TTL. */
  lemma EmptyTableIsCachedAsWritten(m: Strings, json: ListJson, later: seq<ShopType>)
    requires IsBlank(Get(m, Constants.CACHE_SHOP_TYPE_KEY))
    requires json.decode(json.encode([])) == [] && IsNotBlank(Some(json.encode([])))
    ensures var first := QueryTypeList(m, [], json);
            && first.result == TypesOk([])
            && Get(first.store, Constants.CACHE_SHOP_TYPE_KEY) == Some(json.encode([]))
            && QueryTypeList(first.store, later, json).result == TypesOk([])
  {
  }

  /** `queryTypeList` returning the failure it builds: an empty table is
      reported and nothing is cached. */
  function QueryTypeListFixed(m: Strings, rows: seq<ShopType>, json: ListJson): (r: TypeListRead)
    ensures IsBlank(Get(m, Constants.CACHE_SHOP_TYPE_KEY)) && rows == [] ==>
              r == TypeListRead(TypesFail(TYPES_EMPTY), m, 1)
    ensures !(IsBlank(Get(m, Constants.CACHE_SHOP_TYPE_KEY)) && rows == []) ==> r == QueryTypeList(m, rows, json)
  {
    var cached := Get(m, Constants.CACHE_SHOP_TYPE_KEY);
    if IsBlank(cached) && rows == [] then TypeListRead(TypesFail(TYPES_EMPTY), m, 1)
    else QueryTypeList(m, rows, json)
  }

  /** With the fix, an empty table leaves the cache cold, so rows added
      later are served by the next read. */
  lemma FixedEmptyTableStaysCold(m: Strings, json: ListJson, later: seq<ShopType>)
    requires IsBlank(Get(m, Constants.CACHE_SHOP_TYPE_KEY))
    ensures var first := QueryTypeListFixed(m, [], json);
            && first.result == TypesFail(TYPES_EMPTY)
            && first.store == m
            && var next := QueryTypeListFixed(first.store, later, json);
               later != [] ==> next.result.TypesOk? && multiset(next.result.types) == multiset(later)
  {
  }
}

=== FILE: simple_redis_lock.dfy ===
/**
 * `SimpleRedisLock`: a named lock stored under `"lock:" + name` whose value
 * is the owner token `ID_PREFIX + threadId`. Acquire is SET NX with a TTL in
 * seconds; release deletes the key only when it still holds the caller's
 * token, so a caller whose lease expired cannot delete a successor's lock.
 *
 * `ID_PREFIX` is a random UUID drawn once per JVM; it is a parameter here.
 * The TTL is recorded on the key but never applied: lease expiry is
 * modelled by an explicit `Expire` step.
 */
module SimpleRedisLock {
  import opened Base
  import opened Store

  const KEY_PREFIX: string := "lock:"

  /** The key a lock called `name` lives under. */
  function LockKey(name: string): string {
    KEY_PREFIX + name
  }

  /** The owner token of thread `threadId` in the JVM whose prefix is `idPrefix`. */
  function Token(idPrefix: string, threadId: int): string {
    idPrefix + LongStr(threadId)
  }

  /** Redis accepts `SET ... EX t` only for a positive `t`; otherwise the
      command fails with "invalid expire time" and the client throws. */
  predicate ExpireAccepted(timeoutSec: int) {
    timeoutSec > 0
  }

  /** `tryLock(timeoutSec)`: SET NX of the owner token with a TTL; a null
      reply is false. `None` is the exception of a rejected expire time. */
  function TryLock(m: Strings, name: string, idPrefix: string, threadId: int, timeoutSec: int): (r: (Option<bool>, Strings))
    ensures r.0 == None <==> !ExpireAccepted(timeoutSec)
    ensures r.0 == Some(true) <==> ExpireAccepted(timeoutSec) && LockKey(name) !in m
    ensures r.0 == Some(true) ==> Get(r.1, LockKey(name)) == Some(Token(idPrefix, threadId))
                                  && r.1[LockKey(name)].ttl == Expires(timeoutSec, Seconds)
    ensures forall k :: k != LockKey(name) ==> Get(r.1, k) == Get(m, k)
    ensures r.0 != Some(true) ==> r.1 == m
  {
    if !ExpireAccepted(timeoutSec) then (None, m)
    else
      var (written, m') := SetIfAbsent(m, LockKey(name), Token(idPrefix, threadId), Expires(timeoutSec, Seconds));
      (Some(IsTrue(Some(written))), m')
  }

  /** `unlock()`: compare-and-delete of the caller's token, run atomically
      by a server-side script whose reply is ignored. */
  function Unlock(m: Strings, name: string, idPrefix: string, threadId: int): (m': Strings)
    ensures Get(m, LockKey(name)) == Some(Token(idPrefix, threadId)) ==> Get(m', LockKey(name)) == None
    ensures Get(m, LockKey(name)) != Some(Token(idPrefix, threadId)) ==> m' == m
    ensures forall k :: k != LockKey(name) ==> Get(m', k) == Get(m, k)
  {
    if Get(m, LockKey(name)) == Some(Token(idPrefix, threadId)) then Delete(m, LockKey(name)) else m
  }

  /** The lease running out: Redis evicts the key. */
  function Expire(m: Strings, name: string): (m': Strings)
    ensures Get(m', LockKey(name)) == None
    ensures forall k :: k != LockKey(name) ==> Get(m', k) == Get(m, k)
  {
    Delete(m, LockKey(name))
  }

  /** Locks with different names live under different keys, so they never interfere. */
  lemma LockKeysDistinct(a: string, b: string)
    requires a != b
    ensures LockKey(a) != LockKey(b)
  {
    assert LockKey(a)[|KEY_PREFIX|..] == a;
    assert LockKey(b)[|KEY_PREFIX|..] == b;
  }

  /** Acquiring one lock neither takes nor frees a lock of another name. */
  lemma OtherLockUnaffected(m: Strings, name: string, other: string, idPrefix: string, threadId: int, timeoutSec: int)
    requires other != name
    ensures Get(TryLock(m, name, idPrefix, threadId, timeoutSec).1, LockKey(other)) == Get(m, LockKey(other))
    ensures Get(Unlock(m, name, idPrefix, threadId), LockKey(other)) == Get(m, LockKey(other))
  {
    LockKeysDistinct(other, name);
  }

  /** Threads of one JVM have distinct tokens. */
  lemma TokensDistinct(idPrefix: string, a: int, b: int)
    requires a != b
    ensures Token(idPrefix, a) != Token(idPrefix, b)
  {
    if Token(idPrefix, a) == Token(idPrefix, b) {
      KeyInjective(idPrefix, a, b);
    }
  }

  /** The lock is not reentrant: once held, a second `tryLock` fails for
      every caller, the holder included, and changes nothing. */
  lemma SecondTryLockFails(m: Strings, name: string, idPrefix: string, threadId: int, timeoutSec: int,
                           idPrefix2: string, threadId2: int, timeoutSec2: int)
    requires TryLock(m, name, idPrefix, threadId, timeoutSec).0 == Some(true)
    ensures var m1 := TryLock(m, name, idPrefix, threadId, timeoutSec).1;
            TryLock(m1, name, idPrefix2, threadId2, timeoutSec2) == (if ExpireAccepted(timeoutSec2) then Some(false) else None, m1)
  {
  }

  /** Acquire then release by the same thread restores the store exactly
      (a rejected acquire writes nothing, and the release then finds no token). */
  lemma TryLockUnlockRoundTrip(m: Strings, name: string, idPrefix: string, threadId: int, timeoutSec: int)
    requires LockKey(name) !in m
    ensures Unlock(TryLock(m, name, idPrefix, threadId, timeoutSec).1, name, idPrefix, threadId) == m
  {
    var m1 := TryLock(m, name, idPrefix, threadId, timeoutSec).1;
    if ExpireAccepted(timeoutSec) {
      assert m1 == m[LockKey(name) := Cell(Token(idPrefix, threadId), Expires(timeoutSec, Seconds))];
      assert Unlock(m1, name, idPrefix, threadId) == m1 - {LockKey(name)};
    }
  }

  /** A release by another thread of the same JVM leaves the holder's lock in place. */
  lemma ForeignUnlockKeepsLock(m: Strings, name: string, idPrefix: string, owner: int, intruder: int, timeoutSec: int)
    requires LockKey(name) !in m && owner != intruder
    ensures var m1 := TryLock(m, name, idPrefix, owner, timeoutSec).1;
            Unlock(m1, name, idPrefix, intruder) == m1
  {
    TokensDistinct(idPrefix, owner, intruder);
  }

  /** Lease takeover: A's lease expires, B acquires, then A's late `unlock`
      leaves B's lock intact, and B's own `unlock` still releases it. With
      a rejected lease time neither acquire gets through. */
  lemma StaleUnlockKeepsSuccessor(m: Strings, name: string, prefixA: string, threadA: int,
                                  prefixB: string, threadB: int, ttl: int)
    requires LockKey(name) !in m
    requires Token(prefixA, threadA) != Token(prefixB, threadB)
    ensures var heldByA := TryLock(m, name, prefixA, threadA, ttl).1;
            var expired := Expire(heldByA, name);
            var (acquiredB, heldByB) := TryLock(expired, name, prefixB, threadB, ttl);
            var afterStale := Unlock(heldByB, name, prefixA, threadA);
            && (!ExpireAccepted(ttl) ==> acquiredB == None && heldByB == m)
            && (ExpireAccepted(ttl) ==>
                  && acquiredB == Some(true)
                  && afterStale == heldByB
                  && Get(afterStale, LockKey(name)) == Some(Token(prefixB, threadB))
                  && Get(Unlock(afterStale, name, prefixB, threadB), LockKey(name)) == None)
  {
  }
}

=== FILE: store.dfy ===
/**
 * The Redis string keyspace as an immutable map from key to value and the
 * TTL the value was written with. Only the commands the core issues on
 * strings are modelled: GET, SET (with or without TTL), SET NX and DEL.
 * Time-based eviction is not modelled; a TTL is recorded, never applied.
 */
module Store {
  import opened Base

  /** The TTL a value was written with: none, or an amount in a unit. */
  datatype Ttl = Forever | Expires(amount: int, unit: TimeUnit)

  datatype Cell = Cell(value: string, ttl: Ttl)

  type Strings = map<string, Cell>

  /** GET: the value under `key`, or null. */
  function Get(m: Strings, key: string): (r: Option<string>)
    ensures r.Some? <==> key in m
    ensures r.Some? ==> r.value == m[key].value
  {
    if key in m then Some(m[key].value) else None
  }

  /** SET key value [EX ttl]: overwrite unconditionally. */
  function Put(m: Strings, key: string, value: string, ttl: Ttl): (m': Strings)
    ensures Get(m', key) == Some(value) && m'[key].ttl == ttl
    ensures forall k :: k != key ==> Get(m', k) == Get(m, k)
  {
    m[key := Cell(value, ttl)]
  }

  /** DEL key. */
  function Delete(m: Strings, key: string): (m': Strings)
    ensures Get(m', key) == None
    ensures forall k :: k != key ==> (k in m' <==> k in m)
    ensures forall k :: k != key && k in m ==> m'[k] == m[k]
  {
    m - {key}
  }

  /** SET key value NX [EX ttl]: write only when the key is absent; the
      reply says whether it wrote. */
  function SetIfAbsent(m: Strings, key: string, value: string, ttl: Ttl): (r: (bool, Strings))
    ensures r.0 <==> key !in m
    ensures r.0 ==> r.1 == Put(m, key, value, ttl)
    ensures !r.0 ==> r.1 == m
  {
    if key in m then (false, m) else (true, Put(m, key, value, ttl))
  }

  /** `BooleanUtils.isTrue` / `Boolean.TRUE.equals`: a null reply is false. */
  function IsTrue(reply: Option<bool>): (b: bool)
    ensures b <==> reply == Some(true)
  {
    match reply
    case Some(v) => v
    case None => false
  }
}

=== FILE: user_service.dfy ===
/**
 * `UserServiceImpl`: daily sign-in on a per-month bitmap, the sign-in
 * streak read back through BITFIELD, and phone-code login with creation of
 * unknown users.
 *
 * Redis bitmaps are a map from key to a bit sequence whose offset 0 is the
 * most significant bit of the first byte, as SETBIT and BITFIELD address
 * them. The clock, the phone-number validator, the random token and the
 * random nickname suffix are parameters.
 */
module UserService {
  import opened Base
  import opened Store
  import Constants

  // ---------------------------------------------------------------------
  // Keys
  // ---------------------------------------------------------------------

  /** `LocalDateTime.now()`, reduced to the fields the code reads. */
  datatype Date = Date(year: int, month: int, day: int)

  /** Dates the clock produces and the `yyyy` pattern prints without a sign. */
  predicate ValidDate(d: Date) {
    1 <= d.year <= 9999 && 1 <= d.month <= 12 && 1 <= d.day <= 31
  }

  /** Left-pads with `'0'` to width `w`, as the fixed-width date fields do. */
  function ZeroPad(s: string, w: nat): (r: string)
    ensures |r| == if |s| >= w then |s| else w
    decreases w - |s|
  {
    if |s| >= w then s else ZeroPad("0" + s, w)
  }

  /** `DateTimeFormatter.ofPattern(":yyyy:MM")`. */
  function MonthSuffix(d: Date): string
    requires ValidDate(d)
  {
    ":" + ZeroPad(LongStr(d.year), 4) + ":" + ZeroPad(LongStr(d.month), 2)
  }

  /** `USER_SIGN_KEY + userId + ":yyyy:MM"`. */
  function SignKey(userId: int, d: Date): string
    requires ValidDate(d)
  {
    Constants.USER_SIGN_KEY + LongStr(userId) + MonthSuffix(d)
  }

  // ---------------------------------------------------------------------
  // Bitmaps
  // ---------------------------------------------------------------------

  type Bitmaps = map<string, seq<bool>>

  /** GETBIT: bits past the end of the string read as 0. */
  function Bit(b: seq<bool>, i: nat): bool {
    i < |b| && b[i]
  }

  /** The bitmap under `key`; an absent key is the empty string. */
  function Bits(m: Bitmaps, key: string): seq<bool> {
    if key in m then m[key] else []
  }

  /** `n` zero bits. */
  function Zeros(n: nat): (z: seq<bool>)
    ensures |z| == n && forall i :: 0 <= i < n ==> !z[i]
  {
    if n == 0 then [] else Zeros(n - 1) + [false]
  }

  /** SETBIT key offset 1: the string grows by whole zero bytes to cover `offset`. */
  function SetBit(b: seq<bool>, offset: nat): (r: seq<bool>)
    ensures Bit(r, offset)
    ensures forall i: nat :: i != offset ==> Bit(r, i) == Bit(b, i)
    ensures |r| == if offset < |b| then |b| else (offset / 8 + 1) * 8
  {
    var grown := if offset < |b| then b else b + Zeros((offset / 8 + 1) * 8 - |b|);
    grown[offset := true]
  }

  /** `sign()`: set bit `day - 1` of this month's bitmap. */
  function Sign(m: Bitmaps, userId: int, d: Date): (m': Bitmaps)
    requires ValidDate(d)
    ensures Bit(Bits(m', SignKey(userId, d)), d.day - 1)
    ensures forall i: nat :: i != d.day - 1 ==> Bit(Bits(m', SignKey(userId, d)), i) == Bit(Bits(m, SignKey(userId, d)), i)
    ensures forall k :: k != SignKey(userId, d) ==> Bits(m', k) == Bits(m, k)
  {
    var key := SignKey(userId, d);
    m[key := SetBit(Bits(m, key), d.day - 1)]
  }

  /** Setting a bit that is already set changes nothing. */
  lemma SetBitIdempotent(b: seq<bool>, offset: nat)
    ensures SetBit(SetBit(b, offset), offset) == SetBit(b, offset)
  {
    var once := SetBit(b, offset);
    assert offset < |once|;
    assert once[offset := true] == once;
  }

  /** Signing twice on one day leaves the bitmap as signing once. */
  lemma SignIdempotent(m: Bitmaps, userId: int, d: Date)
    requires ValidDate(d)
    ensures Sign(Sign(m, userId, d), userId, d) == Sign(m, userId, d)
  {
    var key := SignKey(userId, d);
    var once := SetBit(Bits(m, key), d.day - 1);
    var m1 := m[key := once];
    assert Bits(m1, key) == once;
    SetBitIdempotent(Bits(m, key), d.day - 1);
    assert m1[key := SetBit(once, d.day - 1)] == m1;
  }

  // ---------------------------------------------------------------------
  // signCount
  // ---------------------------------------------------------------------

  /** BITFIELD GET u`width` 0: the first `width` bits as an unsigned number, offset 0 most significant. */
  function BitsValue(b: seq<bool>, width: nat): nat {
    if width == 0 then 0 else 2 * BitsValue(b, width - 1) + (if Bit(b, width - 1) then 1 else 0)
  }

  lemma {:induction false} BitsValueBound(b: seq<bool>, width: nat)
    ensures BitsValue(b, width) < Pow2(width)
  {
    if width > 0 {
      BitsValueBound(b, width - 1);
    }
  }

  function Pow2(n: nat): (p: nat)
    ensures p >= 1
  {
    if n == 0 then 1 else 2 * Pow2(n - 1)
  }

  /** The sign-in streak ending on day `width`: consecutive set bits going back from offset `width - 1`. */
  function Streak(b: seq<bool>, width: nat): (s: nat)
    ensures s <= width
  {
    if width == 0 || !Bit(b, width - 1) then 0 else 1 + Streak(b, width - 1)
  }

  /** The number of consecutive 1 bits from the least significant end. */
  function TrailingOnes(x: nat): nat {
    if x % 2 == 0 then 0 else 1 + TrailingOnes(x / 2)
  }

  /** Reading the field as a number and counting its low 1 bits gives the
      streak of days ending today. */
  lemma {:induction false} TrailingOnesIsStreak(b: seq<bool>, width: nat)
    ensures TrailingOnes(BitsValue(b, width)) == Streak(b, width)
  {
    if width > 0 {
      var v := BitsValue(b, width);
      assert v % 2 == (if Bit(b, width - 1) then 1 else 0);
      assert v / 2 == BitsValue(b, width - 1);
      TrailingOnesIsStreak(b, width - 1);
    }
  }

  /** The counting loop: test the low bit, count, shift right unsigned.
      `num` is a Java `long`; `>>>` treats it as its 64-bit pattern. */
  method CountTrailingOnes(num: int) returns (count: nat)
    ensures count == TrailingOnes(UnsignedLong(num))
  {
    var x: nat := UnsignedLong(num);
    count := 0;
    while true
      invariant count + TrailingOnes(x) == TrailingOnes(UnsignedLong(num))
      decreases x
    {
      if x % 2 == 0 {
        break;
      }
      count := count + 1;
      x := x / 2;
    }
  }

  /** What `signCount` returns, or the exception it throws. */
  datatype SignCountResult = Count(n: nat) | NullPointer

  /** `signCount` given the BITFIELD reply: a null or empty list, or a zero,
      is 0; a null element throws when `num == 0` unboxes it. */
  method SignCountOfReply(reply: Option<seq<Option<int>>>) returns (r: SignCountResult)
    ensures reply == None || reply == Some([]) ==> r == Count(0)
    ensures reply.Some? && |reply.value| >= 1 ==>
              match reply.value[0]
              case None => r == NullPointer
              case Some(num) => r == Count(if num == 0 then 0 else TrailingOnes(UnsignedLong(num)))
  {
    if reply == None || |reply.value| == 0 {
      return Count(0);
    }
    match reply.value[0] {
      case None =>
        return NullPointer;
      case Some(num) =>
        if num == 0 {
          return Count(0);
        }
        var count := CountTrailingOnes(num);
        return Count(count);
    }
  }

  /** `signCount()` against the bitmaps: the streak of signed days ending
      today, never more than the day of the month. Redis answers BITFIELD
      on an absent key with `[0]`. */
  method SignCount(m: Bitmaps, userId: int, d: Date) returns (r: SignCountResult)
    requires ValidDate(d)
    ensures r == Count(Streak(Bits(m, SignKey(userId, d)), d.day))
    ensures r.n <= d.day
  {
    var bits := Bits(m, SignKey(userId, d));
    var value := BitsValue(bits, d.day);
    r := SignCountOfReply(Some([Some(value)]));
    TrailingOnesIsStreak(bits, d.day);
    BitsValueBound(bits, d.day);
    Pow2Bound(d.day);
    assert UnsignedLong(value) == value;
    if value == 0 {
      assert TrailingOnes(0) == 0;
    }
  }

  lemma {:induction false} Pow2Monotone(a: nat, b: nat)
    requires a <= b
    ensures Pow2(a) <= Pow2(b)
    decreases b - a
  {
    if a < b {
      Pow2Monotone(a, b - 1);
    }
  }

  lemma Pow2Of31()
    ensures Pow2(31) == 0x8000_0000
  {
    assert Pow2(10) == 1024;
    assert Pow2(20) == 1024 * 1024;
  }

  /** A field of at most 31 bits fits a signed 64-bit `long` with room to spare. */
  lemma Pow2Bound(n: nat)
    requires n <= 31
    ensures Pow2(n) <= 0x8000_0000
  {
    Pow2Monotone(n, 31);
    Pow2Of31();
  }

  /** After signing today, the streak is at least one day. */
  lemma SignedTodayStreak(m: Bitmaps, userId: int, d: Date)
    requires ValidDate(d)
    ensures Streak(Bits(Sign(m, userId, d), SignKey(userId, d)), d.day) >= 1
  {
  }

  // ---------------------------------------------------------------------
  // login and createUserWithPhone
  // ---------------------------------------------------------------------

  datatype User = User(id: int, phone: string, nickName: string)

  /** What `login` returns, or the exception it throws. */
  datatype LoginResult = LoginOk(token: string) | LoginFail(message: string) | LoginNpe

  /** `login`'s effect: its result, the user table (keyed by phone), and
      the token sessions (`LOGIN_USER_KEY + token` to the logged-in user). */
  datatype LoginOutcome = LoginOutcome(result: LoginResult, users: map<string, User>, sessions: map<string, User>)

  const PHONE_INVALID: string := "手机号格式错误！"
  const CODE_WRONG: string := "验证码错误！"
  const LOGIN_FAILED: string := "登录失败！"

  /** `createUserWithPhone`: a user named `nickPrefix + random10`; a failed
      save returns null and writes nothing. */
  function CreateUserWithPhone(users: map<string, User>, phone: string, newId: int, nickPrefix: string,
                               random10: string, saveOk: bool): (r: (Option<User>, map<string, User>))
    ensures saveOk ==> r.0 == Some(User(newId, phone, nickPrefix + random10))
                       && r.1 == users[phone := User(newId, phone, nickPrefix + random10)]
    ensures !saveOk ==> r == (None, users)
  {
    var user := User(newId, phone, nickPrefix + random10);
    if saveOk then (Some(user), users[phone := user]) else (None, users)
  }

  /** The checks `login` makes before touching the user table: phone
      format first, then the cached code (null or empty, or not equal to the
      submitted one, fails). */
  function LoginPrecheck(codes: Strings, phone: string, code: Option<string>,
                         phoneInvalid: string -> bool): Option<string>
  {
    if phoneInvalid(phone) then Some(PHONE_INVALID)
    else
      var cacheCode := Get(codes, Constants.LOGIN_CODE_KEY + phone);
      if IsEmptyText(cacheCode) || Some(cacheCode.value) != code then Some(CODE_WRONG)
      else None
  }

  /** `login` as written. A user whose save failed is null; the DTO mapper
      maps null to null, and the log line that reads the DTO's icon throws
      before the `else` branch that would return the failure is reached. */
  function Login(codes: Strings, users: map<string, User>, sessions: map<string, User>, phone: string,
                 code: Option<string>, phoneInvalid: string -> bool, token: string, newId: int,
                 nickPrefix: string, random10: string, saveOk: bool): (r: LoginOutcome)
    ensures LoginPrecheck(codes, phone, code, phoneInvalid).Some? ==>
              r == LoginOutcome(LoginFail(LoginPrecheck(codes, phone, code, phoneInvalid).value), users, sessions)
    // past the checks, a known phone logs in as its user without touching the table
    ensures LoginPrecheck(codes, phone, code, phoneInvalid) == None && phone in users ==>
              r == LoginOutcome(LoginOk(token), users, sessions[Constants.LOGIN_USER_KEY + token := users[phone]])
    // an unknown phone logs in as the newly saved user ...
    ensures LoginPrecheck(codes, phone, code, phoneInvalid) == None && phone !in users && saveOk ==>
              var u := User(newId, phone, nickPrefix + random10);
              r == LoginOutcome(LoginOk(token), users[phone := u], sessions[Constants.LOGIN_USER_KEY + token := u])
    // ... and a failed save ends in the null DTO's exception, with no session
    ensures LoginPrecheck(codes, phone, code, phoneInvalid) == None && phone !in users && !saveOk ==>
              r == LoginOutcome(LoginNpe, users, sessions)
  {
    match LoginPrecheck(codes, phone, code, phoneInvalid)
    case Some(msg) => LoginOutcome(LoginFail(msg), users, sessions)
    case None =>
      var (user, users') :=
        if phone in users then (Some(users[phone]), users)
        else CreateUserWithPhone(users, phone, newId, nickPrefix, random10, saveOk);
      match user
      case None => LoginOutcome(LoginNpe, users', sessions)
      case Some(u) => LoginOutcome(LoginOk(token), users', sessions[Constants.LOGIN_USER_KEY + token := u])
  }

  /** `login` with the evident intent of its last branch: a user that could
      not be saved yields "登录失败！" and no session. */
  function LoginFixed(codes: Strings, users: map<string, User>, sessions: map<string, User>, phone: string,
                      code: Option<string>, phoneInvalid: string -> bool, token: string, newId: int,
                      nickPrefix: string, random10: string, saveOk: bool): (r: LoginOutcome)
    ensures r.result != LoginNpe
  {
    var out := Login(codes, users, sessions, phone, code, phoneInvalid, token, newId, nickPrefix, random10, saveOk);
    if out.result == LoginNpe then LoginOutcome(LoginFail(LOGIN_FAILED), out.users, sessions) else out
  }

  /** The phone check comes first, then the code check; either failure
      changes nothing. */
  lemma LoginRejects(codes: Strings, users: map<string, User>, sessions: map<string, User>, phone: string,
                     code: Option<string>, phoneInvalid: string -> bool, token: string, newId: int,
                     nickPrefix: string, random10: string, saveOk: bool)
    ensures var r := LoginFixed(codes, users, sessions, phone, code, phoneInvalid, token, newId, nickPrefix, random10, saveOk);
            var cached := Get(codes, Constants.LOGIN_CODE_KEY + phone);
            && (phoneInvalid(phone) ==> r == LoginOutcome(LoginFail(PHONE_INVALID), users, sessions))
            && (!phoneInvalid(phone) && (cached == None || cached == Some("") || cached != code) ==>
                  r == LoginOutcome(LoginFail(CODE_WRONG), users, sessions))
  {
  }

  /** A matching code logs in: a known phone keeps the table, an unknown
      phone gets a new user named `nickPrefix` plus the random suffix, and
      the token's session holds that user. */
  lemma LoginSucceeds(codes: Strings, users: map<string, User>, sessions: map<string, User>, phone: string,
                      code: string, phoneInvalid: string -> bool, token: string, newId: int,
                      nickPrefix: string, random10: string)
    requires !phoneInvalid(phone) && Get(codes, Constants.LOGIN_CODE_KEY + phone) == Some(code) && code != ""
    ensures var r := LoginFixed(codes, users, sessions, phone, Some(code), phoneInvalid, token, newId, nickPrefix, random10, true);
            var u := if phone in users then users[phone] else User(newId, phone, nickPrefix + random10);
            && r.result == LoginOk(token)
            && r.users == users[phone := u]
            && r.sessions == sessions[Constants.LOGIN_USER_KEY + token := u]
  {
    if phone in users {
      assert users[phone := users[phone]] == users;
    }
  }

  /** As written, an unknown phone whose save fails reaches the icon log
      line with a null DTO and throws. */
  lemma LoginSaveFailureThrows(codes: Strings, users: map<string, User>, sessions: map<string, User>, phone: string,
                               code: string, phoneInvalid: string -> bool, token: string, newId: int,
                               nickPrefix: string, random10: string)
    requires !phoneInvalid(phone) && Get(codes, Constants.LOGIN_CODE_KEY + phone) == Some(code) && code != ""
    requires phone !in users
    ensures Login(codes, users, sessions, phone, Some(code), phoneInvalid, token, newId, nickPrefix, random10, false).result == LoginNpe
    ensures LoginFixed(codes, users, sessions, phone, Some(code), phoneInvalid, token, newId, nickPrefix, random10, false)
            == LoginOutcome(LoginFail(LOGIN_FAILED), users, sessions)
  {
  }
}

=== FILE: voucher_order.dfy ===
/**
 * The flash-sale order pipeline (`VoucherOrderServiceImpl`):
 *
 *  - `seckillVoucher` dispatches on the admission script's reply code;
 *  - `createVoucherOrder` is the transactional apply: one order per user
 *    and voucher, a stock decrement guarded by `stock > 0`, then the insert;
 *  - `handlerVoucherOrder` runs the apply under a per-user lock;
 *  - the stream consumer reads new entries, acknowledges an entry only
 *    after the handler returned normally, and after an exception drains
 *    the pending list from offset `0`.
 *
 * The admission script, Redisson's lock, the transaction proxy and the
 * consumer's `running` flag are inputs: a set of lock keys other clients
 * hold, a flag saying whether the proxy field has been set, and a sequence
 * of such environments whose end stands for `running` turning false.
 */
module VoucherOrder {
  import opened Base
  import Constants

  // ---------------------------------------------------------------------
  // seckillVoucher
  // ---------------------------------------------------------------------

  /** What `seckillVoucher` returns or throws. */
  datatype SeckillResult =
    | Ok(orderId: int)
    | Fail(message: string)
    | IllegalState(code: int)    // `IllegalStateException` for an unknown code
    | NullReply                  // `result.intValue()` on a null reply

  const NOT_STARTED: string := "秒杀尚未开始"
  const ENDED: string := "秒杀已经结束"
  const OUT_OF_STOCK: string := "库存不足"
  const DUPLICATE: string := "不能重复下单"

  /** The failure message of a non-zero reply the code knows, after `intValue()`. */
  function ReplyMessage(code: int): Option<string> {
    if code == -1 then Some(NOT_STARTED)
    else if code == -2 then Some(ENDED)
    else if code == 1 then Some(OUT_OF_STOCK)
    else if code == 2 then Some(DUPLICATE)
    else None
  }

  /** `seckillVoucher`: `orderId` was generated before the script ran and
      `reply` is the script's `Long` reply. */
  function SeckillVoucher(orderId: int, reply: Option<int>): (r: SeckillResult)
    ensures reply == None <==> r == NullReply
    ensures reply.Some? && IntValue(reply.value) == 0 <==> r == Ok(orderId)
    ensures r.Fail? ==> reply.Some? && ReplyMessage(IntValue(reply.value)) == Some(r.message)
    ensures r.IllegalState? ==> reply.Some? && r.code == IntValue(reply.value)
                                && r.code != 0 && ReplyMessage(r.code) == None
  {
    match reply
    case None => NullReply
    case Some(code) =>
      var c := IntValue(code);
      if c == 0 then Ok(orderId)
      else match ReplyMessage(c)
        case Some(msg) => Fail(msg)
        case None => IllegalState(c)
  }

  /** The four failure codes, and nothing else, yield their messages. */
  lemma SeckillFailureCodes(orderId: int, code: int)
    requires INT_MIN <= code <= INT_MAX
    ensures code == -1 <==> SeckillVoucher(orderId, Some(code)) == Fail(NOT_STARTED)
    ensures code == -2 <==> SeckillVoucher(orderId, Some(code)) == Fail(ENDED)
    ensures code == 1 <==> SeckillVoucher(orderId, Some(code)) == Fail(OUT_OF_STOCK)
    ensures code == 2 <==> SeckillVoucher(orderId, Some(code)) == Fail(DUPLICATE)
    ensures code !in {-2, -1, 0, 1, 2} <==> SeckillVoucher(orderId, Some(code)) == IllegalState(code)
  {
    IntValueOfInt(code);
  }

  /** A reply outside the `int` range is truncated before dispatch: 2^32 reads as success. */
  lemma SeckillReplyTruncated(orderId: int)
    ensures SeckillVoucher(orderId, Some(0x1_0000_0000)) == Ok(orderId)
    ensures SeckillVoucher(orderId, Some(0x1_0000_0001)) == Fail(OUT_OF_STOCK)
  {
  }

  // ---------------------------------------------------------------------
  // createVoucherOrder
  // ---------------------------------------------------------------------

  datatype Order = Order(id: int, userId: int, voucherId: int)

  /** The two tables the apply touches: voucher id to remaining stock,
      and order id to order. */
  datatype Db = Db(stock: map<int, int>, orders: map<int, Order>)

  /** `query().eq("user_id", u).eq("voucher_id", v).count() > 0`. */
  predicate HasOrder(db: Db, userId: int, voucherId: int) {
    exists id :: id in db.orders && db.orders[id].userId == userId && db.orders[id].voucherId == voucherId
  }

  /** How the apply ended. `RolledBack` is the insert failing on an
      existing order id: the exception rolls the decrement back. */
  datatype Apply = Created | AlreadyOrdered | SoldOut | RolledBack

  /** `createVoucherOrder`, one transaction. The insert's boolean is ignored
      by the source; only its exception matters. */
  function CreateVoucherOrder(db: Db, o: Order): (r: (Apply, Db))
    ensures r.0 == AlreadyOrdered <==> HasOrder(db, o.userId, o.voucherId)
    ensures r.0 == SoldOut <==>
              !HasOrder(db, o.userId, o.voucherId) && !(o.voucherId in db.stock && db.stock[o.voucherId] > 0)
    // the insert fails exactly on an order id already taken, after both checks passed
    ensures r.0 == RolledBack <==>
              && !HasOrder(db, o.userId, o.voucherId)
              && o.voucherId in db.stock && db.stock[o.voucherId] > 0
              && o.id in db.orders
    ensures r.0 != Created ==> r.1 == db
    ensures r.0 == Created ==>
              && o.id !in db.orders && r.1.orders == db.orders[o.id := o]
              && |r.1.orders| == |db.orders| + 1
              && o.voucherId in db.stock && db.stock[o.voucherId] > 0
              && r.1.stock == db.stock[o.voucherId := db.stock[o.voucherId] - 1]
  {
    if HasOrder(db, o.userId, o.voucherId) then (AlreadyOrdered, db)
    else if !(o.voucherId in db.stock && db.stock[o.voucherId] > 0) then (SoldOut, db)
    else if o.id in db.orders then (RolledBack, db)
    else (Created, Db(db.stock[o.voucherId := db.stock[o.voucherId] - 1], db.orders[o.id := o]))
  }

  /** No stock counter is negative. */
  predicate StockNonNegative(db: Db) {
    forall v :: v in db.stock ==> db.stock[v] >= 0
  }

  /** One order per user and voucher. */
  predicate OnePerUser(db: Db) {
    forall a, b ::
      (a in db.orders && b in db.orders
       && db.orders[a].userId == db.orders[b].userId
       && db.orders[a].voucherId == db.orders[b].voucherId) ==> a == b
  }

  predicate Consistent(db: Db) {
    StockNonNegative(db) && OnePerUser(db)
  }

  /** The apply never drives stock below zero and never writes a second
      order for the same user and voucher. */
  lemma CreatePreservesConsistent(db: Db, o: Order)
    requires Consistent(db)
    ensures Consistent(CreateVoucherOrder(db, o).1)
  {
    var (r, db') := CreateVoucherOrder(db, o);
    if r == Created {
      assert !HasOrder(db, o.userId, o.voucherId);
      assert forall x :: x in db.orders ==> db.orders[x].userId != o.userId || db.orders[x].voucherId != o.voucherId;
    }
  }

  /** Applying the same order twice is applying it once. */
  lemma CreateIdempotent(db: Db, o: Order)
    ensures CreateVoucherOrder(CreateVoucherOrder(db, o).1, o).1 == CreateVoucherOrder(db, o).1
  {
    var (r, db') := CreateVoucherOrder(db, o);
    if r == Created {
      assert db'.orders[o.id] == o;
      assert HasOrder(db', o.userId, o.voucherId);
    }
  }

  // ---------------------------------------------------------------------
  // handlerVoucherOrder
  // ---------------------------------------------------------------------

  /** The lock key of a user's orders. */
  function OrderLockKey(userId: int): string {
    Constants.LOCK_ORDER_KEY + LongStr(userId)
  }

  /** What the consumer cannot see: the per-user lock keys other clients
      hold, and whether the transactional proxy field has been set (it is
      assigned by the first successful `seckillVoucher`, and is null before). */
  datatype Env = Env(heldByOthers: set<string>, proxyReady: bool)

  /** How a handler call ended: it returned, or it threw. */
  datatype Step = Normal | Thrown

  /** `handlerVoucherOrder`. A lock held elsewhere makes it log and return
      normally with nothing written. Otherwise the apply runs and the lock
      is released in `finally`, so the held set is the same afterwards in
      every case and is not part of the result. */
  function HandlerVoucherOrder(db: Db, env: Env, o: Order): (r: (Step, Db))
    ensures OrderLockKey(o.userId) in env.heldByOthers ==> r == (Normal, db)
    ensures OrderLockKey(o.userId) !in env.heldByOthers && !env.proxyReady ==> r == (Thrown, db)
    ensures OrderLockKey(o.userId) !in env.heldByOthers && env.proxyReady ==>
              && r.1 == CreateVoucherOrder(db, o).1
              && (r.0 == Thrown <==> CreateVoucherOrder(db, o).0 == RolledBack)
    ensures r.0 == Thrown ==> r.1 == db
  {
    if OrderLockKey(o.userId) in env.heldByOthers then (Normal, db)
    else if !env.proxyReady then (Thrown, db)
    else
      var (a, db') := CreateVoucherOrder(db, o);
      if a == RolledBack then (Thrown, db) else (Normal, db')
  }

  lemma HandlerPreservesConsistent(db: Db, env: Env, o: Order)
    ensures Consistent(db) ==> Consistent(HandlerVoucherOrder(db, env, o).1)
  {
    if Consistent(db) {
      CreatePreservesConsistent(db, o);
    }
  }

  /** Crash after commit, before the ack: the redelivered entry is handled
      again, returns normally and changes nothing, so the order exists once. */
  lemma RedeliveryAfterCommit(db: Db, env: Env, env2: Env, o: Order)
    requires OrderLockKey(o.userId) !in env.heldByOthers && env.proxyReady
    requires CreateVoucherOrder(db, o).0 == Created
    requires env2.proxyReady
    ensures var db1 := HandlerVoucherOrder(db, env, o).1;
            && HasOrder(db1, o.userId, o.voucherId)
            && HandlerVoucherOrder(db1, env2, o) == (Normal, db1)
  {
    var (a, db1) := CreateVoucherOrder(db, o);
    if a == Created {
      assert db1.orders[o.id] == o;
    }
    CreateIdempotent(db, o);
  }

  // ---------------------------------------------------------------------
  // The stream consumer group
  // ---------------------------------------------------------------------

  /** `s` is strictly increasing. */
  predicate Increasing(s: seq<nat>) {
    forall i, j :: 0 <= i < j < |s| ==> s[i] < s[j]
  }

  /** The consumer group's view of `stream.orders`: the entries (an entry's
      id is its position), how many were delivered by `>` reads, the
      pending list (delivered, not acknowledged, oldest first) and the
      acknowledged ids. */
  datatype Group = Group(entries: seq<Order>, delivered: nat, pending: seq<nat>, acked: set<nat>)

  /** Every delivered entry is either pending or acknowledged, never both;
      nothing undelivered is either. */
  predicate Valid(g: Group) {
    && g.delivered <= |g.entries|
    && Increasing(g.pending)
    && (forall i :: 0 <= i < |g.pending| ==> g.pending[i] < g.delivered)
    && (forall n :: n in g.acked ==> n < g.delivered)
    && (forall n :: 0 <= n < g.delivered ==> (n in g.pending <==> n !in g.acked))
  }

  /** XACK of a pending id. */
  function Ack(g: Group, n: nat): (g': Group)
    requires Valid(g) && |g.pending| >= 1 && (n == g.pending[0] || n == g.pending[|g.pending| - 1])
    ensures Valid(g')
    ensures g'.entries == g.entries && g'.delivered == g.delivered
    ensures g'.acked == g.acked + {n}
    ensures forall x :: x in g'.pending <==> x in g.pending && x != n
  {
    var rest := if n == g.pending[0] then g.pending[1..] else g.pending[..|g.pending| - 1];
    assert forall x :: x in rest <==> x in g.pending && x != n;
    Group(g.entries, g.delivered, rest, g.acked + {n})
  }

  /** How one turn of the live loop ended: an empty read, an entry handled
      and acknowledged, or an exception with the entry left pending. */
  datatype Tick = Idle | Handled(id: nat) | Failed(id: nat)

  /** One turn of `run()`: `XREADGROUP ... >` for one entry, the handler,
      then XACK only after a normal return. */
  function LiveStep(g: Group, db: Db, env: Env): (r: (Tick, Group, Db))
    requires Valid(g)
    ensures Valid(r.1) && r.1.entries == g.entries
    ensures g.delivered == |g.entries| <==> r.0 == Idle
    ensures r.0 == Idle ==> r.1 == g && r.2 == db
    ensures Consistent(db) ==> Consistent(r.2)
    ensures r.0.Handled? ==>
              && r.0.id == g.delivered && r.1.delivered == g.delivered + 1
              && r.1.acked == g.acked + {g.delivered} && r.1.pending == g.pending
              && (HandlerVoucherOrder(db, env, g.entries[g.delivered]) == (Normal, r.2))
    ensures r.0.Failed? ==>
              && r.0.id == g.delivered && r.1.delivered == g.delivered + 1
              && r.1.acked == g.acked && r.1.pending == g.pending + [g.delivered]
              && HandlerVoucherOrder(db, env, g.entries[g.delivered]).0 == Thrown && r.2 == db
  {
    if g.delivered == |g.entries| then (Idle, g, db)
    else
      var n := g.delivered;
      var read := Group(g.entries, n + 1, g.pending + [n], g.acked);
      assert Valid(read);
      var (step, db') := HandlerVoucherOrder(db, env, g.entries[n]);
      HandlerPreservesConsistent(db, env, g.entries[n]);
      if step == Normal then
        var acked := Ack(read, n);
        assert acked.pending == g.pending;
        (Handled(n), acked, db')
      else (Failed(n), read, db)
  }

  /** Where a drain of the pending list stopped: the group, the tables,
      the turns it ran and the pending entries it acknowledged. */
  datatype Drained = Drained(g: Group, db: Db, turns: nat, acks: nat)

  /** The ids among the first `k` of `p`. */
  function Oldest(p: seq<nat>, k: nat): set<nat>
    requires k <= |p|
  {
    set x | x in p[..k]
  }

  /** The oldest `k + 1` ids are the first one and the oldest `k` of the rest. */
  lemma OldestStep(p: seq<nat>, k: nat)
    requires k < |p|
    ensures Oldest(p, k + 1) == {p[0]} + Oldest(p[1..], k)
  {
    assert p[..k + 1] == [p[0]] + p[1..][..k];
  }

  /** The reference drain. Each turn (one environment) reads the oldest
      pending entry and runs the handler on it; a normal return
      acknowledges it and keeps the handler's tables, an exception keeps
      the tables and retries the same entry on the next turn. It stops on
      an empty pending list or when the environments (`running`) run out. */
  function Drain(g: Group, db: Db, envs: seq<Env>): (r: Drained)
    requires Valid(g)
    ensures Valid(r.g) && r.g.entries == g.entries && r.g.delivered == g.delivered
    ensures r.turns <= |envs| && r.acks <= |g.pending|
    // exactly the oldest `acks` pending entries are acknowledged, in order
    ensures r.g.pending == g.pending[r.acks..]
    ensures r.g.acked == g.acked + Oldest(g.pending, r.acks)
    // it only stops early, with `running` still true, on an empty pending list
    ensures r.turns < |envs| ==> r.g.pending == []
    ensures Consistent(db) ==> Consistent(r.db)
    decreases |envs|
  {
    if envs == [] || g.pending == [] then Drained(g, db, 0, 0)
    else
      var n := g.pending[0];
      var (step, db1) := HandlerVoucherOrder(db, envs[0], g.entries[n]);
      HandlerPreservesConsistent(db, envs[0], g.entries[n]);
      if step == Normal then
        var g1 := Ack(g, n);
        assert g1.pending == g.pending[1..];
        var rest := Drain(g1, db1, envs[1..]);
        assert g.pending[1..][rest.acks..] == g.pending[rest.acks + 1..];
        OldestStep(g.pending, rest.acks);
        Drained(rest.g, rest.db, rest.turns + 1, rest.acks + 1)
      else
        var rest := Drain(g, db, envs[1..]);
        Drained(rest.g, rest.db, rest.turns + 1, rest.acks)
  }

  /** A turn whose handler throws changes nothing and the next turn retries
      the same entry; a turn whose handler returns acknowledges that entry
      and goes on from the handler's tables. */
  lemma {:induction false} DrainFirstTurn(g: Group, db: Db, envs: seq<Env>)
    requires Valid(g) && envs != [] && g.pending != []
    ensures var (step, db1) := HandlerVoucherOrder(db, envs[0], g.entries[g.pending[0]]);
            var r := Drain(g, db, envs);
            && (step == Thrown ==>
                  var rest := Drain(g, db, envs[1..]);
                  r == Drained(rest.g, rest.db, rest.turns + 1, rest.acks))
            && (step == Normal ==>
                  && r.acks >= 1 && g.pending[0] in r.g.acked
                  && var rest := Drain(Ack(g, g.pending[0]), db1, envs[1..]);
                     r == Drained(rest.g, rest.db, rest.turns + 1, rest.acks + 1))
  {
    var n := g.pending[0];
    var r := Drain(g, db, envs);
    if HandlerVoucherOrder(db, envs[0], g.entries[n]).0 == Normal {
      assert g.pending[..r.acks][0] == n;
    }
  }

  /** An entry the handler keeps throwing on is never acknowledged: with
      every turn throwing, the drain runs all turns and acknowledges nothing. */
  lemma {:induction false} ThrowingEntryStaysPending(g: Group, db: Db, envs: seq<Env>)
    requires Valid(g) && g.pending != []
    requires forall t :: 0 <= t < |envs| ==> HandlerVoucherOrder(db, envs[t], g.entries[g.pending[0]]).0 == Thrown
    ensures Drain(g, db, envs) == Drained(g, db, |envs|, 0)
    decreases |envs|
  {
    if envs != [] {
      assert forall t :: 0 <= t < |envs[1..]| ==> envs[1..][t] == envs[t + 1];
      ThrowingEntryStaysPending(g, db, envs[1..]);
    }
  }

  /** `handlePendingList`. Turn `i` runs in `envs[i]`; when the sequence is
      exhausted `running` has turned false. It computes the reference
      drain: how many turns ran, which pending entries were acknowledged
      (only after a normal return) and the tables the handlers left. */
  method HandlePendingList(g: Group, db: Db, envs: seq<Env>) returns (g': Group, db': Db, turns: nat, acks: nat)
    requires Valid(g)
    ensures Drained(g', db', turns, acks) == Drain(g, db, envs)
    ensures Valid(g') && g'.entries == g.entries && g'.delivered == g.delivered
    ensures g'.pending == g.pending[acks..]
    ensures turns < |envs| ==> g'.pending == []
  {
    g', db', turns, acks := g, db, 0, 0;
    var todo := envs;
    while todo != [] && g'.pending != []
      invariant Valid(g') && turns + |todo| == |envs|
      invariant var rest := Drain(g', db', todo);
                Drain(g, db, envs) == Drained(rest.g, rest.db, turns + rest.turns, acks + rest.acks)
      decreases |todo|
    {
      // `todo` holds the environments of the turns still to run
      var n := g'.pending[0];
      var handled := HandlerVoucherOrder(db', todo[0], g'.entries[n]);
      if handled.0 == Normal {
        g' := Ack(g', n);
        acks := acks + 1;
        db' := handled.1;
      }
      turns := turns + 1;
      todo := todo[1..];
    }
  }


  /** One turn of `run()` with its recovery: a live step, and after an
      exception a drain of the pending list under `recovery`. */
  datatype Round = Round(live: Env, recovery: seq<Env>)

  /** The reference schedule of `run()`: each round is a `LiveStep`, and a
      failed live step is followed by a `Drain` under that round's
      recovery environments. */
  function Rounds(g: Group, db: Db, rounds: seq<Round>): (r: (Group, Db))
    requires Valid(g)
    ensures Valid(r.0) && r.0.entries == g.entries
    ensures g.acked <= r.0.acked && g.delivered <= r.0.delivered
    ensures Consistent(db) ==> Consistent(r.1)
    decreases |rounds|
  {
    if rounds == [] then (g, db)
    else
      var (tick, g1, db1) := LiveStep(g, db, rounds[0].live);
      if tick.Failed? then
        var d := Drain(g1, db1, rounds[0].recovery);
        assert g1.acked <= d.g.acked;
        Rounds(d.g, d.db, rounds[1..])
      else Rounds(g1, db1, rounds[1..])
  }

  /** `run()` over a finite schedule of rounds: it follows `Rounds`, so an
      entry is acknowledged only by a live step or a drain turn whose
      handler returned normally. */
  method Run(g: Group, db: Db, rounds: seq<Round>) returns (g': Group, db': Db)
    requires Valid(g)
    ensures (g', db') == Rounds(g, db, rounds)
    ensures Valid(g') && g'.entries == g.entries
    ensures g.acked <= g'.acked && g.delivered <= g'.delivered
  {
    g', db' := g, db;
    var i := 0;
    while i < |rounds|
      invariant i <= |rounds| && Valid(g')
      invariant Rounds(g', db', rounds[i..]) == Rounds(g, db, rounds)
    {
      assert rounds[i..][1..] == rounds[i + 1..];
      var (tick, g1, db1) := LiveStep(g', db', rounds[i].live);
      g', db' := g1, db1;
      if tick.Failed? {
        var g2, db2, _, _ := HandlePendingList(g', db', rounds[i].recovery);
        g', db' := g2, db2;
      }
      i := i + 1;
    }
    assert rounds[i..] == [];
  }
}
